=== FILE: README.md ===
# Order-flow range bars and trapped-order statistics, in Dafny

The repository is a set of Python scripts for order-flow research on the ES
future. Together they form a small pipeline:

1. `scripts/estrai_rangebar.py` turns a tick stream into range bars. Each bar
   closes exactly 8 ticks (2.0 points) from its open and then emits "phantom"
   gap bars. Every bar records, per price level, its volume, its delta and
   the bid and ask volume. The running cumulative delta spans the whole
   stream.
2. `scripts/pulizia_candle_data_raw.py` cleans the bar file. It strips numpy
   scalar wrappers from the price-level text and merges levels that denote
   the same price. It then orders the levels by price and recomputes volume
   and delta from the levels. Bars whose levels come out empty are dropped.
3. `scripts/ricerca_parametri_trapped_orders.py` searches for "trapped
   orders". A search candidate is a bar whose extreme levels hold an
   excessive share of volume or delta. The bar is kept when the bars around
   it reverse without breaking its extreme. The search then measures
   divergence, oblique imbalances and the excursion until price returns to
   the close. Last, it keeps the longest window per bar.
4. `scripts/test_finestre_direzionali.py` measures, for every bar, how long
   its high and low hold before and after it. It counts how often each
   window length is reached and derives the order in which a strategy
   should test the windows.
5. `scripts/automazione_statistica.py` runs a grid search. For each of the
   720 parameter combinations it filters the bars to a time slot, records
   every triggering bar, and summarises the records into win rates, a
   profit factor and a score. The results with at least three trades are
   ranked by score.

Each script has its own module; its loops are methods proved equal to a
specification function, and the properties the scripts rely on are lemmas
about those functions. The modules are:

- `RangeBars` and `RangeBarProperties` (extractor);
- `PriceStatsText` (the three wrapper strippers);
- `CandleCleaner`;
- `TrappedOrders` and `TrappedOrderSearch`;
- `DirectionalWindows`;
- `GridSearch`.

Two modules are shared:

- `Sorting` is a stable sort by a comparator. It stands for Python's
  `sorted` and for pandas' `sort_values`.
- `Wrappers` holds the `Option` type.

Data types:

- Prices are exact `real`s; ES prices are multiples of 0.25, which binary
  floats hold exactly.
- Volumes are integers.
- A dictionary keyed by price is a sequence of records with distinct
  prices, in insertion order.
- Decoding a text with `ast.literal_eval` is a function parameter `decode`.
  It yields the decoded entries, or `None` for every way the `try` block
  can fail.

Two behaviours of the code worth knowing, both of which the model
follows:

- After a range bar closes, the next bar opens at the next tick's own
  price. It does not open at the previous close (`i = j` and then
  `i += 1`, `scripts/estrai_rangebar.py:117,183`).
  `RangeBarProperties.ThreeTickStream` works this through.
- In the trapped-orders search, a bar that does not close above its open
  counts as down. A delta that is not positive counts as negative. So a
  flat bar is divergent exactly when its delta is positive
  (`TrappedOrders.DivergenceMeaning`).

The one place where the model departs from the code is the oblique
imbalance lookup of the trapped-orders search. As written it never finds
a level, so it always reports zero imbalances. The model keeps that
behaviour as `TrappedOrders.AsWrittenFindsNothing` and builds the search
on the corrected lookup by price (see "## Findings" and "## Left out").

## Model

| member | source | states |
|---|---|---|
| RangeBars.SignedVolume | scripts/estrai_rangebar.py:48-53 | a print at or above the ask adds its size to delta, one at or below the bid (and not at the ask) subtracts it, any other adds nothing; the result lies within plus or minus the size |
| RangeBars.RecordTick | scripts/estrai_rangebar.py:61-68 | after recording a tick the level dictionary is never empty |
| RangeBars.LevelAt | scripts/estrai_rangebar.py:61-62 | the level read at a price carries that price, and a price never seen reads as the all-zero level the script creates |
| RangeBars.RecordTickLevels | scripts/estrai_rangebar.py:61-68 | recording a tick adds its size, signed size and side to the level at its price and changes no other level |
| RangeBars.RecordTickPrices | scripts/estrai_rangebar.py:61-62 | the dictionary's prices after recording are the previous prices plus the tick's price |
| RangeBars.RecordTickSums | scripts/estrai_rangebar.py:63-64 | recording raises total level volume by the tick's size and total level delta by its signed size |
| RangeBars.RecordTickConsistent | scripts/estrai_rangebar.py:61-68 | recording keeps every level's delta equal to ask minus bid volume, bid plus ask within volume, and prices distinct |
| RangeBars.Scan | scripts/estrai_rangebar.py:44-160 | a scan that closes a bar closes it at a tick between its start and the end of the data |
| RangeBars.ScanUp | scripts/estrai_rangebar.py:78-118 | a tick one range above the open closes an up bar at open plus range, followed by the up gap bars, and the scan stops at that tick |
| RangeBars.ScanDown | scripts/estrai_rangebar.py:119-159 | a tick one range below the open closes a down bar at open minus range, followed by the down gap bars |
| RangeBars.ScanInside | scripts/estrai_rangebar.py:74-160 | a tick strictly inside the range is absorbed and the scan goes on at the next tick |
| RangeBars.BarsFromStep | scripts/estrai_rangebar.py:31-183 | after a close the bars are the closed run followed by the bars built from the tick after the closing one, with the running delta carried over; at the end of data a single flushed bar |
| RangeBars.AppendUpGapBars | scripts/estrai_rangebar.py:97-116 | the gap loop appends exactly the zero-volume up bars, one range apart, while the price is a full range beyond the last close |
| RangeBars.AppendDownGapBars | scripts/estrai_rangebar.py:138-157 | the gap loop appends exactly the zero-volume down bars while the price is a full range below the last close |
| RangeBars.ScanBar | scripts/estrai_rangebar.py:44-181 | the inner loop reports a close exactly when the scan specification closes, and returns the bars of the close (bar plus gap bars, closing tick, running delta) or, at the end of data, the one flushed bar |
| RangeBars.BuildRangeBars | scripts/estrai_rangebar.py:24-183 | the whole loop produces exactly the bars the construction specifies, from delta 0 |
| RangeBarProperties.AbsorbBooks | scripts/estrai_rangebar.py:55-75 | absorbing a tick keeps levels consistent, volume and delta equal to the level sums, delta extremes bracketing open and running delta, and the price inside high and low |
| RangeBarProperties.AbsorbInside | scripts/estrai_rangebar.py:74-78 | a tick strictly inside the range leaves the bar with extremes strictly within one range of the open |
| RangeBarProperties.UpBarWellFormed | scripts/estrai_rangebar.py:78-96 | the bar emitted on an up close is well formed, spans exactly one range up, has direction 1 and has levels, and its low stays strictly above open minus one range (every earlier tick was inside the band) |
| RangeBarProperties.DownBarWellFormed | scripts/estrai_rangebar.py:119-137 | the bar emitted on a down close is well formed, spans exactly one range down, has direction -1 and has levels, and its high stays strictly below open plus one range |
| RangeBarProperties.FinalBarWellFormed | scripts/estrai_rangebar.py:161-180 | the bar flushed at end of data is well formed, with both extremes strictly inside one range of the open, its direction the sign of close minus open |
| RangeBarProperties.UpGapBarsRun | scripts/estrai_rangebar.py:97-116 | up gap bars form a chained run of full-range, zero-volume, direction-1 bars at the closing time, with delta open, high, low and close all the closing delta, ending within one range below the price |
| RangeBarProperties.DownGapBarsRun | scripts/estrai_rangebar.py:138-157 | down gap bars form the mirror run, with every delta field the closing delta, ending within one range above the price |
| RangeBarProperties.GapRunVolume | scripts/estrai_rangebar.py:109 | a run of gap bars carries no volume |
| RangeBarProperties.CloseThenGaps | scripts/estrai_rangebar.py:82-116 | a closed bar followed by its gap run is well formed, full range, delta-chained, every gap continuing its predecessor, ending at the closing time and delta |
| RangeBarProperties.ScanShape | scripts/estrai_rangebar.py:44-181 | every scan outcome opens where the bar opened; a close emits a well-behaved run ending at the closing tick's time and delta, a flush one well-formed bar closing at the last tick's time and price |
| RangeBarProperties.ScanTotals | scripts/estrai_rangebar.py:55-56 | a scan's emitted volume and final running delta are the bar's so far plus those of exactly the ticks it consumed |
| RangeBarProperties.JoinRuns | scripts/estrai_rangebar.py:31-42 | a closed run followed by bars whose delta opens at the run's close is again well formed, full-range but last, delta-chained, gaps following |
| RangeBarProperties.OpenValid | scripts/estrai_rangebar.py:32-41 | a bar opened at a tick, before absorbing it, satisfies the bar invariant |
| RangeBarProperties.BarsFromShape | scripts/estrai_rangebar.py:31-183 | bars are empty exactly when no tick is left; all well formed; all but the last a full range; delta-chained; gaps following; first opens at the first tick, last closes at the last tick's time, and at its price unless it is a full-range bar |
| RangeBarProperties.BarsFromTotals | scripts/estrai_rangebar.py:26-56 | no size is lost or invented: bar volumes add up to tick volumes and the last bar's closing delta is the running delta plus the ticks' delta |
| RangeBarProperties.RangeBarsOfStream | scripts/estrai_rangebar.py:24-183 | the script's output for any stream: empty iff no ticks, well formed (each bar strictly inside the band on the side opposite its direction), delta starts at 0 and ends at the stream's total delta, the last bar closes at the last tick's price unless it is a full-range bar, volume conserved |
| RangeBarProperties.ThreeTickStream | scripts/estrai_rangebar.py:117-183 | ticks 10, 12, 14: one up bar 10 to 12, then a flat bar opening at 14 (not at 12) flushed with direction 0 |
| RangeBarProperties.GapStream | scripts/estrai_rangebar.py:97-118 | ticks 10, 15: an up bar 10 to 12 and one gap bar 12 to 14 with no volume or levels; the move to 15 is in no bar |
| PriceStatsText.DeleteChar | scripts/ricerca_parametri_trapped_orders.py:19 | `replace(c, '')` leaves no `c` and every other character as often as before |
| PriceStatsText.LastIndex | scripts/pulizia_candle_data_raw.py:15 | the index found holds the rightmost `c`, or is -1 when there is no `c` |
| PriceStatsText.StripNumpyWrappers | scripts/pulizia_candle_data_raw.py:11-15 | the cleaner's loop deletes both prefixes, then the rightmost `)` once per prefix counted in the raw text |
| PriceStatsText.TrappedStrip | scripts/ricerca_parametri_trapped_orders.py:19 | the trapped-orders strip leaves no `)` at all |
| PriceStatsText.RunWithoutClose | scripts/test_finestre_direzionali.py:23 | `[^)]+` runs up to, not including, the first `)` |
| PriceStatsText.FloatPrefixSkip | scripts/pulizia_candle_data_raw.py:11 | deleting `np.int64(` finds nothing inside `np.float64(` |
| PriceStatsText.IntPrefixSkip | scripts/pulizia_candle_data_raw.py:11 | deleting `np.float64(` finds nothing inside `np.int64(` |
| PriceStatsText.TextDelete | scripts/pulizia_candle_data_raw.py:11-13 | on a wrapped-number text, deleting one prefix kind removes exactly those prefixes and counts one per wrapper of that kind |
| PriceStatsText.DeleteLastStep | scripts/pulizia_candle_data_raw.py:15 | reversing, deleting the first `)` and reversing back removes one `)` |
| PriceStatsText.DeleteLastNAll | scripts/pulizia_candle_data_raw.py:13-15 | deleting the rightmost `)` as many times as there are `)` deletes them all |
| PriceStatsText.ClosedText | scripts/pulizia_candle_data_raw.py:13-15 | with the prefixes gone, the text has one `)` per wrapper and without them is the unwrapped text |
| PriceStatsText.WrappedMatch | scripts/test_finestre_direzionali.py:23 | where a wrapper starts, the regular expression matches it whole |
| PriceStatsText.PieceRegex | scripts/test_finestre_direzionali.py:23 | `re.sub` rewrites one wrapper to its argument and continues after it |
| PriceStatsText.TextRegex | scripts/test_finestre_direzionali.py:23 | `re.sub` turns a wrapped-number text into its unwrapped text |
| PriceStatsText.PrefixesGone | scripts/pulizia_candle_data_raw.py:11-13 | deleting both prefixes leaves bare arguments and their `)`, and the prefixes counted are one per wrapper |
| PriceStatsText.CleanerStripText | scripts/pulizia_candle_data_raw.py:11-15 | the cleaner's strip turns a wrapped-number text into its unwrapped text |
| PriceStatsText.TrappedStripText | scripts/ricerca_parametri_trapped_orders.py:19 | the trapped-orders strip turns a wrapped-number text into its unwrapped text |
| PriceStatsText.StripsAgree | scripts/pulizia_candle_data_raw.py:11-15 | the cleaner's, the trapped-orders and the window scanner's strips agree on every wrapped-number text |
| CandleCleaner.AmountsAt | scripts/pulizia_candle_data_raw.py:20 | a price without a level reads as the `defaultdict`'s zero counters |
| CandleCleaner.AccumulatePrices | scripts/pulizia_candle_data_raw.py:23-27 | one update adds the entry's price to the dictionary's prices |
| CandleCleaner.AccumulateDistinct | scripts/pulizia_candle_data_raw.py:20-27 | updates keep one level per price |
| CandleCleaner.AccumulateAt | scripts/pulizia_candle_data_raw.py:23-27 | one update adds the entry's counters at its price and changes no other price |
| CandleCleaner.AccumulateTotal | scripts/pulizia_candle_data_raw.py:25-27 | one update adds the entry's counters to the totals |
| CandleCleaner.AggregatePrices | scripts/pulizia_candle_data_raw.py:20-27 | the merged dictionary has one level per distinct entry price, and exactly those prices |
| CandleCleaner.AggregateAt | scripts/pulizia_candle_data_raw.py:23-27 | at every price the merged level holds the sum of the entries at that price |
| CandleCleaner.AggregateTotal | scripts/pulizia_candle_data_raw.py:23-27 | merging loses and invents nothing in total |
| CandleCleaner.AggregateSpec | scripts/pulizia_candle_data_raw.py:20-27 | merging: distinct prices, exactly the entries' prices, per-price sums, same totals |
| CandleCleaner.InsertPrices | scripts/pulizia_candle_data_raw.py:30 | inserting a level into the sorted list adds its price |
| CandleCleaner.InsertIncreasing | scripts/pulizia_candle_data_raw.py:30 | inserting a new price into a strictly increasing list keeps it strictly increasing |
| CandleCleaner.SortByIncreasing | scripts/pulizia_candle_data_raw.py:30 | sorting a dictionary's levels gives strictly increasing prices and the same prices |
| CandleCleaner.SortByTotal | scripts/pulizia_candle_data_raw.py:30 | sorting keeps the totals |
| CandleCleaner.AmountsAtLevel | scripts/pulizia_candle_data_raw.py:20-27 | in a dictionary the counters read at a level's price are that level's |
| CandleCleaner.SameLevelsSameAmounts | scripts/pulizia_candle_data_raw.py:30 | reordering a dictionary's levels changes no price's counters |
| CandleCleaner.LevelsSpec | scripts/pulizia_candle_data_raw.py:17-32 | the cleaned levels have strictly increasing prices, exactly the entries' prices, per-price sums and the same totals |
| CandleCleaner.CleanDictionaryUnchanged | scripts/pulizia_candle_data_raw.py:20-30 | a dictionary already strictly increasing in price comes back level for level |
| CandleCleaner.AggregateOfIncreasing | scripts/pulizia_candle_data_raw.py:20-27 | merging entries with strictly increasing prices keeps them one level each, in order |
| CandleCleaner.AppendNewPrice | scripts/pulizia_candle_data_raw.py:23-27 | an entry priced above every level becomes a new last level |
| CandleCleaner.AggregatePriceLevels | scripts/pulizia_candle_data_raw.py:8-36 | `aggregate_price_levels` yields strictly increasing levels; none when decoding fails; otherwise exactly the entries' prices with per-price sums |
| CandleCleaner.CleanCandleData | scripts/pulizia_candle_data_raw.py:62-95 | the cleaning loop yields one cleaned record per row whose levels are not empty, in row order |
| CandleCleaner.CleanRowsCount | scripts/pulizia_candle_data_raw.py:71-73 | the number of records is the number of rows whose levels are not empty |
| CandleCleaner.CleanRowsFrom | scripts/pulizia_candle_data_raw.py:82-95 | every record is the cleaned record of some row with non-empty levels |
| CandleCleaner.CleanRecordSpec | scripts/pulizia_candle_data_raw.py:76-93 | a record keeps the row's times, prices and direction, with volume the level total and delta total ask minus total bid, over non-empty increasing levels |
| CandleCleaner.BarEntriesTotal | scripts/pulizia_candle_data_raw.py:42-44 | for a bar of the extractor, the entries' volume total is the bar's level volume and ask minus bid is its level delta |
| CandleCleaner.CleanedBar | scripts/pulizia_candle_data_raw.py:69-93 | an extractor bar read back: a gap bar is dropped, any other keeps times, prices and direction, with volume the bar's and delta its change of running delta |
| TrappedOrders.SliceBound | scripts/ricerca_parametri_trapped_orders.py:46-47 | a Python slice bound: a non-negative one is clipped to the length, a negative one counts from the end and is clipped at 0 |
| TrappedOrders.PySliceInside | scripts/ricerca_parametri_trapped_orders.py:67-71 | a Python slice with bounds inside the sequence is the plain slice |
| TrappedOrders.ParsePriceStats | scripts/ricerca_parametri_trapped_orders.py:13-22 | `parse_price_stats` is the decoded stripped text, or the empty dictionary when decoding fails |
| TrappedOrders.ExtractVolumeDeltaPerLevel | scripts/ricerca_parametri_trapped_orders.py:24-33 | the two dictionaries hold each level's volume and delta under its price |
| TrappedOrders.Keys | scripts/ricerca_parametri_trapped_orders.py:42 | the keys are the levels' prices in order |
| TrappedOrders.IsExtremeExcess | scripts/ricerca_parametri_trapped_orders.py:35-56 | the loop answers true exactly when some scanned extreme price has a volume share or absolute-delta share reaching its threshold over a positive total |
| TrappedOrders.ExtremeExcessMonotone | scripts/ricerca_parametri_trapped_orders.py:52-55 | raising a threshold can only turn excess into no excess |
| TrappedOrders.ExcessAtSomeLevel | scripts/ricerca_parametri_trapped_orders.py:46-55 | a verdict of excess names a level of the bar whose share reaches a threshold |
| TrappedOrders.FewLevelsAllScanned | scripts/ricerca_parametri_trapped_orders.py:46-49 | with at most `n_extremes` levels every level is scanned, so any level reaching a threshold gives excess |
| TrappedOrders.ZeroExtremesScanAll | scripts/ricerca_parametri_trapped_orders.py:46 | `prices[-0:]` is the whole list, so `n_extremes == 0` scans every level |
| TrappedOrders.MaxHighSpec | scripts/ricerca_parametri_trapped_orders.py:68-70 | `high.max()` bounds every high and is one of them |
| TrappedOrders.MinLowSpec | scripts/ricerca_parametri_trapped_orders.py:69-71 | `low.min()` bounds every low and is one of them |
| TrappedOrders.AnalyzePriceReaction | scripts/ricerca_parametri_trapped_orders.py:58-84 | the before-values exist iff the bar is not first and the window positive, the after-values iff a bar follows, and each difference exists iff its value does |
| TrappedOrders.ReactionBefore | scripts/ricerca_parametri_trapped_orders.py:63-83 | the before-values are the highest high and lowest low of the window before the bar (bounding every bar and attained), and `diff_max_before`/`diff_min_before` are those values minus the bar's close |
| TrappedOrders.ReactionAfter | scripts/ricerca_parametri_trapped_orders.py:65-81 | the after-values are the highest high and lowest low of the window after the bar (bounding every bar and attained), and `diff_max_after`/`diff_min_after` are those values minus the bar's close |
| TrappedOrders.CountUp | scripts/ricerca_parametri_trapped_orders.py:92 | the number of rising bars is at most the number of bars |
| TrappedOrders.CountDown | scripts/ricerca_parametri_trapped_orders.py:93 | the number of falling bars is at most the number of bars |
| TrappedOrders.CountsBounded | scripts/ricerca_parametri_trapped_orders.py:92-93 | rising and falling bars together are at most all bars |
| TrappedOrders.DirectionNeedsBars | scripts/ricerca_parametri_trapped_orders.py:86-99 | a direction other than neutral needs a non-empty range |
| TrappedOrders.ReverseSwapsCounts | scripts/ricerca_parametri_trapped_orders.py:92-93 | swapping every bar's open and close swaps the up and down counts |
| TrappedOrders.ReverseSwapsDirection | scripts/ricerca_parametri_trapped_orders.py:86-99 | swapping every bar's open and close swaps up and down and keeps neutral |
| TrappedOrders.Lookup | scripts/ricerca_parametri_trapped_orders.py:113-114 | `dict.get` in both directions: a found entry is in the dictionary with the key as its price, and nothing is found only when no entry has that price |
| TrappedOrders.TextKeyMisses | scripts/ricerca_parametri_trapped_orders.py:113-114 | a text key never finds an entry of a dictionary with numeric keys |
| TrappedOrders.TextTopCountZero | scripts/ricerca_parametri_trapped_orders.py:111-119 | with text keys the upper loop counts nothing |
| TrappedOrders.TextBottomCountZero | scripts/ricerca_parametri_trapped_orders.py:122-130 | with text keys the lower loop counts nothing |
| TrappedOrders.AsWrittenFindsNothing | scripts/ricerca_parametri_trapped_orders.py:101-132 | as written, `detect_imbalances` returns all six counters 0 for every bar |
| TrappedOrders.AsWrittenMissesImbalance | scripts/ricerca_parametri_trapped_orders.py:110-119 | a two-level bar whose top ask volume is ten times the bid volume below it: as written nothing is counted, looked up by price all three high counters are 1 |
| TrappedOrders.TopImbalances | scripts/ricerca_parametri_trapped_orders.py:110-119 | the upper loop counts, per threshold, the top levels whose ask volume over the bid volume one level down reaches it with a positive denominator |
| TrappedOrders.BottomImbalances | scripts/ricerca_parametri_trapped_orders.py:121-130 | the lower loop counts, per threshold, the bottom levels whose bid volume over the ask volume one level up reaches it |
| TrappedOrders.DetectImbalances | scripts/ricerca_parametri_trapped_orders.py:101-132 | `detect_imbalances` with lookups by price returns the two loops' counters |
| TrappedOrders.TopCountBounds | scripts/ricerca_parametri_trapped_orders.py:111-119 | upper counters are nested (x4 within x3 within x2) and at most the number of levels visited |
| TrappedOrders.BottomCountBounds | scripts/ricerca_parametri_trapped_orders.py:122-130 | lower counters are nested and at most the number of levels visited |
| TrappedOrders.ImbalancesNested | scripts/ricerca_parametri_trapped_orders.py:117-130 | on each side the x4 count is within x3, and x3 within x2 |
| TrappedOrders.ScanLength | scripts/ricerca_parametri_trapped_orders.py:143-162 | the number of bars scanned never runs past the data |
| TrappedOrders.MaxExcursionUntilReturn | scripts/ricerca_parametri_trapped_orders.py:134-163 | the loop returns the largest excursion beyond the close and the number of bars scanned, as specified |
| TrappedOrders.ScanLengthSpec | scripts/ricerca_parametri_trapped_orders.py:143-162 | the scan passes over bars that do not return to the close and stops on the first that does, or at the end |
| TrappedOrders.MaxExcursionSpec | scripts/ricerca_parametri_trapped_orders.py:149-158 | the maximum excursion is at least 0 and every excursion, and is 0 or one of them |
| TrappedOrders.ExcursionSpec | scripts/ricerca_parametri_trapped_orders.py:134-163 | only bars after the bar are scanned, up to the first return or the end, and the result is their largest excursion or 0 |
| TrappedOrders.DivergenceMeaning | scripts/ricerca_parametri_trapped_orders.py:190-193 | a bar is divergent iff it rises exactly when its delta is not positive; a flat bar iff its delta is positive |
| TrappedOrderSearch.ReversalHasReaction | scripts/ricerca_parametri_trapped_orders.py:179-184 | when the windows reverse, the before and after extremes both exist |
| TrappedOrderSearch.WindowDetectionKept | scripts/ricerca_parametri_trapped_orders.py:181-214 | a window that reverses without breaking the extreme yields the row built from the bar, reaction, imbalances and excursion |
| TrappedOrderSearch.CheckWindow | scripts/ricerca_parametri_trapped_orders.py:179-214 | the window body returns that window's row, or none |
| TrappedOrderSearch.ScanWindows | scripts/ricerca_parametri_trapped_orders.py:178-214 | the window loop returns the rows of windows 5, 10 and 20 in order |
| TrappedOrderSearch.ScanBar | scripts/ricerca_parametri_trapped_orders.py:175-214 | one pass of the main loop returns the bar's rows, none unless an extreme is excessive |
| TrappedOrderSearch.FindTrappedOrders | scripts/ricerca_parametri_trapped_orders.py:173-214 | the main loop returns the rows of all bars in order |
| TrappedOrderSearch.WindowDetectionFacts | scripts/ricerca_parametri_trapped_orders.py:181-188 | a row names its bar and window, and the window reverses without breaking the extreme |
| TrappedOrderSearch.WindowRowsAt | scripts/ricerca_parametri_trapped_orders.py:178 | a bar's rows carry that bar and windows tried |
| TrappedOrderSearch.WindowRowsKept | scripts/ricerca_parametri_trapped_orders.py:181-188 | every row of a bar comes from a window kept by the reversal and extreme tests |
| TrappedOrderSearch.WindowRowsIncrease | scripts/ricerca_parametri_trapped_orders.py:178 | a bar's rows come in strictly increasing window order |
| TrappedOrderSearch.DetectionsJustified | scripts/ricerca_parametri_trapped_orders.py:174-214 | every row names a bar with an excessive extreme, one of the three windows, and a window that reverses without breaking the extreme |
| TrappedOrderSearch.DetectionsOrdered | scripts/ricerca_parametri_trapped_orders.py:174-178 | rows come in bar order and, within a bar, window order |
| TrappedOrderSearch.DropFromMembers | scripts/ricerca_parametri_trapped_orders.py:222 | `drop_duplicates(keep='first')` keeps only rows whose index was not seen earlier |
| TrappedOrderSearch.DropFromCovers | scripts/ricerca_parametri_trapped_orders.py:222 | every row whose index was not seen earlier is kept |
| TrappedOrderSearch.DropFromIncreasing | scripts/ricerca_parametri_trapped_orders.py:221-222 | on rows sorted by index, the kept rows have strictly increasing indices |
| TrappedOrderSearch.FirstOfIndex | scripts/ricerca_parametri_trapped_orders.py:222 | every row has a first row with its index |
| TrappedOrderSearch.TotalIndexThenWiderFirst | scripts/ricerca_parametri_trapped_orders.py:221 | index ascending, window descending is a total preorder |
| TrappedOrderSearch.SortedByIndex | scripts/ricerca_parametri_trapped_orders.py:221 | after the sort rows are by index ascending, window descending |
| TrappedOrderSearch.KeepLargestWindowOrdered | scripts/ricerca_parametri_trapped_orders.py:220-222 | deduplication keeps only given rows, one per bar, in increasing bar order |
| TrappedOrderSearch.KeepLargestWindowLongest | scripts/ricerca_parametri_trapped_orders.py:220-222 | the row kept for a bar has the longest window of that bar's rows |
| TrappedOrderSearch.KeepLargestWindowCovers | scripts/ricerca_parametri_trapped_orders.py:220-222 | every bar that has a row keeps one |
| TrappedOrderSearch.DeduplicateResults | scripts/ricerca_parametri_trapped_orders.py:216-221 | the last step fails (the `KeyError` of sorting an empty frame by `index`) exactly when no row was detected |
| TrappedOrderSearch.DeduplicateResultsSpec | scripts/ricerca_parametri_trapped_orders.py:216-221 | no result exactly when nothing was detected; otherwise at least one saved row, each one of the detected rows |
| DirectionalWindows.TrimStart | scripts/test_finestre_direzionali.py:19 | `lstrip` removes a leading run of Python whitespace (every removed character is whitespace) and stops at the first other character |
| DirectionalWindows.TrimEnd | scripts/test_finestre_direzionali.py:19 | `rstrip` removes a trailing run of Python whitespace (every removed character is whitespace) and stops at the last other character |
| DirectionalWindows.ParsePriceStats | scripts/test_finestre_direzionali.py:17-28 | an empty text or `{}` gives the empty dictionary, a decoding failure too, and any other text whose regex-stripped form decodes gives exactly the decoded entries |
| DirectionalWindows.ParseRendered | scripts/test_finestre_direzionali.py:23-25 | a wrapped-number text decodes exactly as its unwrapped text |
| DirectionalWindows.StopLevel | scripts/test_finestre_direzionali.py:74-100 | the stop level is the high plus 0.5 for the high trigger and the low minus 0.5 for the low trigger |
| DirectionalWindows.AnyBeyond | scripts/test_finestre_direzionali.py:68 | `any(series > level)` holds iff some bar of the run goes past the level |
| DirectionalWindows.HoldsNested | scripts/test_finestre_direzionali.py:66-71 | a window passes only if every smaller one does |
| DirectionalWindows.RunEndSpec | scripts/test_finestre_direzionali.py:66-82 | the run of passing windows from `w` ends at a window after which the next one fails or the maximum is reached |
| DirectionalWindows.LongestWindowSpec | scripts/test_finestre_direzionali.py:62-108 | the recorded value is 0 or between 5 and the maximum; every window up to it passes; the next one fails unless it is the maximum |
| DirectionalWindows.LongestWindowIsLargest | scripts/test_finestre_direzionali.py:66-71 | stopping at the first failure finds the largest passing window |
| DirectionalWindows.AfterGuardNeverFires | scripts/test_finestre_direzionali.py:48-49 | inside the analysed range the after-loop's length guard never stops it |
| DirectionalWindows.ScanWindows | scripts/test_finestre_direzionali.py:62-108 | each window loop returns the longest window of the passing run from 5, or 0 |
| DirectionalWindows.SamplesInRange | scripts/test_finestre_direzionali.py:53-111 | one value per analysed bar, each 0 or between 5 and the maximum window |
| DirectionalWindows.CountZero | scripts/test_finestre_direzionali.py:133 | `np.sum(data == 0)` is at most the number of values |
| DirectionalWindows.CountAtLeast | scripts/test_finestre_direzionali.py:134-137 | `np.sum(data >= v)` is at most the number of values |
| DirectionalWindows.CountAtLeastMonotone | scripts/test_finestre_direzionali.py:134-137 | a higher bar is reached by fewer values |
| DirectionalWindows.ZeroPlusValid | scripts/test_finestre_direzionali.py:179 | when every value is 0 or at least 5, `zero + valid_5` is the number of values |
| DirectionalWindows.DistributionNested | scripts/test_finestre_direzionali.py:132-137 | `valid_25 <= valid_20 <= valid_10 <= valid_5` |
| DirectionalWindows.AnalyzeValidationWindows | scripts/test_finestre_direzionali.py:30-161 | the scan over all bars returns the distributions of the four recorded lists |
| DirectionalWindows.AnalysisCounts | scripts/test_finestre_direzionali.py:113-158 | for each trigger and side, `zero + valid_5` is the number of analysed bars and the counts are nested |
| DirectionalWindows.RateMonotone | scripts/test_finestre_direzionali.py:185-186 | over one positive total, more samples give a higher rate |
| DirectionalWindows.RatedWindows | scripts/test_finestre_direzionali.py:184-186 | one rate per target |
| DirectionalWindows.RatedWindowsSpec | scripts/test_finestre_direzionali.py:181-186 | the rate dictionary holds each target with its count over the total, in the targets' order |
| DirectionalWindows.RateFirstTotal | scripts/test_finestre_direzionali.py:189 | ordering by rate, highest first, is a total preorder |
| DirectionalWindows.WindowsOfSortBy | scripts/test_finestre_direzionali.py:189-190 | sorting rated windows reorders their windows alike |
| DirectionalWindows.OptimalTestOrders | scripts/test_finestre_direzionali.py:163-201 | the recommendations hold one entry for the high and one for the low trigger |
| DirectionalWindows.ByRatePermutes | scripts/test_finestre_direzionali.py:189-190 | the ranked order lists every target as often as given |
| DirectionalWindows.ByRateSorted | scripts/test_finestre_direzionali.py:188-190 | the ranked order goes from the highest rate to the lowest |
| DirectionalWindows.TestOrderExists | scripts/test_finestre_direzionali.py:179-186 | there is a recommendation exactly when the before-side total is positive |
| DirectionalWindows.TestOrderPermutes | scripts/test_finestre_direzionali.py:188-194 | both recommended orders are permutations of the targets |
| DirectionalWindows.TestOrderByRate | scripts/test_finestre_direzionali.py:188-194 | both orders go from the highest rate to the lowest, both over the before-side total |
| DirectionalWindows.TestOrderRates | scripts/test_finestre_direzionali.py:181-196 | each rate dictionary holds every target with its rate over the before-side total |
| DirectionalWindows.AscendingTargetsKept | scripts/test_finestre_direzionali.py:188-190 | with nested counts, targets given in ascending order come back unchanged |
| DirectionalWindows.TargetWindowsAscending | scripts/test_finestre_direzionali.py:307 | the default targets 5, 10, 20 are distribution keys in ascending order |
| DirectionalWindows.AnalysisOrderAscending | scripts/test_finestre_direzionali.py:303-307 | on the scanner's own statistics, whenever a bar is analysed, both triggers' recommended orders are 5, 10, 20 |
| GridSearch.FilterBySlot | scripts/automazione_statistica.py:33-50 | the filter keeps at most the rows it is given |
| GridSearch.FilterBySlotSound | scripts/automazione_statistica.py:43-50 | every kept row is in the slot and is the row its label names, and labels increase |
| GridSearch.FilterBySlotComplete | scripts/automazione_statistica.py:43-50 | no row in the slot is dropped |
| GridSearch.OtherSlotKeepsAll | scripts/automazione_statistica.py:47-48 | any other slot name keeps every row in order |
| GridSearch.SwitchInBothSlots | scripts/automazione_statistica.py:24-46 | with both bounds inclusive, a bar opening at 15:30 belongs to both slots |
| GridSearch.SlotsCoverSession | scripts/automazione_statistica.py:43-46 | a bar is in one of the two slots exactly when it opens between 09:00 and 18:00 |
| GridSearch.GridSizes | scripts/automazione_statistica.py:229-233 | the lists hold 1, 9, 8, 5 and 2 values |
| GridSearch.GridIndexBound | scripts/automazione_statistica.py:235-246 | every choice's position lies in `[0, 720)` |
| GridSearch.GridIndexRoundTrip | scripts/automazione_statistica.py:235-246 | position then choice gives the choice back |
| GridSearch.GridPointRoundTrip | scripts/automazione_statistica.py:235-246 | every position in `[0, 720)` holds a choice whose position it is |
| GridSearch.GenerateParameterCombinations | scripts/automazione_statistica.py:220-248 | 720 combinations, each choice of one value per list at its nested-loop position |
| GridSearch.AppendAtIndex | scripts/automazione_statistica.py:240-246 | appending at the next position keeps every placed combination in place |
| GridSearch.Records | scripts/automazione_statistica.py:66-109 | at most one record per filtered row |
| GridSearch.RecordsSound | scripts/automazione_statistica.py:69-109 | every record is the record of a filtered row that fires the trigger |
| GridSearch.RecordsComplete | scripts/automazione_statistica.py:74-109 | every filtered row that fires the trigger has its record |
| GridSearch.RecordsEmpty | scripts/automazione_statistica.py:111-112 | no records exactly when no filtered row fires the trigger |
| GridSearch.MakeRecordConsistent | scripts/automazione_statistica.py:93-107 | a record reports a reversal iff the classifier found one, otherwise 0, 0, `NONE`, `NONE`, and carries the row's label |
| GridSearch.Where | scripts/automazione_statistica.py:122-123 | a mask keeps at most the records given |
| GridSearch.WherePartition | scripts/automazione_statistica.py:122-131 | a mask and its negation split the records |
| GridSearch.WhereAll | scripts/automazione_statistica.py:134 | a mask keeps every record iff it accepts all of them |
| GridSearch.PercentBounds | scripts/automazione_statistica.py:119 | a share in percent lies in `[0, 100]` |
| GridSearch.MaxExcursionSpec | scripts/automazione_statistica.py:136 | the maximum excursion bounds every excursion and is one of them |
| GridSearch.RunSingleTest | scripts/automazione_statistica.py:52-218 | the test filters, records every triggering bar and summarises, or returns none |
| GridSearch.SingleTestNone | scripts/automazione_statistica.py:60-112 | there is no result exactly when no row in the slot fires the trigger |
| GridSearch.DivergentSplit | scripts/automazione_statistica.py:122-131 | the divergent and non-divergent trades add up to the trades |
| GridSearch.ProfitFactorInfinite | scripts/automazione_statistica.py:139-143 | the loss is 2.0 per trade without a reversal, and the profit factor is infinite exactly when every trade reversed |
| GridSearch.RatesArePercentages | scripts/automazione_statistica.py:119-153 | win, divergent, coherent and exhaustion rates lie in `[0, 100]` |
| GridSearch.RecordsConsistent | scripts/automazione_statistica.py:100-104 | no record has an excursion, stop status or trade direction without a reversal |
| GridSearch.ValidResults | scripts/automazione_statistica.py:278 | at most as many saved results as test results |
| GridSearch.ValidResultsSpec | scripts/automazione_statistica.py:278 | a result is saved exactly when it exists and has at least three trades |
| GridSearch.ScoreFirstTotal | scripts/automazione_statistica.py:298 | ordering by score, highest first, is a total preorder |
| GridSearch.SaveDetailedResults | scripts/automazione_statistica.py:271-314 | the ranked results are exactly the saved ones, each as often, by descending score |
| Sorting.SortBy | scripts/pulizia_candle_data_raw.py:30 | sorting keeps the length and the elements with their multiplicities |
| Sorting.SortBySorted | scripts/automazione_statistica.py:298 | under a total preorder the result is ordered |
| Sorting.SortByOfSorted | scripts/test_finestre_direzionali.py:189-190 | input already in order comes back unchanged, so ties keep their order |

## Left out

- Reading and writing CSV and JSON files, console prompts, progress output and the report printers are left out. The inputs are parameters and the outputs are return values. This covers `print_comprehensive_report`, `save_optimization_config`, `print_progress_summary` and `print_final_report`.
- Timestamp parsing is left out. The extractor's datetimes are integers. The grid search uses each row's time of day, in microseconds after midnight.
- `ast.literal_eval` and `json.loads` are the `decode` parameter. What Python's literal syntax accepts is not modelled.
- The means, medians, standard deviations and percentiles of the window scanner are left out, as are the medians carried in its recommendation. They are floating-point summaries that no other step uses.
- `DirectionalWindows.OptimalTestOrder`: with a zero total the script divides by zero (numpy gives `nan`). The model returns `None` there.
- `analyze_correlation_trends` (`scripts/test_finestre_direzionali.py:264-279`) is a stub that returns an empty dictionary. It is never called.
- `scripts/estrazione_stat_trapped_orders_pattern.py` is not part of this model.
- `has_volume_aggression_trigger`, `extract_volume_bid_ask_per_level`, `is_divergent_candle`, `classify_trigger_position`, `detect_imbalances_by_trigger_position`, `classify_imbalance_coherence`, `detect_exhaustion_by_trigger_position` and `classify_directional_reversal` are called by the grid search but defined in no file of the repository. They are the fields of `GridSearch.Classifiers`. So is `np.log1p`.
- A reversal classifier result that is an empty dictionary is falsy in Python. It would record a reversal without its fields. The model treats every classifier result as either none or a full reversal.
- `GridSearch.RunSingleTest` leaves out the winner and loser profiles and the duplicate `divergent_percentage` field. These are floating-point means over subsets that nothing else reads.
- `filter_by_time_slot` also converts the caller's `open_time` column in place. This side effect is not modelled.
- The grid-search driver's main loop over the 720 combinations is not modelled beyond `GridSearch.GenerateParameterCombinations`, `GridSearch.RunSingleTest` and `GridSearch.SaveDetailedResults`. It is timing and printing around those three.
- `GridSearch.SaveDetailedResults`: `sort_values` uses an unstable quicksort. The model sorts stably. The contract states only what both sorts promise: the same results, ordered by descending score.
- `TrappedOrderSearch.KeepLargestWindowOrdered`: pandas' sort on two keys does not promise which of two equal rows goes first. Two rows never agree on both index and window, so the contract does not depend on it.
- A bar whose decoded levels lack `volume` or `delta` stops the trapped-orders script with a `KeyError`. The model requires decodable rows (`TrappedOrderSearch.RowsDecodable`). Likewise, only the four `valid_<w>` keys are looked up in a distribution (`DirectionalWindows.IsDistributionKey`).
- `TrappedOrders.AnalyzePriceReaction`: its own contract states which values and differences are present; their values (the window extremes, and the extremes minus the bar's close) are stated in `TrappedOrders.ReactionBefore` and `TrappedOrders.ReactionAfter`. Comparisons with `None` (a `TypeError` in Python) cannot occur, because the search only compares reactions of windows that reverse (`TrappedOrderSearch.ReversalHasReaction`).
- `TrappedOrders.DetectImbalances` fixes the thresholds at 2, 3 and 4, the only ones the script passes.
- TrappedOrderSearch.CheckWindow: the row's six `imbalance_*` fields are the counts of the corrected detector (`TrappedOrders.DetectImbalances`, lookup by price). The script's `detect_imbalances` writes 0 in all six (see "## Findings").
- TrappedOrderSearch.WindowDetectionKept: states the row of a kept window with the corrected imbalance counts, not the script's zeros.
- TrappedOrderSearch.ScanWindows: its rows carry the corrected imbalance counts, not the script's zeros.
- TrappedOrderSearch.ScanBar: its rows carry the corrected imbalance counts, not the script's zeros.
- TrappedOrderSearch.FindTrappedOrders: its output differs from the script's only in the six `imbalance_*` fields, which hold the corrected counts.
- TrappedOrders.Lookup: a decoded price dictionary is taken to have distinct prices, as a Python dictionary does. On a list with a repeated price `Lookup` returns the first entry, while a dictionary literal with a repeated key keeps the last value; the model does not decode such literals.
- Floating-point rounding is not modelled. Prices, shares and rates are exact reals.

## Findings

| source | as written | input that shows it | evidently intended | confidence | as-written member | corrected member |
|---|---|---|---|---|---|---|
| scripts/ricerca_parametri_trapped_orders.py:113-114 | the levels are looked up with `price_stats.get(str(prices[i]))`. The decoded dictionary's keys are numbers, so the text key never matches. Every ratio's denominator is 0 and every counter stays 0 (the same happens at lines 124-125). | a bar with levels 100.25 (ask 10) and 100.0 (bid 1). The ratio is 10, so all three high counters should be 1, but the script reports 0. | look levels up by their numeric price | not executed | TrappedOrders.AsWrittenMissesImbalance | TrappedOrders.DetectImbalances |

=== FILE: candle_cleaner.dfy ===
/** The bar cleaner (scripts/pulizia_candle_data_raw.py).  For each bar it
    strips the numpy wrappers from the price-level text, decodes it, merges
    the entries whose keys denote the same price, orders the levels by
    price, and recomputes the bar's volume and delta from the levels; a bar
    whose levels come out empty is dropped.

    Decoding (`ast.literal_eval` on the stripped text) is a parameter: it
    yields the dictionary's entries in order, or `None` when the text is not
    a dictionary of dictionaries of numbers (every way the script's `try`
    block can fail). */
module CandleCleaner {
  import opened Wrappers
  import opened Sorting
  import PriceStatsText
  import RangeBars
  import RangeBarProperties

  /** The three counters the cleaner keeps for a level. */
  datatype Amounts = Amounts(volume: int, bidVolume: int, askVolume: int)

  const Zero := Amounts(0, 0, 0)

  function Plus(a: Amounts, b: Amounts): Amounts
  {
    Amounts(a.volume + b.volume, a.bidVolume + b.bidVolume, a.askVolume + b.askVolume)
  }

  /** One entry of the decoded dictionary: its key read as a price
      (`float(price_str)`), and its three counters, each present or absent. */
  datatype RawEntry = RawEntry(price: real, volume: Option<int>, bidVolume: Option<int>, askVolume: Option<int>)

  /** `stats.get(name, 0)`. */
  function GetOr(o: Option<int>): int
  {
    if o.Some? then o.value else 0
  }

  function EntryAmounts(e: RawEntry): Amounts
  {
    Amounts(GetOr(e.volume), GetOr(e.bidVolume), GetOr(e.askVolume))
  }

  /** One level of the cleaned dictionary. */
  datatype AggLevel = AggLevel(price: real, amounts: Amounts)

  function Prices(ls: seq<AggLevel>): set<real>
  {
    set k | 0 <= k < |ls| :: ls[k].price
  }

  /** No two levels share a price, as in a dictionary keyed by price. */
  predicate Distinct(ls: seq<AggLevel>)
  {
    forall i, j :: 0 <= i < j < |ls| ==> ls[i].price != ls[j].price
  }

  /** Prices strictly increase: the order `sorted(aggregated.items())` gives
      a dictionary whose keys are distinct. */
  predicate Increasing(ls: seq<AggLevel>)
  {
    forall i, j :: 0 <= i < j < |ls| ==> ls[i].price < ls[j].price
  }

  /** The counters held at price `p`, or zero where there is no level. */
  function AmountsAt(ls: seq<AggLevel>, p: real): (a: Amounts)
    ensures p !in Prices(ls) ==> a == Zero
  {
    if ls == [] then Zero
    else if ls[0].price == p then ls[0].amounts
    else
      assert Prices(ls[1..]) <= Prices(ls) by {
        forall q | q in Prices(ls[1..]) ensures q in Prices(ls) {
          var k :| 0 <= k < |ls[1..]| && ls[1..][k].price == q;
          assert ls[k + 1].price == q;
        }
      }
      AmountsAt(ls[1..], p)
  }

  /** The counters summed over all levels. */
  function Total(ls: seq<AggLevel>): Amounts
  {
    if ls == [] then Zero else Plus(ls[0].amounts, Total(ls[1..]))
  }

  // ---------------------------------------------------------------------
  // Merging entries that denote the same price

  /** The `defaultdict` update for one entry: the level at the entry's price
      gets the entry's counters added, and is created (at the end, as a
      dictionary inserts) on the price's first appearance. */
  function Accumulate(agg: seq<AggLevel>, e: RawEntry): seq<AggLevel>
  {
    if agg == [] then [AggLevel(e.price, EntryAmounts(e))]
    else if agg[0].price == e.price then [AggLevel(e.price, Plus(agg[0].amounts, EntryAmounts(e)))] + agg[1..]
    else [agg[0]] + Accumulate(agg[1..], e)
  }

  /** The dictionary after the loop over the decoded entries. */
  function Aggregate(es: seq<RawEntry>): seq<AggLevel>
  {
    if es == [] then [] else Accumulate(Aggregate(es[..|es| - 1]), es[|es| - 1])
  }

  function EntryPrices(es: seq<RawEntry>): set<real>
  {
    set k | 0 <= k < |es| :: es[k].price
  }

  /** The counters of all entries at price `p`, summed. */
  function SumAt(es: seq<RawEntry>, p: real): Amounts
  {
    if es == [] then Zero
    else Plus(SumAt(es[..|es| - 1], p), if es[|es| - 1].price == p then EntryAmounts(es[|es| - 1]) else Zero)
  }

  /** The counters of all entries, summed. */
  function EntriesTotal(es: seq<RawEntry>): Amounts
  {
    if es == [] then Zero else Plus(EntryAmounts(es[0]), EntriesTotal(es[1..]))
  }

  lemma PricesCons(a: AggLevel, rest: seq<AggLevel>)
    ensures Prices([a] + rest) == {a.price} + Prices(rest)
  {
    var s := [a] + rest;
    forall q | q in Prices(s) ensures q in {a.price} + Prices(rest) {
      var k :| 0 <= k < |s| && s[k].price == q;
      if k > 0 {
        assert rest[k - 1].price == q;
      }
    }
    forall q | q in Prices(rest) ensures q in Prices(s) {
      var k :| 0 <= k < |rest| && rest[k].price == q;
      assert s[k + 1].price == q;
    }
    assert s[0].price == a.price;
  }

  lemma {:induction false} AccumulatePrices(agg: seq<AggLevel>, e: RawEntry)
    ensures Prices(Accumulate(agg, e)) == Prices(agg) + {e.price}
  {
    if agg == [] {
      assert Prices([AggLevel(e.price, EntryAmounts(e))]) == {e.price} by {
        PricesCons(AggLevel(e.price, EntryAmounts(e)), []);
      }
    } else {
      assert agg == [agg[0]] + agg[1..];
      PricesCons(agg[0], agg[1..]);
      if agg[0].price == e.price {
        PricesCons(AggLevel(e.price, Plus(agg[0].amounts, EntryAmounts(e))), agg[1..]);
      } else {
        AccumulatePrices(agg[1..], e);
        PricesCons(agg[0], Accumulate(agg[1..], e));
      }
    }
  }

  lemma {:induction false} AccumulateDistinct(agg: seq<AggLevel>, e: RawEntry)
    requires Distinct(agg)
    ensures Distinct(Accumulate(agg, e))
  {
    if agg != [] && agg[0].price != e.price {
      var rest := Accumulate(agg[1..], e);
      AccumulateDistinct(agg[1..], e);
      AccumulatePrices(agg[1..], e);
      var r := [agg[0]] + rest;
      forall j | 0 < j < |r| ensures r[0].price != r[j].price {
        assert rest[j - 1].price in Prices(rest);
        var q := rest[j - 1].price;
        if q != e.price {
          var k :| 0 <= k < |agg[1..]| && agg[1..][k].price == q;
          assert agg[k + 1].price == q;
        }
      }
    }
  }

  /** Accumulating an entry changes the counters at its price by its
      counters, and no others. */
  lemma {:induction false} AccumulateAt(agg: seq<AggLevel>, e: RawEntry, p: real)
    ensures AmountsAt(Accumulate(agg, e), p)
         == if p == e.price then Plus(AmountsAt(agg, p), EntryAmounts(e)) else AmountsAt(agg, p)
  {
    if agg != [] && agg[0].price != e.price {
      AccumulateAt(agg[1..], e, p);
    }
  }

  lemma {:induction false} AccumulateTotal(agg: seq<AggLevel>, e: RawEntry)
    ensures Total(Accumulate(agg, e)) == Plus(Total(agg), EntryAmounts(e))
  {
    if agg == [] {
      assert [AggLevel(e.price, EntryAmounts(e))][1..] == [];
    } else if agg[0].price == e.price {
      var r := [AggLevel(e.price, Plus(agg[0].amounts, EntryAmounts(e)))] + agg[1..];
      assert r[1..] == agg[1..];
      assert Total(r) == Plus(Plus(agg[0].amounts, EntryAmounts(e)), Total(agg[1..]));
    } else {
      var rest := Accumulate(agg[1..], e);
      AccumulateTotal(agg[1..], e);
      assert ([agg[0]] + rest)[1..] == rest;
      assert Total([agg[0]] + rest) == Plus(agg[0].amounts, Total(rest));
    }
  }

  lemma EntriesTotalSnoc(es: seq<RawEntry>, e: RawEntry)
    ensures EntriesTotal(es + [e]) == Plus(EntriesTotal(es), EntryAmounts(e))
    decreases |es|
  {
    var s := es + [e];
    if es == [] {
      assert s[1..] == [];
      assert EntriesTotal(s) == Plus(EntryAmounts(e), Zero);
    } else {
      assert s[0] == es[0];
      assert s[1..] == es[1..] + [e];
      EntriesTotalSnoc(es[1..], e);
      assert EntriesTotal(s) == Plus(EntryAmounts(es[0]), Plus(EntriesTotal(es[1..]), EntryAmounts(e)));
    }
  }

  lemma EntryPricesSnoc(es: seq<RawEntry>, e: RawEntry)
    ensures EntryPrices(es + [e]) == EntryPrices(es) + {e.price}
  {
    var s := es + [e];
    forall q | q in EntryPrices(s) ensures q in EntryPrices(es) + {e.price} {
      var k :| 0 <= k < |s| && s[k].price == q;
      if k < |es| {
        assert es[k].price == q;
      }
    }
    forall q | q in EntryPrices(es) ensures q in EntryPrices(s) {
      var k :| 0 <= k < |es| && es[k].price == q;
      assert s[k].price == q;
    }
    assert s[|es|].price == e.price;
  }

  lemma {:induction false} AggregatePrices(es: seq<RawEntry>)
    ensures Distinct(Aggregate(es))
    ensures Prices(Aggregate(es)) == EntryPrices(es)
  {
    if es != [] {
      var init, e := es[..|es| - 1], es[|es| - 1];
      assert es == init + [e];
      AggregatePrices(init);
      AccumulateDistinct(Aggregate(init), e);
      AccumulatePrices(Aggregate(init), e);
      EntryPricesSnoc(init, e);
    }
  }

  lemma {:induction false} AggregateAt(es: seq<RawEntry>, p: real)
    ensures AmountsAt(Aggregate(es), p) == SumAt(es, p)
  {
    if es != [] {
      var init, e := es[..|es| - 1], es[|es| - 1];
      AggregateAt(init, p);
      AccumulateAt(Aggregate(init), e, p);
    }
  }

  lemma {:induction false} AggregateTotal(es: seq<RawEntry>)
    ensures Total(Aggregate(es)) == EntriesTotal(es)
  {
    if es != [] {
      var init, e := es[..|es| - 1], es[|es| - 1];
      assert es == init + [e];
      AggregateTotal(init);
      AccumulateTotal(Aggregate(init), e);
      EntriesTotalSnoc(init, e);
    }
  }

  /** Merging keeps one level per distinct price of the entries, holding
      the sum of the counters of the entries at that price, and loses or
      invents nothing in total. */
  lemma AggregateSpec(es: seq<RawEntry>)
    ensures Distinct(Aggregate(es))
    ensures Prices(Aggregate(es)) == EntryPrices(es)
    ensures forall p :: AmountsAt(Aggregate(es), p) == SumAt(es, p)
    ensures Total(Aggregate(es)) == EntriesTotal(es)
  {
    AggregatePrices(es);
    AggregateTotal(es);
    forall p ensures AmountsAt(Aggregate(es), p) == SumAt(es, p) {
      AggregateAt(es, p);
    }
  }

  // ---------------------------------------------------------------------
  // Ordering by price

  predicate PriceLe(a: AggLevel, b: AggLevel)
  {
    a.price <= b.price
  }

  lemma {:induction false} InsertPrices(x: AggLevel, s: seq<AggLevel>)
    ensures Prices(Insert(x, s, PriceLe)) == Prices(s) + {x.price}
  {
    if s == [] || PriceLe(x, s[0]) {
      PricesCons(x, s);
    } else {
      assert s == [s[0]] + s[1..];
      PricesCons(s[0], s[1..]);
      InsertPrices(x, s[1..]);
      PricesCons(s[0], Insert(x, s[1..], PriceLe));
    }
  }

  lemma {:induction false} InsertIncreasing(x: AggLevel, s: seq<AggLevel>)
    requires Increasing(s) && x.price !in Prices(s)
    ensures Increasing(Insert(x, s, PriceLe))
  {
    var r := Insert(x, s, PriceLe);
    if s == [] || PriceLe(x, s[0]) {
      if s != [] {
        assert s[0].price in Prices(s);
      }
    } else {
      var t := Insert(x, s[1..], PriceLe);
      assert x.price !in Prices(s[1..]) by {
        assert s == [s[0]] + s[1..];
        PricesCons(s[0], s[1..]);
      }
      InsertIncreasing(x, s[1..]);
      InsertPrices(x, s[1..]);
      forall j | 0 <= j < |t| ensures s[0].price < t[j].price {
        assert t[j].price in Prices(t);
        var q := t[j].price;
        if q != x.price {
          var k :| 0 <= k < |s[1..]| && s[1..][k].price == q;
          assert s[k + 1].price == q;
        }
      }
      ConsIncreasing(s[0], t);
      assert r == [s[0]] + t;
    }
  }

  /** Putting a level below an increasing list keeps it increasing. */
  lemma ConsIncreasing(a: AggLevel, t: seq<AggLevel>)
    requires Increasing(t)
    requires forall j :: 0 <= j < |t| ==> a.price < t[j].price
    ensures Increasing([a] + t)
  {
    var r := [a] + t;
    forall i, j | 0 <= i < j < |r| ensures r[i].price < r[j].price {
      assert r[j] == t[j - 1];
      if 0 < i {
        assert r[i] == t[i - 1];
      }
    }
  }

  lemma {:induction false} SortByIncreasing(s: seq<AggLevel>)
    requires Distinct(s)
    ensures Increasing(SortBy(s, PriceLe))
    ensures Prices(SortBy(s, PriceLe)) == Prices(s)
  {
    if s != [] {
      assert s == [s[0]] + s[1..];
      SortByIncreasing(s[1..]);
      PricesCons(s[0], s[1..]);
      forall k | 0 <= k < |s[1..]| ensures s[1..][k].price != s[0].price {
        assert s[1..][k] == s[k + 1];
      }
      InsertIncreasing(s[0], SortBy(s[1..], PriceLe));
      InsertPrices(s[0], SortBy(s[1..], PriceLe));
    }
  }

  lemma {:induction false} InsertTotal(x: AggLevel, s: seq<AggLevel>)
    ensures Total(Insert(x, s, PriceLe)) == Plus(x.amounts, Total(s))
  {
    if s == [] || PriceLe(x, s[0]) {
      assert ([x] + s)[1..] == s;
    } else {
      InsertTotal(x, s[1..]);
      assert ([s[0]] + Insert(x, s[1..], PriceLe))[1..] == Insert(x, s[1..], PriceLe);
    }
  }

  lemma {:induction false} SortByTotal(s: seq<AggLevel>)
    ensures Total(SortBy(s, PriceLe)) == Total(s)
  {
    if s != [] {
      SortByTotal(s[1..]);
      InsertTotal(s[0], SortBy(s[1..], PriceLe));
    }
  }

  /** In a dictionary, the counters at a level's price are that level's. */
  lemma {:induction false} AmountsAtLevel(ls: seq<AggLevel>, k: nat)
    requires Distinct(ls) && k < |ls|
    ensures AmountsAt(ls, ls[k].price) == ls[k].amounts
  {
    if k > 0 {
      assert ls[0].price != ls[k].price;
      AmountsAtLevel(ls[1..], k - 1);
    }
  }

  /** Two dictionaries with the same levels in another order hold the same
      counters at every price. */
  lemma SameLevelsSameAmounts(a: seq<AggLevel>, b: seq<AggLevel>, p: real)
    requires Distinct(a) && Distinct(b) && multiset(a) == multiset(b)
    ensures AmountsAt(a, p) == AmountsAt(b, p)
  {
    if k :| 0 <= k < |a| && a[k].price == p {
      assert a[k] in multiset(b);
      var m :| 0 <= m < |b| && b[m] == a[k];
      AmountsAtLevel(a, k);
      AmountsAtLevel(b, m);
    } else {
      forall m | 0 <= m < |b| ensures b[m].price != p {
        assert b[m] in multiset(a);
      }
    }
  }

  /** The cleaned levels of a decoded dictionary, or none when it did not
      decode. */
  function LevelsOf(decoded: Option<seq<RawEntry>>): seq<AggLevel>
  {
    if decoded.None? then [] else SortBy(Aggregate(decoded.value), PriceLe)
  }

  /** The cleaned levels: strictly increasing prices, exactly the prices of
      the entries, at each price the sum of the entries there, and the same
      totals. */
  lemma LevelsSpec(es: seq<RawEntry>)
    ensures Increasing(LevelsOf(Some(es)))
    ensures Prices(LevelsOf(Some(es))) == EntryPrices(es)
    ensures forall p :: AmountsAt(LevelsOf(Some(es)), p) == SumAt(es, p)
    ensures Total(LevelsOf(Some(es))) == EntriesTotal(es)
  {
    var agg := Aggregate(es);
    var levels := SortBy(agg, PriceLe);
    AggregateSpec(es);
    SortByIncreasing(agg);
    SortByTotal(agg);
    forall p ensures AmountsAt(levels, p) == SumAt(es, p) {
      SameLevelsSameAmounts(levels, agg, p);
    }
  }

  /** A dictionary whose keys are already distinct and increasing comes back
      with the same levels in the same order. */
  lemma {:induction false} CleanDictionaryUnchanged(es: seq<RawEntry>)
    requires forall i, j :: 0 <= i < j < |es| ==> es[i].price < es[j].price
    ensures LevelsOf(Some(es)) == seq(|es|, k requires 0 <= k < |es| => AggLevel(es[k].price, EntryAmounts(es[k])))
  {
    var asLevels := seq(|es|, k requires 0 <= k < |es| => AggLevel(es[k].price, EntryAmounts(es[k])));
    AggregateOfIncreasing(es);
    assert SortedBy(asLevels, PriceLe);
    SortByOfSorted(asLevels, PriceLe);
  }

  lemma {:induction false} AggregateOfIncreasing(es: seq<RawEntry>)
    requires forall i, j :: 0 <= i < j < |es| ==> es[i].price < es[j].price
    ensures Aggregate(es) == seq(|es|, k requires 0 <= k < |es| => AggLevel(es[k].price, EntryAmounts(es[k])))
  {
    if es != [] {
      var init, e := es[..|es| - 1], es[|es| - 1];
      AggregateOfIncreasing(init);
      var agg := Aggregate(init);
      AppendNewPrice(agg, e);
    }
  }

  /** An entry at a price above every level is appended as a new level. */
  lemma {:induction false} AppendNewPrice(agg: seq<AggLevel>, e: RawEntry)
    requires forall k :: 0 <= k < |agg| ==> agg[k].price < e.price
    ensures Accumulate(agg, e) == agg + [AggLevel(e.price, EntryAmounts(e))]
  {
    if agg != [] {
      AppendNewPrice(agg[1..], e);
      assert agg == [agg[0]] + agg[1..];
    }
  }

  // ---------------------------------------------------------------------
  // The cleaning pass

  /** A row of the raw bar file, as far as the cleaner reads it. */
  datatype RawCandle = RawCandle(
    openTime: int, closeTime: int,
    open: real, high: real, low: real, close: real,
    direction: int, priceStats: string)

  /** A row of the cleaned bar file. */
  datatype CleanCandle = CleanCandle(
    openTime: int, closeTime: int,
    open: real, high: real, low: real, close: real,
    volume: int, delta: int, direction: int, priceStats: seq<AggLevel>)

  /** The script's `aggregate_price_levels`: strip the wrappers, decode, then
      merge the entries into a dictionary and order it by price. */
  method AggregatePriceLevels(priceStatsStr: string, decode: string -> Option<seq<RawEntry>>)
    returns (sortedLevels: seq<AggLevel>)
    ensures sortedLevels == LevelsOf(decode(PriceStatsText.CleanerStrip(priceStatsStr)))
    ensures Increasing(sortedLevels)
    ensures decode(PriceStatsText.CleanerStrip(priceStatsStr)).None? ==> sortedLevels == []
    ensures forall es :: decode(PriceStatsText.CleanerStrip(priceStatsStr)) == Some(es) ==>
              && Total(sortedLevels) == EntriesTotal(es)
              && Prices(sortedLevels) == EntryPrices(es)
              && forall p :: AmountsAt(sortedLevels, p) == SumAt(es, p)
  {
    var cleanStr := PriceStatsText.StripNumpyWrappers(priceStatsStr);
    var priceStats := decode(cleanStr);
    if priceStats.None? {
      return [];
    }
    var entries := priceStats.value;
    var aggregated: seq<AggLevel> := [];
    for i := 0 to |entries|
      invariant aggregated == Aggregate(entries[..i])
    {
      assert entries[..i + 1][..i] == entries[..i];
      aggregated := Accumulate(aggregated, entries[i]);
    }
    assert entries[..|entries|] == entries;
    sortedLevels := SortBy(aggregated, PriceLe);
    LevelsSpec(entries);
  }

  /** The script's `calculate_candle_delta`: total buyer size minus total
      seller size over the levels. */
  function CandleDelta(priceLevels: seq<AggLevel>): int
  {
    Total(priceLevels).askVolume - Total(priceLevels).bidVolume
  }

  /** The cleaned record for a row and its levels. */
  function CleanRecord(row: RawCandle, priceLevels: seq<AggLevel>): CleanCandle
  {
    CleanCandle(row.openTime, row.closeTime, row.open, row.high, row.low, row.close,
                Total(priceLevels).volume, CandleDelta(priceLevels), row.direction, priceLevels)
  }

  function RowLevels(row: RawCandle, decode: string -> Option<seq<RawEntry>>): seq<AggLevel>
  {
    LevelsOf(decode(PriceStatsText.CleanerStrip(row.priceStats)))
  }

  /** The cleaned file: one record per row whose levels are not empty. */
  function CleanRows(rows: seq<RawCandle>, decode: string -> Option<seq<RawEntry>>): seq<CleanCandle>
  {
    if rows == [] then []
    else
      var last := rows[|rows| - 1];
      var levels := RowLevels(last, decode);
      CleanRows(rows[..|rows| - 1], decode) + (if levels == [] then [] else [CleanRecord(last, levels)])
  }

  /** The script's `clean_candle_data` loop over the rows. */
  method CleanCandleData(rows: seq<RawCandle>, decode: string -> Option<seq<RawEntry>>)
    returns (cleanedData: seq<CleanCandle>)
    ensures cleanedData == CleanRows(rows, decode)
  {
    cleanedData := [];
    for index := 0 to |rows|
      invariant cleanedData == CleanRows(rows[..index], decode)
    {
      assert rows[..index + 1][..index] == rows[..index];
      var row := rows[index];
      var priceLevels := AggregatePriceLevels(row.priceStats, decode);
      if priceLevels == [] {
        continue;
      }
      var candleDelta := CandleDelta(priceLevels);
      var totalVolume := Total(priceLevels).volume;
      var cleanRecord := CleanCandle(row.openTime, row.closeTime, row.open, row.high, row.low, row.close,
                                     totalVolume, candleDelta, row.direction, priceLevels);
      cleanedData := cleanedData + [cleanRecord];
    }
    assert rows[..|rows|] == rows;
  }

  /** The indices of the rows whose levels are not empty. */
  function KeptRows(rows: seq<RawCandle>, decode: string -> Option<seq<RawEntry>>): set<int>
  {
    set i | 0 <= i < |rows| && RowLevels(rows[i], decode) != []
  }

  lemma KeptRowsSnoc(rows: seq<RawCandle>, decode: string -> Option<seq<RawEntry>>)
    requires rows != []
    ensures var n := |rows| - 1;
            KeptRows(rows, decode)
            == KeptRows(rows[..n], decode) + (if RowLevels(rows[n], decode) == [] then {} else {n})
  {
    var n := |rows| - 1;
    var init := rows[..n];
    forall i | 0 <= i < n ensures init[i] == rows[i] {
    }
  }

  /** Rows with levels are kept and rows without are dropped. */
  lemma {:induction false} CleanRowsCount(rows: seq<RawCandle>, decode: string -> Option<seq<RawEntry>>)
    ensures |CleanRows(rows, decode)| == |KeptRows(rows, decode)|
  {
    if rows == [] {
      assert KeptRows(rows, decode) == {};
    } else {
      var n := |rows| - 1;
      CleanRowsCount(rows[..n], decode);
      KeptRowsSnoc(rows, decode);
      assert n !in KeptRows(rows[..n], decode);
    }
  }

  /** Every kept record is the cleaned form of some row. */
  lemma {:induction false} CleanRowsFrom(rows: seq<RawCandle>, decode: string -> Option<seq<RawEntry>>, k: nat)
    requires k < |CleanRows(rows, decode)|
    ensures exists i :: 0 <= i < |rows| && RowLevels(rows[i], decode) != []
                        && CleanRows(rows, decode)[k] == CleanRecord(rows[i], RowLevels(rows[i], decode))
  {
    var n := |rows| - 1;
    var init := rows[..n];
    if k < |CleanRows(init, decode)| {
      CleanRowsFrom(init, decode, k);
      var i :| 0 <= i < |init| && RowLevels(init[i], decode) != []
               && CleanRows(init, decode)[k] == CleanRecord(init[i], RowLevels(init[i], decode));
      assert rows[i] == init[i];
    } else {
      assert RowLevels(rows[n], decode) != [];
    }
  }

  /** A kept record keeps the row's times, prices and direction, and carries
      non-empty, price-ordered levels whose totals are its volume and delta. */
  lemma CleanRecordSpec(row: RawCandle, decode: string -> Option<seq<RawEntry>>)
    requires RowLevels(row, decode) != []
    ensures var c := CleanRecord(row, RowLevels(row, decode));
            && c.openTime == row.openTime && c.closeTime == row.closeTime
            && c.open == row.open && c.high == row.high && c.low == row.low && c.close == row.close
            && c.direction == row.direction
            && c.priceStats != [] && Increasing(c.priceStats)
            && c.volume == Total(c.priceStats).volume
            && c.delta == Total(c.priceStats).askVolume - Total(c.priceStats).bidVolume
  {
    LevelsSpec(decode(PriceStatsText.CleanerStrip(row.priceStats)).value);
  }

  // ---------------------------------------------------------------------
  // Cleaning the extractor's own bars

  /** The entries of a bar's level dictionary as the extractor writes it. */
  function BarEntries(ls: seq<RangeBars.Level>): seq<RawEntry>
  {
    seq(|ls|, k requires 0 <= k < |ls| => RawEntry(ls[k].price, Some(ls[k].volume as int), Some(ls[k].bidVolume as int), Some(ls[k].askVolume as int)))
  }

  lemma {:induction false} BarEntriesTotal(ls: seq<RangeBars.Level>)
    requires forall k :: 0 <= k < |ls| ==> RangeBars.LevelConsistent(ls[k])
    ensures EntriesTotal(BarEntries(ls)).volume == RangeBars.SumVolume(ls)
    ensures EntriesTotal(BarEntries(ls)).askVolume - EntriesTotal(BarEntries(ls)).bidVolume == RangeBars.SumDelta(ls)
  {
    if ls != [] {
      BarEntriesTotal(ls[1..]);
      assert BarEntries(ls)[1..] == BarEntries(ls[1..]);
    }
  }

  /** A bar of the extractor, read back by the cleaner: a gap bar (no
      levels) is dropped, and any other bar keeps its times, prices and
      direction, with the recomputed volume equal to the bar's volume and
      the recomputed delta equal to the change of the running delta across
      the bar. */
  lemma CleanedBar(bar: RangeBars.RangeBar, text: string, decode: string -> Option<seq<RawEntry>>)
    requires RangeBarProperties.WellFormedBar(bar)
    requires decode(PriceStatsText.CleanerStrip(text)) == Some(BarEntries(bar.priceStats))
    ensures var row := RawCandle(bar.openTime, bar.closeTime, bar.open, bar.high, bar.low, bar.close, bar.direction, text);
            var cleaned := CleanRows([row], decode);
            && (bar.priceStats == [] ==> cleaned == [])
            && (bar.priceStats != [] ==>
                  |cleaned| == 1
                  && cleaned[0].openTime == bar.openTime && cleaned[0].closeTime == bar.closeTime
                  && cleaned[0].open == bar.open && cleaned[0].high == bar.high
                  && cleaned[0].low == bar.low && cleaned[0].close == bar.close
                  && cleaned[0].direction == bar.direction
                  && cleaned[0].volume == bar.volume
                  && cleaned[0].delta == bar.deltaClose - bar.deltaOpen
                  && Prices(cleaned[0].priceStats) == EntryPrices(BarEntries(bar.priceStats)))
  {
    var row := RawCandle(bar.openTime, bar.closeTime, bar.open, bar.high, bar.low, bar.close, bar.direction, text);
    var es := BarEntries(bar.priceStats);
    LevelsSpec(es);
    BarEntriesTotal(bar.priceStats);
    assert [row][..0] == [];
    if bar.priceStats != [] {
      assert es[0].price in EntryPrices(es);
    } else {
      assert LevelsOf(Some(es)) == [];
    }
  }
}

=== FILE: directional_windows.dfy ===
/** The validation-window scanner (scripts/test_finestre_direzionali.py):
    for every bar far enough from both ends of the data, how many bars
    before it stay below its high (above its low), and how many bars after
    it stay below its high plus the stop tolerance (above its low minus the
    tolerance), tried in windows of 5, 6, ... bars; then how often each
    window length was reached, and the order in which a strategy should
    try the windows.  The means, medians and percentiles the script also
    prints are left out. */
module DirectionalWindows {
  import opened Wrappers
  import opened Sorting
  import PriceStatsText
  import opened TrappedOrders

  /** How far past the trigger bar's extreme a later bar may go. */
  const StopTolerance: real := 0.5

  /** The smallest window tried. */
  const FirstWindow: int := 5

  // ---------------------------------------------------------------------
  // parse_price_stats

  /** The characters `str.strip()` removes: those Python's `str.isspace`
      accepts, namely the ASCII whitespace and separators U+0009-U+000D and
      U+001C-U+0020, and U+0085, U+00A0, U+1680, U+2000-U+200A, U+2028,
      U+2029, U+202F, U+205F and U+3000. */
  predicate IsSpace(c: char)
  {
    || '\U{0009}' <= c <= '\U{000D}'
    || '\U{001C}' <= c <= '\U{0020}'
    || c == '\U{0085}' || c == '\U{00A0}' || c == '\U{1680}'
    || '\U{2000}' <= c <= '\U{200A}'
    || c == '\U{2028}' || c == '\U{2029}' || c == '\U{202F}' || c == '\U{205F}'
    || c == '\U{3000}'
  }

  /** `s.lstrip()`. */
  function TrimStart(s: string): (r: string)
    ensures |r| <= |s| && r == s[|s| - |r|..]
    ensures r == [] || !IsSpace(r[0])
    ensures forall k :: 0 <= k < |s| - |r| ==> IsSpace(s[k])
  {
    if s != [] && IsSpace(s[0]) then TrimStart(s[1..]) else s
  }

  /** `s.rstrip()`. */
  function TrimEnd(s: string): (r: string)
    ensures |r| <= |s| && r == s[..|r|]
    ensures r == [] || !IsSpace(r[|r| - 1])
    ensures forall k :: |r| <= k < |s| ==> IsSpace(s[k])
  {
    if s != [] && IsSpace(s[|s| - 1]) then TrimEnd(s[..|s| - 1]) else s
  }

  /** `s.strip()`. */
  function Strip(s: string): string
  {
    TrimEnd(TrimStart(s))
  }

  /** `parse_price_stats`: an empty text, or one that is `{}` once stripped,
      is the empty dictionary; otherwise every `np.float64(x)` and
      `np.int64(x)` is rewritten to `x` and the text decoded, and a failure
      gives the empty dictionary too. */
  function ParsePriceStats(priceStatsStr: string, decode: string -> Option<seq<StatsEntry>>): (r: seq<StatsEntry>)
    ensures priceStatsStr == [] || Strip(priceStatsStr) == "{}" ==> r == []
    ensures decode(PriceStatsText.RegexStrip(priceStatsStr)).None? ==> r == []
    ensures r != [] ==> r == decode(PriceStatsText.RegexStrip(priceStatsStr)).value
    ensures priceStatsStr != [] && Strip(priceStatsStr) != "{}" && decode(PriceStatsText.RegexStrip(priceStatsStr)).Some? ==>
              r == decode(PriceStatsText.RegexStrip(priceStatsStr)).value
  {
    if priceStatsStr == [] || Strip(priceStatsStr) == "{}" then []
    else
      match decode(PriceStatsText.RegexStrip(priceStatsStr))
      case None => []
      case Some(entries) => entries
  }

  /** On a text of plain characters and wrapped numbers, the scanner decodes
      exactly the text with every wrapper replaced by its argument. */
  lemma ParseRendered(ps: seq<PriceStatsText.Piece>, decode: string -> Option<seq<StatsEntry>>)
    requires PriceStatsText.GoodPieces(ps)
    requires PriceStatsText.Render(ps) != [] && Strip(PriceStatsText.Render(ps)) != "{}"
    ensures var r := ParsePriceStats(PriceStatsText.Render(ps), decode);
            && (decode(PriceStatsText.Unwrap(ps)).None? ==> r == [])
            && (decode(PriceStatsText.Unwrap(ps)).Some? ==> r == decode(PriceStatsText.Unwrap(ps)).value)
  {
    PriceStatsText.TextRegex(ps);
  }

  // ---------------------------------------------------------------------
  // The windows of one bar

  /** The high-trigger scenario or the low-trigger one. */
  datatype Trigger = High | Low

  /** The bars before the trigger bar, or the bars after it. */
  datatype Side = Before | After

  /** The bar's own extreme on the trigger's side. */
  function Level(b: Bar, t: Trigger): real
  {
    if t == High then b.high else b.low
  }

  /** The extreme moved out by the stop tolerance. */
  function StopLevel(b: Bar, t: Trigger): (level: real)
    ensures t == High ==> level == b.high + StopTolerance
    ensures t == Low ==> level == b.low - StopTolerance
  {
    if t == High then Level(b, t) + StopTolerance else Level(b, t) - StopTolerance
  }

  /** The bar goes past `level` on the trigger's side. */
  predicate Beyond(b: Bar, t: Trigger, level: real)
  {
    if t == High then b.high > level else b.low < level
  }

  /** `any(series > level)` (or `< level`) over a run of bars. */
  function AnyBeyond(bars: seq<Bar>, t: Trigger, level: real): (r: bool)
    ensures r <==> exists k :: 0 <= k < |bars| && Beyond(bars[k], t, level)
  {
    if bars == [] then false
    else
      var rest := AnyBeyond(bars[1..], t, level);
      assert rest <==> exists k :: 1 <= k < |bars| && Beyond(bars[k], t, level) by {
        if rest {
          var k :| 0 <= k < |bars[1..]| && Beyond(bars[1..][k], t, level);
          assert Beyond(bars[k + 1], t, level);
        }
        if exists k :: 1 <= k < |bars| && Beyond(bars[k], t, level) {
          var k :| 1 <= k < |bars| && Beyond(bars[k], t, level);
          assert Beyond(bars[1..][k - 1], t, level);
        }
      }
      Beyond(bars[0], t, level) || rest
  }

  /** A window of `w` bars passes: before the bar, none of `df[idx-w:idx]`
      goes past the bar's extreme; after it, the window fits in the data
      and none of `df[idx+1:idx+1+w]` goes past the stop level. */
  predicate Holds(df: seq<Bar>, idx: nat, t: Trigger, side: Side, w: int)
    requires idx < |df| && 0 <= w <= idx
  {
    if side == Before then
      forall k :: idx - w <= k < idx ==> !Beyond(df[k], t, Level(df[idx], t))
    else
      idx + w < |df| && forall k :: idx + 1 <= k < idx + 1 + w ==> !Beyond(df[k], t, StopLevel(df[idx], t))
  }

  /** The windows are nested, so a window passes only if every smaller one
      does. */
  lemma HoldsNested(df: seq<Bar>, idx: nat, t: Trigger, side: Side, v: int, w: int)
    requires idx < |df| && 0 <= v <= w <= idx
    requires Holds(df, idx, t, side, w)
    ensures Holds(df, idx, t, side, v)
  {
  }

  /** The last window of the run of passing windows that starts at `w`
      (`w - 1` when `w` itself fails or is past `maxWindow`). */
  function RunEnd(df: seq<Bar>, idx: nat, t: Trigger, side: Side, maxWindow: int, w: int): int
    requires idx < |df| && maxWindow <= idx && 0 <= w
    decreases maxWindow - w
  {
    if w <= maxWindow && Holds(df, idx, t, side, w) then RunEnd(df, idx, t, side, maxWindow, w + 1)
    else w - 1
  }

  /** What the scanner records for one bar, trigger and side: the last
      window of the passing run from 5, or 0 when window 5 fails. */
  function LongestWindow(df: seq<Bar>, idx: nat, t: Trigger, side: Side, maxWindow: int): int
    requires idx < |df| && maxWindow <= idx
  {
    var e := RunEnd(df, idx, t, side, maxWindow, FirstWindow);
    if e < FirstWindow then 0 else e
  }

  lemma {:induction false} RunEndSpec(df: seq<Bar>, idx: nat, t: Trigger, side: Side, maxWindow: int, w: int)
    requires idx < |df| && maxWindow <= idx && 0 <= w
    ensures var e := RunEnd(df, idx, t, side, maxWindow, w);
            && w - 1 <= e
            && (w <= maxWindow ==> e <= maxWindow)
            && (forall v :: w <= v <= e ==> Holds(df, idx, t, side, v))
            && (e < maxWindow ==> !Holds(df, idx, t, side, e + 1))
    decreases maxWindow - w
  {
    if w <= maxWindow && Holds(df, idx, t, side, w) {
      RunEndSpec(df, idx, t, side, maxWindow, w + 1);
    }
  }

  /** The recorded value is 0 or a window from 5 to `maxWindow`; every
      window from 5 up to it passes; and the window after it fails, unless
      it is already `maxWindow`. */
  lemma LongestWindowSpec(df: seq<Bar>, idx: nat, t: Trigger, side: Side, maxWindow: int)
    requires idx < |df| && maxWindow <= idx
    ensures var r := LongestWindow(df, idx, t, side, maxWindow);
            && (r == 0 || FirstWindow <= r <= maxWindow)
            && (forall v :: FirstWindow <= v <= r ==> Holds(df, idx, t, side, v))
            && (FirstWindow <= maxWindow && r < maxWindow ==>
                  !Holds(df, idx, t, side, if r == 0 then FirstWindow else r + 1))
  {
    RunEndSpec(df, idx, t, side, maxWindow, FirstWindow);
  }

  /** Because the windows are nested, stopping at the first failure finds
      the largest passing window: no window up to `maxWindow` beyond the
      recorded one passes. */
  lemma LongestWindowIsLargest(df: seq<Bar>, idx: nat, t: Trigger, side: Side, maxWindow: int, w: int)
    requires idx < |df| && maxWindow <= idx
    requires FirstWindow <= w <= maxWindow && Holds(df, idx, t, side, w)
    ensures w <= LongestWindow(df, idx, t, side, maxWindow)
  {
    var r := LongestWindow(df, idx, t, side, maxWindow);
    LongestWindowSpec(df, idx, t, side, maxWindow);
    if r < w {
      var fail := if r == 0 then FirstWindow else r + 1;
      HoldsNested(df, idx, t, side, fail, w);
    }
  }

  /** Inside the analysed range the data always extends `maxWindow` bars
      past the bar, so the after-loop's length guard never stops it. */
  lemma AfterGuardNeverFires(df: seq<Bar>, idx: nat, maxWindow: int, w: int)
    requires maxWindow <= idx < |df| - maxWindow && w <= maxWindow
    ensures idx + w < |df|
  {
  }

  /** One of the four window loops of the bar at `idx`. */
  method ScanWindows(df: seq<Bar>, idx: nat, t: Trigger, side: Side, maxWindow: int) returns (best: int)
    requires idx < |df| && maxWindow <= idx
    ensures best == LongestWindow(df, idx, t, side, maxWindow)
  {
    var level := if side == Before then Level(df[idx], t) else StopLevel(df[idx], t);
    best := 0;
    var w := FirstWindow;
    while w <= maxWindow
      invariant FirstWindow <= w
      invariant RunEnd(df, idx, t, side, maxWindow, FirstWindow) == RunEnd(df, idx, t, side, maxWindow, w)
      invariant best == if w == FirstWindow then 0 else w - 1
      decreases maxWindow - w
    {
      if side == After && idx + w >= |df| {
        break;
      }
      var window := if side == Before then df[idx - w..idx] else df[idx + 1..idx + 1 + w];
      if AnyBeyond(window, t, level) {
        ghost var k :| 0 <= k < |window| && Beyond(window[k], t, level);
        assert !Holds(df, idx, t, side, w) by {
          if side == Before {
            assert Beyond(df[idx - w + k], t, level);
          } else {
            assert Beyond(df[idx + 1 + k], t, level);
          }
        }
        break;
      }
      assert Holds(df, idx, t, side, w) by {
        if side == Before {
          forall j | idx - w <= j < idx ensures !Beyond(df[j], t, level) {
            assert df[j] == window[j - (idx - w)];
          }
        } else {
          forall j | idx + 1 <= j < idx + 1 + w ensures !Beyond(df[j], t, level) {
            assert df[j] == window[j - (idx + 1)];
          }
        }
      }
      best := w;
      w := w + 1;
    }
  }

  // ---------------------------------------------------------------------
  // The scan over all bars

  /** The bars analysed: `range(max_window, len(df) - max_window)`. */
  function SampleCount(df: seq<Bar>, maxWindow: nat): nat
  {
    if |df| > 2 * maxWindow then |df| - 2 * maxWindow else 0
  }

  /** The values recorded for the first `k` analysed bars. */
  function Samples(df: seq<Bar>, maxWindow: nat, t: Trigger, side: Side, k: nat): seq<int>
    requires k <= SampleCount(df, maxWindow)
  {
    if k == 0 then []
    else Samples(df, maxWindow, t, side, k - 1) + [LongestWindow(df, maxWindow + k - 1, t, side, maxWindow)]
  }

  /** Every recorded value is 0 or a window from 5 to `maxWindow`. */
  lemma {:induction false} SamplesInRange(df: seq<Bar>, maxWindow: nat, t: Trigger, side: Side, k: nat)
    requires k <= SampleCount(df, maxWindow)
    ensures |Samples(df, maxWindow, t, side, k)| == k
    ensures forall v :: v in Samples(df, maxWindow, t, side, k) ==> v == 0 || FirstWindow <= v <= maxWindow
  {
    if k > 0 {
      SamplesInRange(df, maxWindow, t, side, k - 1);
      LongestWindowSpec(df, maxWindow + k - 1, t, side, maxWindow);
    }
  }

  /** `np.sum(data == 0)`. */
  function CountZero(data: seq<int>): (n: nat)
    ensures n <= |data|
  {
    if data == [] then 0 else (if data[0] == 0 then 1 else 0) + CountZero(data[1..])
  }

  /** `np.sum(data >= v)`. */
  function CountAtLeast(data: seq<int>, v: int): (n: nat)
    ensures n <= |data|
  {
    if data == [] then 0 else (if data[0] >= v then 1 else 0) + CountAtLeast(data[1..], v)
  }

  /** A higher bar is reached by fewer values. */
  lemma {:induction false} CountAtLeastMonotone(data: seq<int>, v: int, w: int)
    requires v <= w
    ensures CountAtLeast(data, w) <= CountAtLeast(data, v)
  {
    if data != [] {
      CountAtLeastMonotone(data[1..], v, w);
    }
  }

  /** When every value is 0 or at least 5, the zeros and the values of at
      least 5 are all of them. */
  lemma {:induction false} ZeroPlusValid(data: seq<int>)
    requires forall v :: v in data ==> v == 0 || FirstWindow <= v
    ensures CountZero(data) + CountAtLeast(data, FirstWindow) == |data|
  {
    if data != [] {
      assert data[0] in data;
      assert forall v :: v in data[1..] ==> v in data;
      ZeroPlusValid(data[1..]);
    }
  }

  /** The `distribution` dictionary of one list of recorded values. */
  datatype Distribution = Distribution(zero: nat, valid5: nat, valid10: nat, valid20: nat, valid25: nat)

  function DistributionOf(data: seq<int>): Distribution
  {
    Distribution(CountZero(data), CountAtLeast(data, 5), CountAtLeast(data, 10),
                 CountAtLeast(data, 20), CountAtLeast(data, 25))
  }

  /** The counts of longer windows never exceed those of shorter ones. */
  predicate Nested(d: Distribution)
  {
    d.valid25 <= d.valid20 <= d.valid10 <= d.valid5
  }

  lemma DistributionNested(data: seq<int>)
    ensures Nested(DistributionOf(data))
  {
    CountAtLeastMonotone(data, 5, 10);
    CountAtLeastMonotone(data, 10, 20);
    CountAtLeastMonotone(data, 20, 25);
  }

  datatype SideStats = SideStats(before: Distribution, after: Distribution)

  /** The result dictionary, keyed `HIGH` and `LOW`. */
  datatype WindowStats = WindowStats(high: SideStats, low: SideStats)

  function StatsOf(beforeHigh: seq<int>, afterHigh: seq<int>, beforeLow: seq<int>, afterLow: seq<int>): WindowStats
  {
    WindowStats(SideStats(DistributionOf(beforeHigh), DistributionOf(afterHigh)),
                SideStats(DistributionOf(beforeLow), DistributionOf(afterLow)))
  }

  /** The statistics of all analysed bars. */
  function AnalysisStats(df: seq<Bar>, maxWindow: nat): WindowStats
  {
    var n := SampleCount(df, maxWindow);
    StatsOf(Samples(df, maxWindow, High, Before, n), Samples(df, maxWindow, High, After, n),
            Samples(df, maxWindow, Low, Before, n), Samples(df, maxWindow, Low, After, n))
  }

  /** `analyze_validation_windows_comprehensive`: the four window loops of
      every analysed bar, then the counts. */
  method AnalyzeValidationWindows(df: seq<Bar>, maxWindow: nat) returns (stats: WindowStats)
    ensures stats == AnalysisStats(df, maxWindow)
  {
    var beforeHigh, afterHigh, beforeLow, afterLow := [], [], [], [];
    var n := SampleCount(df, maxWindow);
    var k := 0;
    while k < n
      invariant k <= n
      invariant beforeHigh == Samples(df, maxWindow, High, Before, k)
      invariant afterHigh == Samples(df, maxWindow, High, After, k)
      invariant beforeLow == Samples(df, maxWindow, Low, Before, k)
      invariant afterLow == Samples(df, maxWindow, Low, After, k)
    {
      var idx := maxWindow + k;
      var maxBeforeHigh := ScanWindows(df, idx, High, Before, maxWindow);
      var maxAfterHigh := ScanWindows(df, idx, High, After, maxWindow);
      beforeHigh, afterHigh := beforeHigh + [maxBeforeHigh], afterHigh + [maxAfterHigh];
      var maxBeforeLow := ScanWindows(df, idx, Low, Before, maxWindow);
      var maxAfterLow := ScanWindows(df, idx, Low, After, maxWindow);
      beforeLow, afterLow := beforeLow + [maxBeforeLow], afterLow + [maxAfterLow];
      k := k + 1;
    }
    stats := StatsOf(beforeHigh, afterHigh, beforeLow, afterLow);
  }

  /** For every trigger and side, the zeros and the `valid_5` count add up
      to the number of bars analysed, and the counts are nested. */
  lemma AnalysisCounts(df: seq<Bar>, maxWindow: nat, t: Trigger, side: Side)
    ensures var n := SampleCount(df, maxWindow);
            var d := DistributionOf(Samples(df, maxWindow, t, side, n));
            d.zero + d.valid5 == n && Nested(d)
  {
    var n := SampleCount(df, maxWindow);
    SamplesInRange(df, maxWindow, t, side, n);
    ZeroPlusValid(Samples(df, maxWindow, t, side, n));
    DistributionNested(Samples(df, maxWindow, t, side, n));
  }

  // ---------------------------------------------------------------------
  // calculate_optimal_test_order

  /** The windows whose success rate the strategy compares. */
  const TargetWindows: seq<int> := [5, 10, 20]

  /** The windows the distribution has a `valid_<w>` entry for. */
  predicate IsDistributionKey(w: int)
  {
    w == 5 || w == 10 || w == 20 || w == 25
  }

  /** `distribution[f'valid_{w}']`; asked only for the four keys. */
  function ValidAt(d: Distribution, w: int): nat
  {
    if w == 5 then d.valid5 else if w == 10 then d.valid10
    else if w == 20 then d.valid20 else if w == 25 then d.valid25 else 0
  }

  /** The share of samples that reached window `w`. */
  function Rate(d: Distribution, total: nat, w: int): real
    requires total > 0
  {
    ValidAt(d, w) as real / total as real
  }

  /** Over one positive total, more samples means a higher rate. */
  lemma RateMonotone(d: Distribution, total: nat, a: int, b: int)
    requires total > 0 && ValidAt(d, b) <= ValidAt(d, a)
    ensures Rate(d, total, b) <= Rate(d, total, a)
  {
    var t := total as real;
    var x, y := ValidAt(d, a) as real, ValidAt(d, b) as real;
    assert x / t - y / t == (x - y) / t;
  }

  /** The `success_rates` dictionary: each target with its rate, in the
      targets' order. */
  function RatedWindows(d: Distribution, total: nat, targets: seq<int>): (r: seq<(int, real)>)
    requires total > 0
    ensures |r| == |targets|
  {
    if targets == [] then []
    else [(targets[0], Rate(d, total, targets[0]))] + RatedWindows(d, total, targets[1..])
  }

  lemma {:induction false} RatedWindowsSpec(d: Distribution, total: nat, targets: seq<int>)
    requires total > 0
    ensures var r := RatedWindows(d, total, targets);
            forall i :: 0 <= i < |r| ==> r[i] == (targets[i], Rate(d, total, targets[i]))
  {
    if targets != [] {
      RatedWindowsSpec(d, total, targets[1..]);
    }
  }

  /** The key of the descending sort: `a` goes first when its rate is at
      least `b`'s. */
  predicate RateFirst(a: (int, real), b: (int, real))
  {
    a.1 >= b.1
  }

  lemma RateFirstTotal()
    ensures TotalPreorder(RateFirst)
  {
  }

  /** The windows of a list of rated windows. */
  function WindowsOf(rated: seq<(int, real)>): (ws: seq<int>)
    ensures |ws| == |rated|
  {
    if rated == [] then [] else [rated[0].0] + WindowsOf(rated[1..])
  }

  lemma {:induction false} WindowsOfSpec(rated: seq<(int, real)>)
    ensures forall i :: 0 <= i < |rated| ==> WindowsOf(rated)[i] == rated[i].0
  {
    if rated != [] {
      WindowsOfSpec(rated[1..]);
    }
  }

  lemma {:induction false} WindowsOfConcat(a: seq<(int, real)>, b: seq<(int, real)>)
    ensures WindowsOf(a + b) == WindowsOf(a) + WindowsOf(b)
  {
    if a == [] {
      assert a + b == b;
    } else {
      assert (a + b)[1..] == a[1..] + b;
      WindowsOfConcat(a[1..], b);
    }
  }

  /** Inserting a rated window adds its window to the windows. */
  lemma {:induction false} WindowsOfInsert(x: (int, real), s: seq<(int, real)>, le: ((int, real), (int, real)) -> bool)
    ensures multiset(WindowsOf(Insert(x, s, le))) == multiset{x.0} + multiset(WindowsOf(s))
  {
    if s == [] || le(x, s[0]) {
      WindowsOfConcat([x], s);
    } else {
      assert s == [s[0]] + s[1..];
      WindowsOfInsert(x, s[1..], le);
      WindowsOfConcat([s[0]], Insert(x, s[1..], le));
      WindowsOfConcat([s[0]], s[1..]);
    }
  }

  /** Sorting the rated windows reorders their windows alike. */
  lemma {:induction false} WindowsOfSortBy(s: seq<(int, real)>, le: ((int, real), (int, real)) -> bool)
    ensures multiset(WindowsOf(SortBy(s, le))) == multiset(WindowsOf(s))
  {
    if s != [] {
      assert s == [s[0]] + s[1..];
      WindowsOfSortBy(s[1..], le);
      WindowsOfInsert(s[0], SortBy(s[1..], le), le);
      WindowsOfConcat([s[0]], s[1..]);
    }
  }

  /** One trigger's recommendation: the two orders and the two rate
      dictionaries. */
  datatype Recommendation = Recommendation(beforeOrder: seq<int>, afterOrder: seq<int>,
                                           beforeRates: seq<(int, real)>, afterRates: seq<(int, real)>)

  /** The targets ordered by their rate, highest first, ties in their given
      order. */
  function ByRate(rated: seq<(int, real)>): seq<int>
  {
    WindowsOf(SortBy(rated, RateFirst))
  }

  /** The denominator of both rates: `valid_5 + zero` of the before-side. */
  function BeforeTotal(stats: SideStats): nat
  {
    stats.before.valid5 + stats.before.zero
  }

  /** `calculate_optimal_test_order` for one trigger: both rates are taken
      over the before-total.  With a zero total the rates are not numbers
      and there is no recommendation. */
  function OptimalTestOrder(stats: SideStats, targets: seq<int>): Option<Recommendation>
    requires forall w :: w in targets ==> IsDistributionKey(w)
  {
    if BeforeTotal(stats) == 0 then None
    else
      var beforeRates := RatedWindows(stats.before, BeforeTotal(stats), targets);
      var afterRates := RatedWindows(stats.after, BeforeTotal(stats), targets);
      Some(Recommendation(ByRate(beforeRates), ByRate(afterRates), beforeRates, afterRates))
  }

  /** Both triggers' recommendations. */
  function OptimalTestOrders(stats: WindowStats, targets: seq<int>): (r: (Option<Recommendation>, Option<Recommendation>))
    requires forall w :: w in targets ==> IsDistributionKey(w)
    ensures r.0 == OptimalTestOrder(stats.high, targets) && r.1 == OptimalTestOrder(stats.low, targets)
  {
    (OptimalTestOrder(stats.high, targets), OptimalTestOrder(stats.low, targets))
  }

  /** Ranking lists every target, each as often as given. */
  lemma ByRatePermutes(d: Distribution, total: nat, targets: seq<int>)
    requires total > 0
    ensures multiset(ByRate(RatedWindows(d, total, targets))) == multiset(targets)
  {
    var rated := RatedWindows(d, total, targets);
    RatedWindowsSpec(d, total, targets);
    WindowsOfSpec(rated);
    WindowsOfSortBy(rated, RateFirst);
    assert WindowsOf(rated) == targets;
  }

  /** `order` goes from the highest rate to the lowest. */
  predicate RatesDescend(d: Distribution, total: nat, order: seq<int>)
    requires total > 0
  {
    forall i, j :: 0 <= i < j < |order| ==> Rate(d, total, order[i]) >= Rate(d, total, order[j])
  }

  /** Ranking puts the targets in order of their rates, highest first. */
  lemma ByRateSorted(d: Distribution, total: nat, targets: seq<int>)
    requires total > 0
    ensures RatesDescend(d, total, ByRate(RatedWindows(d, total, targets)))
  {
    var rated := RatedWindows(d, total, targets);
    var sorted := SortBy(rated, RateFirst);
    RatedWindowsSpec(d, total, targets);
    WindowsOfSpec(sorted);
    RateFirstTotal();
    SortBySorted(rated, RateFirst);
    forall k | 0 <= k < |sorted| ensures sorted[k].1 == Rate(d, total, sorted[k].0) {
      assert sorted[k] in multiset(rated);
      var m :| 0 <= m < |rated| && rated[m] == sorted[k];
    }
  }

  /** There is a recommendation exactly when the total is positive. */
  lemma TestOrderExists(stats: SideStats, targets: seq<int>)
    requires forall w :: w in targets ==> IsDistributionKey(w)
    ensures OptimalTestOrder(stats, targets).None? <==> BeforeTotal(stats) == 0
  {
  }

  /** Each order lists the targets, each as often as given. */
  lemma TestOrderPermutes(stats: SideStats, targets: seq<int>)
    requires forall w :: w in targets ==> IsDistributionKey(w)
    requires BeforeTotal(stats) > 0
    ensures multiset(OptimalTestOrder(stats, targets).value.beforeOrder) == multiset(targets)
    ensures multiset(OptimalTestOrder(stats, targets).value.afterOrder) == multiset(targets)
  {
    ByRatePermutes(stats.before, BeforeTotal(stats), targets);
    ByRatePermutes(stats.after, BeforeTotal(stats), targets);
  }

  /** Each order goes from the highest rate to the lowest. */
  lemma TestOrderByRate(stats: SideStats, targets: seq<int>)
    requires forall w :: w in targets ==> IsDistributionKey(w)
    requires BeforeTotal(stats) > 0
    ensures RatesDescend(stats.before, BeforeTotal(stats), OptimalTestOrder(stats, targets).value.beforeOrder)
    ensures RatesDescend(stats.after, BeforeTotal(stats), OptimalTestOrder(stats, targets).value.afterOrder)
  {
    ByRateSorted(stats.before, BeforeTotal(stats), targets);
    ByRateSorted(stats.after, BeforeTotal(stats), targets);
  }

  /** Each rate dictionary holds every target with its rate, in the targets'
      order. */
  lemma TestOrderRates(stats: SideStats, targets: seq<int>)
    requires forall w :: w in targets ==> IsDistributionKey(w)
    requires BeforeTotal(stats) > 0
    ensures var r := OptimalTestOrder(stats, targets).value;
            && |r.beforeRates| == |targets| && |r.afterRates| == |targets|
            && (forall i :: 0 <= i < |targets| ==> r.beforeRates[i] == (targets[i], Rate(stats.before, BeforeTotal(stats), targets[i])))
            && (forall i :: 0 <= i < |targets| ==> r.afterRates[i] == (targets[i], Rate(stats.after, BeforeTotal(stats), targets[i])))
  {
    RatedWindowsSpec(stats.before, BeforeTotal(stats), targets);
    RatedWindowsSpec(stats.after, BeforeTotal(stats), targets);
  }

  /** With nested counts the rates never rise with the window, so targets
      given in ascending order come back unchanged. */
  lemma AscendingTargetsKept(d: Distribution, total: nat, targets: seq<int>)
    requires total > 0 && Nested(d)
    requires forall w :: w in targets ==> IsDistributionKey(w)
    requires forall i, j :: 0 <= i < j < |targets| ==> targets[i] < targets[j]
    ensures ByRate(RatedWindows(d, total, targets)) == targets
  {
    var rated := RatedWindows(d, total, targets);
    RatedWindowsSpec(d, total, targets);
    forall i, j | 0 <= i < j < |rated| ensures RateFirst(rated[i], rated[j]) {
      assert targets[i] in targets && targets[j] in targets;
      RateMonotone(d, total, targets[i], targets[j]);
    }
    SortByOfSorted(rated, RateFirst);
    WindowsOfSpec(rated);
    assert WindowsOf(rated) == targets;
  }

  lemma TargetWindowsAscending()
    ensures forall w :: w in TargetWindows ==> IsDistributionKey(w)
    ensures forall i, j :: 0 <= i < j < |TargetWindows| ==> TargetWindows[i] < TargetWindows[j]
  {
  }

  /** For the scanner's own statistics, whenever there are samples the
      recommended order of the default targets is 5, 10, 20, for both
      triggers. */
  lemma AnalysisOrderAscending(df: seq<Bar>, maxWindow: nat)
    requires SampleCount(df, maxWindow) > 0
    ensures var stats := AnalysisStats(df, maxWindow);
            && OptimalTestOrder(stats.high, TargetWindows).Some?
            && OptimalTestOrder(stats.high, TargetWindows).value.beforeOrder == TargetWindows
            && OptimalTestOrder(stats.high, TargetWindows).value.afterOrder == TargetWindows
            && OptimalTestOrder(stats.low, TargetWindows).Some?
            && OptimalTestOrder(stats.low, TargetWindows).value.beforeOrder == TargetWindows
            && OptimalTestOrder(stats.low, TargetWindows).value.afterOrder == TargetWindows
  {
    AnalysisCounts(df, maxWindow, High, Before);
    AnalysisCounts(df, maxWindow, High, After);
    AnalysisCounts(df, maxWindow, Low, Before);
    AnalysisCounts(df, maxWindow, Low, After);
    var stats := AnalysisStats(df, maxWindow);
    TargetWindowsAscending();
    AscendingTargetsKept(stats.high.before, BeforeTotal(stats.high), TargetWindows);
    AscendingTargetsKept(stats.high.after, BeforeTotal(stats.high), TargetWindows);
    AscendingTargetsKept(stats.low.before, BeforeTotal(stats.low), TargetWindows);
    AscendingTargetsKept(stats.low.after, BeforeTotal(stats.low), TargetWindows);
  }
}

=== FILE: grid_search.dfy ===
/** The grid-search driver (scripts/automazione_statistica.py): the rows of
    the cleaned range-bar file are cut to one time slot, every bar whose
    levels fire the volume-aggression trigger becomes a record, the records
    are summarised into win rates, a profit factor and a score, the 720
    parameter combinations are enumerated in a fixed nested order, and the
    results with at least three trades are kept and ranked by score.

    The trigger test and the classifiers the driver calls
    (`has_volume_aggression_trigger`, `is_divergent_candle`,
    `classify_trigger_position`, the imbalance, exhaustion and reversal
    classifiers) are defined in no file of the repository; they are the
    parameters of `Classifiers`.  So is `log1p`, a floating-point library
    function. */
module GridSearch {
  import opened Wrappers
  import opened Sorting

  // ---------------------------------------------------------------------
  // is_trading_hours, filter_by_time_slot

  /** Times of day are counted in microseconds after midnight, the
      resolution of a Python `time`. */
  const Minute: int := 60_000_000

  function Clock(hours: int, minutes: int): int
  {
    (hours * 60 + minutes) * Minute
  }

  /** `is_trading_hours`: the time of day lies between the two bounds, both
      included. */
  predicate IsTradingHours(timeOfDay: int, start: int, end: int)
  {
    start <= timeOfDay <= end
  }

  /** One row of the cleaned range-bar file, with its opening time reduced
      to the time of day. */
  datatype Row = Row(openTime: int, high: real, low: real, volume: int, delta: int,
                     direction: string, priceStats: string)

  /** The bounds of the two named slots; any other slot keeps every row. */
  function SlotBounds(slot: string): Option<(int, int)>
  {
    if slot == "09:00-15:30" then Some((Clock(9, 0), Clock(15, 30)))
    else if slot == "15:30-18:00" then Some((Clock(15, 30), Clock(18, 0)))
    else None
  }

  predicate InSlot(slot: string, row: Row)
  {
    match SlotBounds(slot)
    case None => true
    case Some(b) => IsTradingHours(row.openTime, b.0, b.1)
  }

  /** `filter_by_time_slot` on the first `n` rows: the rows in the slot,
      each with its label in the unfiltered frame (pandas keeps the index of
      the rows a mask selects). */
  function FilterBySlot(rows: seq<Row>, slot: string, n: nat): (r: seq<(nat, Row)>)
    requires n <= |rows|
    ensures |r| <= n
  {
    if n == 0 then []
    else if InSlot(slot, rows[n - 1]) then FilterBySlot(rows, slot, n - 1) + [(n - 1, rows[n - 1])]
    else FilterBySlot(rows, slot, n - 1)
  }

  function FilterByTimeSlot(rows: seq<Row>, slot: string): seq<(nat, Row)>
  {
    FilterBySlot(rows, slot, |rows|)
  }

  /** The labels of a selection are increasing row positions. */
  predicate LabelsIncrease(sel: seq<(nat, Row)>)
  {
    forall i, j :: 0 <= i < j < |sel| ==> sel[i].0 < sel[j].0
  }

  /** Every entry of `sel` is a row of `rows` below `bound` that is in the
      slot, under its own position as label. */
  predicate SelectedFrom(rows: seq<Row>, slot: string, bound: nat, sel: seq<(nat, Row)>)
  {
    forall k :: 0 <= k < |sel| ==> sel[k].0 < bound && sel[k].0 < |rows| && sel[k].1 == rows[sel[k].0] && InSlot(slot, sel[k].1)
  }

  /** Every kept row is in the slot and is the row its label names, and the
      labels increase. */
  lemma {:induction false} FilterBySlotSound(rows: seq<Row>, slot: string, n: nat)
    requires n <= |rows|
    ensures SelectedFrom(rows, slot, n, FilterBySlot(rows, slot, n))
    ensures LabelsIncrease(FilterBySlot(rows, slot, n))
  {
    if n > 0 {
      FilterBySlotSound(rows, slot, n - 1);
      var prev := FilterBySlot(rows, slot, n - 1);
      if InSlot(slot, rows[n - 1]) {
        var r := prev + [(n - 1, rows[n - 1])];
        assert forall k :: 0 <= k < |prev| ==> r[k] == prev[k];
        assert LabelsIncrease(r) by {
          forall i, j | 0 <= i < j < |r| ensures r[i].0 < r[j].0 {
            if j == |prev| {
              assert r[i] == prev[i];
            }
          }
        }
      }
    }
  }

  /** No row in the slot is dropped. */
  lemma {:induction false} FilterBySlotComplete(rows: seq<Row>, slot: string, n: nat, i: nat)
    requires i < n <= |rows| && InSlot(slot, rows[i])
    ensures exists k :: 0 <= k < |FilterBySlot(rows, slot, n)| && FilterBySlot(rows, slot, n)[k] == (i, rows[i])
  {
    var prev := FilterBySlot(rows, slot, n - 1);
    var r := FilterBySlot(rows, slot, n);
    if i == n - 1 {
      assert r[|prev|] == (i, rows[i]);
    } else {
      FilterBySlotComplete(rows, slot, n - 1, i);
      var k :| 0 <= k < |prev| && prev[k] == (i, rows[i]);
      assert r[k] == (i, rows[i]);
    }
  }

  /** A slot other than the two named ones keeps every row, in order. */
  lemma {:induction false} OtherSlotKeepsAll(rows: seq<Row>, slot: string, n: nat)
    requires n <= |rows|
    requires SlotBounds(slot).None?
    ensures var r := FilterBySlot(rows, slot, n);
            |r| == n && forall k :: 0 <= k < n ==> r[k] == (k, rows[k])
  {
    if n > 0 {
      OtherSlotKeepsAll(rows, slot, n - 1);
    }
  }

  /** A bar opening at exactly 15:30 belongs to both named slots. */
  lemma SwitchInBothSlots(row: Row)
    requires row.openTime == Clock(15, 30)
    ensures InSlot("09:00-15:30", row) && InSlot("15:30-18:00", row)
  {
  }

  /** Outside the two named slots' bounds a bar is in neither. */
  lemma SlotsCoverSession(row: Row)
    ensures InSlot("09:00-15:30", row) || InSlot("15:30-18:00", row)
            <==> Clock(9, 0) <= row.openTime <= Clock(18, 0)
  {
  }

  // ---------------------------------------------------------------------
  // generate_parameter_combinations

  datatype Params = Params(nExtremes: int, volThreshold: real, aggressionThreshold: real,
                           exhaustionThreshold: real, timeSlot: string)

  const NExtremesValues: seq<int> := [3]
  const VolThresholdValues: seq<real> := [0.2, 0.25, 0.3, 0.35, 0.4, 0.45, 0.5, 0.55, 0.6]
  const AggressionThresholdValues: seq<real> := [0.3, 0.4, 0.5, 0.6, 0.7, 0.8, 0.85, 0.9]
  const ExhaustionThresholdValues: seq<real> := [0.05, 0.1, 0.15, 0.2, 0.25]
  const TimeSlots: seq<string> := ["09:00-15:30", "15:30-18:00"]

  /** A choice of one value from each list, by position. */
  datatype GridPoint = GridPoint(n: int, vol: int, agg: int, exh: int, slot: int)

  predicate InGrid(g: GridPoint)
  {
    && 0 <= g.n < |NExtremesValues| && 0 <= g.vol < |VolThresholdValues|
    && 0 <= g.agg < |AggressionThresholdValues| && 0 <= g.exh < |ExhaustionThresholdValues|
    && 0 <= g.slot < |TimeSlots|
  }

  function Combination(g: GridPoint): Params
    requires InGrid(g)
  {
    Params(NExtremesValues[g.n], VolThresholdValues[g.vol], AggressionThresholdValues[g.agg],
           ExhaustionThresholdValues[g.exh], TimeSlots[g.slot])
  }

  /** Where a choice lands when the first list varies slowest and the time
      slot fastest: the lists hold 1, 9, 8, 5 and 2 values. */
  function GridIndex(g: GridPoint): int
  {
    (((g.n * 9 + g.vol) * 8 + g.agg) * 5 + g.exh) * 2 + g.slot
  }

  lemma GridSizes()
    ensures |NExtremesValues| == 1 && |VolThresholdValues| == 9 && |AggressionThresholdValues| == 8
    ensures |ExhaustionThresholdValues| == 5 && |TimeSlots| == 2
  {
  }

  /** The choice at a position of the grid. */
  function GridPointAt(i: int): GridPoint
  {
    GridPoint(i / 720, (i / 80) % 9, (i / 10) % 8, (i / 2) % 5, i % 2)
  }

  lemma GridIndexBound(g: GridPoint)
    requires InGrid(g)
    ensures 0 <= GridIndex(g) < 720
  {
    GridSizes();
  }

  /** Every choice has a position in `[0, 720)`, and the position gives the
      choice back, so positions and choices are in one-to-one
      correspondence. */
  lemma GridIndexRoundTrip(g: GridPoint)
    requires InGrid(g)
    ensures 0 <= GridIndex(g) < 720
    ensures GridPointAt(GridIndex(g)) == g
  {
    var i := GridIndex(g);
    assert i == 80 * g.vol + 10 * g.agg + 2 * g.exh + g.slot;
    assert i / 2 == 40 * g.vol + 5 * g.agg + g.exh;
    assert i / 10 == 8 * g.vol + g.agg;
    assert i / 80 == g.vol;
  }

  /** Every position in `[0, 720)` holds a choice. */
  lemma GridPointRoundTrip(i: int)
    requires 0 <= i < 720
    ensures InGrid(GridPointAt(i))
    ensures GridIndex(GridPointAt(i)) == i
  {
    var g := GridPointAt(i);
    assert i == 2 * (i / 2) + i % 2;
    assert i / 2 == 5 * (i / 10) + (i / 2) % 5;
    assert i / 10 == 8 * (i / 80) + (i / 10) % 8;
  }

  /** Every choice whose position is already filled holds its combination. */
  ghost predicate Placed(combinations: seq<Params>)
  {
    forall g {:trigger combinations[GridIndex(g)]} :: InGrid(g) && 0 <= GridIndex(g) < |combinations| ==> combinations[GridIndex(g)] == Combination(g)
  }

  /** `generate_parameter_combinations`: five nested loops, the time slot
      innermost. */
  method GenerateParameterCombinations() returns (combinations: seq<Params>)
    ensures |combinations| == 720
    ensures forall g :: InGrid(g) ==> GridIndex(g) < 720 && combinations[GridIndex(g)] == Combination(g)
  {
    combinations := [];
    for a := 0 to |NExtremesValues|
      invariant |combinations| == GridIndex(GridPoint(a, 0, 0, 0, 0))
      invariant Placed(combinations)
    {
      for b := 0 to |VolThresholdValues|
        invariant |combinations| == GridIndex(GridPoint(a, b, 0, 0, 0))
        invariant Placed(combinations)
      {
        for c := 0 to |AggressionThresholdValues|
          invariant |combinations| == GridIndex(GridPoint(a, b, c, 0, 0))
          invariant Placed(combinations)
        {
          for d := 0 to |ExhaustionThresholdValues|
            invariant |combinations| == GridIndex(GridPoint(a, b, c, d, 0))
            invariant Placed(combinations)
          {
            for e := 0 to |TimeSlots|
              invariant |combinations| == GridIndex(GridPoint(a, b, c, d, e))
              invariant Placed(combinations)
            {
              var here := GridPoint(a, b, c, d, e);
              AppendAtIndex(combinations, here);
              combinations := combinations + [Combination(here)];
            }
          }
        }
      }
    }
    forall g | InGrid(g) ensures GridIndex(g) < 720 {
      GridIndexBound(g);
    }
  }

  /** Appending the combination of the choice whose position is the current
      length keeps every choice at its position. */
  lemma AppendAtIndex(combinations: seq<Params>, here: GridPoint)
    requires InGrid(here) && |combinations| == GridIndex(here)
    requires Placed(combinations)
    ensures Placed(combinations + [Combination(here)])
  {
    var next := combinations + [Combination(here)];
    forall g | InGrid(g) && 0 <= GridIndex(g) < |next| ensures next[GridIndex(g)] == Combination(g) {
      if GridIndex(g) == |combinations| {
        GridIndexRoundTrip(g);
        GridIndexRoundTrip(here);
      }
    }
  }

  // ---------------------------------------------------------------------
  // run_single_test

  /** What `classify_directional_reversal` reports for a bar that reversed. */
  datatype Reversal = Reversal(maxExcursion: real, excursionBars: int, stopStatus: string, tradeDirection: string)

  /** The functions `run_single_test` calls that no file of the repository
      defines, and the library `log1p`.  `trigger` stands for parsing the
      row's price statistics, splitting them per level and testing the
      volume-aggression trigger; `coherence` for detecting the imbalances at
      the trigger position and classifying their coherence. */
  datatype Classifiers = Classifiers(
    trigger: (Row, Params) -> bool,
    divergent: Row -> bool,
    position: (Row, Params) -> string,
    coherence: (Row, Params, string) -> string,
    exhaustion: (Row, Params, string) -> (bool, string),
    reversal: (seq<(nat, Row)>, nat, string, real, real) -> Option<Reversal>,
    log1p: nat -> real)

  /** One entry of `results`. */
  datatype TestRecord = TestRecord(
    index: nat, triggerPosition: string, isDivergent: bool, imbalanceCoherence: string,
    hasExhaustion: bool, exhaustionType: string, hasReversal: bool, maxExcursion: real,
    excursionBars: int, stopStatus: string, tradeDirection: string, volume: int, delta: int)

  /** The record of a triggering bar: without a reversal the excursion is 0
      and the stop status and trade direction are `'NONE'`. */
  function MakeRecord(filtered: seq<(nat, Row)>, labelled: (nat, Row), p: Params, c: Classifiers): TestRecord
  {
    var row := labelled.1;
    var position := c.position(row, p);
    var exhaustion := c.exhaustion(row, p, position);
    var reversal := c.reversal(filtered, labelled.0, position, row.high, row.low);
    TestRecord(labelled.0, position, c.divergent(row), c.coherence(row, p, position),
               exhaustion.0, exhaustion.1, reversal.Some?,
               if reversal.Some? then reversal.value.maxExcursion else 0.0,
               if reversal.Some? then reversal.value.excursionBars else 0,
               if reversal.Some? then reversal.value.stopStatus else "NONE",
               if reversal.Some? then reversal.value.tradeDirection else "NONE",
               row.volume, row.delta)
  }

  /** The records of the first `k` filtered rows. */
  function Records(filtered: seq<(nat, Row)>, p: Params, c: Classifiers, k: nat): (r: seq<TestRecord>)
    requires k <= |filtered|
    ensures |r| <= k
  {
    if k == 0 then []
    else if c.trigger(filtered[k - 1].1, p) then Records(filtered, p, c, k - 1) + [MakeRecord(filtered, filtered[k - 1], p, c)]
    else Records(filtered, p, c, k - 1)
  }

  /** A record reports a reversal exactly when the reversal classifier
      found one, and otherwise carries the neutral defaults. */
  predicate Consistent(rec: TestRecord)
  {
    rec.hasReversal
    || (rec.maxExcursion == 0.0 && rec.excursionBars == 0 && rec.stopStatus == "NONE" && rec.tradeDirection == "NONE")
  }

  /** `rec` is the record of one of the first `k` filtered rows, and that
      row fires the trigger. */
  predicate FromTriggeringRow(filtered: seq<(nat, Row)>, p: Params, c: Classifiers, k: nat, rec: TestRecord)
    requires k <= |filtered|
  {
    exists i :: 0 <= i < k && c.trigger(filtered[i].1, p) && rec == MakeRecord(filtered, filtered[i], p, c)
  }

  /** Every record is the record of a triggering bar. */
  lemma {:induction false} RecordsSound(filtered: seq<(nat, Row)>, p: Params, c: Classifiers, k: nat)
    requires k <= |filtered|
    ensures forall rec :: rec in Records(filtered, p, c, k) ==> FromTriggeringRow(filtered, p, c, k, rec)
  {
    if k > 0 {
      RecordsSound(filtered, p, c, k - 1);
      forall rec | rec in Records(filtered, p, c, k) ensures FromTriggeringRow(filtered, p, c, k, rec) {
        if rec in Records(filtered, p, c, k - 1) {
          assert FromTriggeringRow(filtered, p, c, k - 1, rec);
          var i :| 0 <= i < k - 1 && c.trigger(filtered[i].1, p) && rec == MakeRecord(filtered, filtered[i], p, c);
        } else {
          assert c.trigger(filtered[k - 1].1, p) && rec == MakeRecord(filtered, filtered[k - 1], p, c);
        }
      }
    }
  }

  /** Every triggering bar has its record. */
  lemma {:induction false} RecordsComplete(filtered: seq<(nat, Row)>, p: Params, c: Classifiers, k: nat)
    requires k <= |filtered|
    ensures forall i :: 0 <= i < k && c.trigger(filtered[i].1, p) ==> MakeRecord(filtered, filtered[i], p, c) in Records(filtered, p, c, k)
  {
    if k > 0 {
      RecordsComplete(filtered, p, c, k - 1);
    }
  }

  /** No records exactly when no filtered bar fires the trigger. */
  lemma {:induction false} RecordsEmpty(filtered: seq<(nat, Row)>, p: Params, c: Classifiers, k: nat)
    requires k <= |filtered|
    ensures Records(filtered, p, c, k) == [] <==> forall i :: 0 <= i < k ==> !c.trigger(filtered[i].1, p)
  {
    if k > 0 {
      RecordsEmpty(filtered, p, c, k - 1);
    }
  }

  /** Every record built this way is consistent. */
  lemma MakeRecordConsistent(filtered: seq<(nat, Row)>, labelled: (nat, Row), p: Params, c: Classifiers)
    ensures var rec := MakeRecord(filtered, labelled, p, c);
            var reversal := c.reversal(filtered, labelled.0, rec.triggerPosition, labelled.1.high, labelled.1.low);
            && (rec.hasReversal <==> reversal.Some?)
            && Consistent(rec)
            && rec.index == labelled.0
  {
  }

  /** The records `keep` accepts, in order (a boolean mask on the results
      frame). */
  function Where(recs: seq<TestRecord>, keep: TestRecord -> bool): (r: seq<TestRecord>)
    ensures |r| <= |recs|
  {
    if recs == [] then []
    else if keep(recs[|recs| - 1]) then Where(recs[..|recs| - 1], keep) + [recs[|recs| - 1]]
    else Where(recs[..|recs| - 1], keep)
  }

  /** A mask and its negation split the records between them. */
  lemma {:induction false} WherePartition(recs: seq<TestRecord>, keep: TestRecord -> bool, drop: TestRecord -> bool)
    requires forall rec :: drop(rec) == !keep(rec)
    ensures |Where(recs, keep)| + |Where(recs, drop)| == |recs|
  {
    if recs != [] {
      WherePartition(recs[..|recs| - 1], keep, drop);
    }
  }

  /** A mask keeps every record exactly when it accepts all of them. */
  lemma {:induction false} WhereAll(recs: seq<TestRecord>, keep: TestRecord -> bool)
    ensures |Where(recs, keep)| == |recs| <==> forall rec :: rec in recs ==> keep(rec)
  {
    if recs != [] {
      var init := recs[..|recs| - 1];
      WhereAll(init, keep);
      assert recs == init + [recs[|recs| - 1]];
      assert forall rec :: rec in recs <==> rec in init || rec == recs[|recs| - 1];
    }
  }

  predicate IsDivergentRecord(rec: TestRecord) { rec.isDivergent }
  predicate IsNonDivergentRecord(rec: TestRecord) { !rec.isDivergent }
  predicate HasReversal(rec: TestRecord) { rec.hasReversal }
  predicate IsCoherent(rec: TestRecord) { rec.imbalanceCoherence == "COHERENT" }
  predicate HasExhaustion(rec: TestRecord) { rec.hasExhaustion }
  predicate AtHigh(rec: TestRecord) { rec.triggerPosition == "HIGH" }
  predicate AtLow(rec: TestRecord) { rec.triggerPosition == "LOW" }
  predicate AtBoth(rec: TestRecord) { rec.triggerPosition == "BOTH" }

  /** `mask.mean() * 100`: the share of `count` in `n`, in percent. */
  function Percent(count: nat, n: nat): real
    requires n > 0
  {
    count as real * 100.0 / n as real
  }

  lemma PercentBounds(count: nat, n: nat)
    requires 0 < n && count <= n
    ensures 0.0 <= Percent(count, n) <= 100.0
  {
    assert count as real * 100.0 <= n as real * 100.0;
  }

  function ExcursionSum(recs: seq<TestRecord>): real
  {
    if recs == [] then 0.0 else ExcursionSum(recs[..|recs| - 1]) + recs[|recs| - 1].maxExcursion
  }

  function BarsSum(recs: seq<TestRecord>): int
  {
    if recs == [] then 0 else BarsSum(recs[..|recs| - 1]) + recs[|recs| - 1].excursionBars
  }

  /** `Series.max()` of the excursions. */
  function MaxExcursion(recs: seq<TestRecord>): real
    requires recs != []
  {
    if |recs| == 1 then recs[0].maxExcursion
    else
      var m := MaxExcursion(recs[..|recs| - 1]);
      if recs[|recs| - 1].maxExcursion > m then recs[|recs| - 1].maxExcursion else m
  }

  lemma {:induction false} MaxExcursionSpec(recs: seq<TestRecord>)
    requires recs != []
    ensures forall rec :: rec in recs ==> rec.maxExcursion <= MaxExcursion(recs)
    ensures exists rec :: rec in recs && rec.maxExcursion == MaxExcursion(recs)
  {
    if |recs| > 1 {
      var init := recs[..|recs| - 1];
      var last := recs[|recs| - 1];
      MaxExcursionSpec(init);
      assert recs == init + [last];
      forall rec | rec in recs ensures rec.maxExcursion <= MaxExcursion(recs) {
        if rec != last {
          assert rec in init;
        }
      }
      if last.maxExcursion > MaxExcursion(init) {
        assert last in recs;
      } else {
        var w :| w in init && w.maxExcursion == MaxExcursion(init);
        assert w in recs;
      }
    } else {
      assert recs == [recs[0]];
      assert recs[0] in recs;
    }
  }

  /** The fixed stop of every losing trade, in points. */
  const StopLossFixed: real := 2.0

  datatype ProfitFactor = Finite(value: real) | Infinite

  /** The dictionary `run_single_test` returns, without the winner and loser
      profiles, and with one field the dictionary lacks: `totalLoss`, the
      loss the script computes on the way to the profit factor, kept so
      that the profit factor can be stated against it. */
  datatype TestResult = TestResult(
    params: Params, filterType: string, nTrades: nat, winrate: real, avgProfit: real,
    maxProfit: real, avgBars: real, totalLoss: real, profitFactor: ProfitFactor, finalScore: real,
    nDivergent: nat, nNonDivergent: nat, winrateDivergent: real, winrateNonDivergent: real,
    divergentRate: real, coherentRate: real, exhaustionRate: real,
    highTriggerRate: real, lowTriggerRate: real, bothTriggerRate: real)

  /** The win rate of a subset, 0 when it is empty. */
  function SubsetWinrate(subset: seq<TestRecord>): real
  {
    if |subset| > 0 then Percent(|Where(subset, HasReversal)|, |subset|) else 0.0
  }

  /** The mean of the winners' excursions, 0 without winners. */
  function AverageProfit(wins: seq<TestRecord>): real
  {
    if |wins| > 0 then ExcursionSum(wins) / |wins| as real else 0.0
  }

  /** The profit factor: the winners' excursions over a fixed stop per
      loser, infinite when there is no loser. */
  function ProfitFactorOf(recs: seq<TestRecord>): ProfitFactor
  {
    var wins := Where(recs, HasReversal);
    var totalProfit := if |wins| > 0 then ExcursionSum(wins) else 0.0;
    var totalLoss := (|recs| - |wins|) as real * StopLossFixed;
    if totalLoss > 0.0 then Finite(totalProfit / totalLoss) else Infinite
  }

  /** `winrate * avg_profit * log1p(n_trades)` times the quality bonus. */
  function FinalScore(winrate: real, avgProfit: real, log1pTrades: real,
                      divergentRate: real, coherentRate: real, exhaustionRate: real): real
  {
    winrate * avgProfit * log1pTrades
      * ((1.0 + divergentRate / 100.0) * (1.0 + coherentRate / 100.0) * (1.0 + exhaustionRate / 100.0))
  }

  /** The metrics of a non-empty list of records. */
  function Summarize(p: Params, recs: seq<TestRecord>, log1p: nat -> real): TestResult
    requires recs != []
  {
    var n := |recs|;
    var wins := Where(recs, HasReversal);
    var divergent := Where(recs, IsDivergentRecord);
    var nonDivergent := Where(recs, IsNonDivergentRecord);
    var winrate := Percent(|wins|, n);
    var avgProfit := AverageProfit(wins);
    var divergentRate := Percent(|divergent|, n);
    var coherentRate := Percent(|Where(recs, IsCoherent)|, n);
    var exhaustionRate := Percent(|Where(recs, HasExhaustion)|, n);
    TestResult(
      p, "ALL_TRIGGERS", n, winrate, avgProfit,
      if |wins| > 0 then MaxExcursion(wins) else 0.0,
      if |wins| > 0 then BarsSum(wins) as real / |wins| as real else 0.0,
      (n - |wins|) as real * StopLossFixed, ProfitFactorOf(recs),
      FinalScore(winrate, avgProfit, log1p(n), divergentRate, coherentRate, exhaustionRate),
      |divergent|, |nonDivergent|, SubsetWinrate(divergent), SubsetWinrate(nonDivergent),
      divergentRate, coherentRate, exhaustionRate,
      Percent(|Where(recs, AtHigh)|, n), Percent(|Where(recs, AtLow)|, n), Percent(|Where(recs, AtBoth)|, n))
  }

  /** `run_single_test`, as a function of the rows. */
  function SingleTest(rows: seq<Row>, p: Params, c: Classifiers): Option<TestResult>
  {
    var filtered := FilterByTimeSlot(rows, p.timeSlot);
    if |filtered| == 0 then None
    else
      var recs := Records(filtered, p, c, |filtered|);
      if recs == [] then None else Some(Summarize(p, recs, c.log1p))
  }

  /** `run_single_test`: filter, then one pass over the filtered rows that
      appends the record of every triggering bar. */
  method RunSingleTest(rows: seq<Row>, p: Params, c: Classifiers) returns (result: Option<TestResult>)
    ensures result == SingleTest(rows, p, c)
  {
    var filtered := FilterByTimeSlot(rows, p.timeSlot);
    if |filtered| == 0 {
      return None;
    }
    var results: seq<TestRecord> := [];
    for k := 0 to |filtered|
      invariant results == Records(filtered, p, c, k)
    {
      var labelled := filtered[k];
      if c.trigger(labelled.1, p) {
        results := results + [MakeRecord(filtered, labelled, p, c)];
      }
    }
    if results == [] {
      return None;
    }
    result := Some(Summarize(p, results, c.log1p));
  }

  /** There is no result exactly when no row is in the slot or no row in
      the slot fires the trigger. */
  lemma SingleTestNone(rows: seq<Row>, p: Params, c: Classifiers)
    ensures var filtered := FilterByTimeSlot(rows, p.timeSlot);
            SingleTest(rows, p, c).None? <==> forall i :: 0 <= i < |filtered| ==> !c.trigger(filtered[i].1, p)
  {
    var filtered := FilterByTimeSlot(rows, p.timeSlot);
    RecordsEmpty(filtered, p, c, |filtered|);
  }

  /** The divergent and non-divergent trades split the trades. */
  lemma DivergentSplit(p: Params, recs: seq<TestRecord>, log1p: nat -> real)
    requires recs != []
    ensures Summarize(p, recs, log1p).nDivergent + Summarize(p, recs, log1p).nNonDivergent
            == Summarize(p, recs, log1p).nTrades
  {
    WherePartition(recs, IsDivergentRecord, IsNonDivergentRecord);
  }

  /** The loss counts a fixed stop for each trade without a reversal, and
      the profit factor is infinite exactly when every trade reversed. */
  lemma ProfitFactorInfinite(p: Params, recs: seq<TestRecord>, log1p: nat -> real)
    requires recs != []
    ensures var r := Summarize(p, recs, log1p);
            && r.totalLoss == (r.nTrades - |Where(recs, HasReversal)|) as real * 2.0
            && r.totalLoss >= 0.0
            && (r.profitFactor.Infinite? <==> forall rec :: rec in recs ==> rec.hasReversal)
  {
    WhereAll(recs, HasReversal);
  }

  /** The rates are percentages. */
  lemma RatesArePercentages(p: Params, recs: seq<TestRecord>, log1p: nat -> real)
    requires recs != []
    ensures var r := Summarize(p, recs, log1p);
            && 0.0 <= r.winrate <= 100.0
            && 0.0 <= r.divergentRate <= 100.0
            && 0.0 <= r.coherentRate <= 100.0
            && 0.0 <= r.exhaustionRate <= 100.0
  {
    var n := |recs|;
    PercentBounds(|Where(recs, HasReversal)|, n);
    PercentBounds(|Where(recs, IsDivergentRecord)|, n);
    PercentBounds(|Where(recs, IsCoherent)|, n);
    PercentBounds(|Where(recs, HasExhaustion)|, n);
  }

  /** Every record of a test is consistent: no excursion, stop status or
      trade direction without a reversal. */
  lemma RecordsConsistent(filtered: seq<(nat, Row)>, p: Params, c: Classifiers, k: nat)
    requires k <= |filtered|
    ensures forall rec :: rec in Records(filtered, p, c, k) ==> Consistent(rec)
  {
    RecordsSound(filtered, p, c, k);
    forall rec | rec in Records(filtered, p, c, k) ensures Consistent(rec) {
      assert FromTriggeringRow(filtered, p, c, k, rec);
      var i :| 0 <= i < k && c.trigger(filtered[i].1, p) && rec == MakeRecord(filtered, filtered[i], p, c);
      MakeRecordConsistent(filtered, filtered[i], p, c);
    }
  }

  // ---------------------------------------------------------------------
  // save_detailed_results

  /** The minimum number of trades a result needs to be saved. */
  const MinTrades: nat := 3

  predicate Saved(r: Option<TestResult>)
  {
    r.Some? && r.value.nTrades >= MinTrades
  }

  /** The results worth saving, in the order the tests ran. */
  function ValidResults(all: seq<Option<TestResult>>): (valid: seq<TestResult>)
    ensures |valid| <= |all|
  {
    if all == [] then []
    else if Saved(all[|all| - 1]) then ValidResults(all[..|all| - 1]) + [all[|all| - 1].value]
    else ValidResults(all[..|all| - 1])
  }

  /** A result is kept exactly when it exists and has at least three
      trades. */
  lemma {:induction false} ValidResultsSpec(all: seq<Option<TestResult>>)
    ensures forall r :: r in ValidResults(all) <==> Some(r) in all && r.nTrades >= MinTrades
  {
    if all != [] {
      var init := all[..|all| - 1];
      ValidResultsSpec(init);
      assert all == init + [all[|all| - 1]];
      assert forall o :: o in all <==> o in init || o == all[|all| - 1];
    }
  }

  /** The order of `sort_values('final_score', ascending=False)`. */
  predicate ScoreFirst(a: TestResult, b: TestResult)
  {
    a.finalScore >= b.finalScore
  }

  lemma ScoreFirstTotal()
    ensures TotalPreorder(ScoreFirst)
  {
  }

  /** `save_detailed_results` without the files: the saved results ranked
      by score, highest first. */
  method SaveDetailedResults(all: seq<Option<TestResult>>) returns (ranked: seq<TestResult>)
    ensures forall r :: r in ranked ==> r.nTrades >= MinTrades && Some(r) in all
    ensures forall r :: Some(r) in all && r.nTrades >= MinTrades ==> r in ranked
    ensures multiset(ranked) == multiset(ValidResults(all))
    ensures forall i, j :: 0 <= i < j < |ranked| ==> ranked[i].finalScore >= ranked[j].finalScore
  {
    var valid: seq<TestResult> := [];
    for k := 0 to |all|
      invariant valid == ValidResults(all[..k])
    {
      assert all[..k + 1][..k] == all[..k];
      if Saved(all[k]) {
        valid := valid + [all[k].value];
      }
    }
    assert all[..|all|] == all;
    ValidResultsSpec(all);
    ranked := SortBy(valid, ScoreFirst);
    ScoreFirstTotal();
    SortBySorted(valid, ScoreFirst);
    forall r | r in ranked ensures r in valid {
      assert r in multiset(ranked);
    }
    forall r | r in valid ensures r in ranked {
      assert r in multiset(valid);
    }
  }
}

=== FILE: price_stats_text.dfy ===
/** The text form of a bar's price-level dictionary and the three ways the
    scripts strip numpy scalar wrappers (`np.float64(…)`, `np.int64(…)`)
    from it before handing it to Python's literal parser:

    - the bar cleaner (scripts/pulizia_candle_data_raw.py) deletes every
      wrapper prefix, then deletes as many `)` as it found prefixes, each
      time the rightmost one left;
    - the trapped-orders script (scripts/ricerca_parametri_trapped_orders.py)
      deletes every wrapper prefix and every `)`;
    - the window scanner (scripts/test_finestre_direzionali.py) rewrites
      each `np.float64(x)` / `np.int64(x)` to `x` with a regular expression.

    Python's `str.replace`, `str.count` and `re.sub` scan left to right and
    never overlap matches; the functions here do the same. */
module PriceStatsText {
  import opened Wrappers

  const Float64Prefix: string := "np.float64("
  const Int64Prefix: string := "np.int64("

  predicate IsPrefix(p: string, s: string)
  {
    |p| <= |s| && s[..|p|] == p
  }

  /** Python's `s.count(pat)`: non-overlapping occurrences, left to right. */
  function Count(s: string, pat: string): nat
    requires pat != []
    decreases |s|
  {
    if |s| < |pat| then 0
    else if IsPrefix(pat, s) then 1 + Count(s[|pat|..], pat)
    else Count(s[1..], pat)
  }

  /** Python's `s.replace(pat, '')`: every occurrence `Count` finds is cut out. */
  function DeleteAll(s: string, pat: string): (r: string)
    requires pat != []
    decreases |s|
  {
    if |s| < |pat| then s
    else if IsPrefix(pat, s) then DeleteAll(s[|pat|..], pat)
    else [s[0]] + DeleteAll(s[1..], pat)
  }

  /** Python's `s.replace(c, '')` for one character. */
  function DeleteChar(s: string, c: char): (r: string)
    ensures c !in r
    ensures forall x :: x != c ==> multiset(r)[x] == multiset(s)[x]
  {
    if s == [] then []
    else
      assert s == [s[0]] + s[1..];
      (if s[0] == c then [] else [s[0]]) + DeleteChar(s[1..], c)
  }

  /** Index of the rightmost `c` in `s`, or -1 when there is none. */
  function LastIndex(s: string, c: char): (k: int)
    ensures -1 <= k < |s|
    ensures k == -1 ==> c !in s
    ensures k >= 0 ==> s[k] == c && c !in s[k + 1..]
  {
    if s == [] then -1
    else if s[|s| - 1] == c then |s| - 1
    else
      var k := LastIndex(s[..|s| - 1], c);
      assert s == s[..|s| - 1] + [s[|s| - 1]];
      assert k >= 0 ==> s[k + 1..] == s[..|s| - 1][k + 1..] + [s[|s| - 1]];
      k
  }

  /** `s[::-1].replace(c, '', 1)[::-1]`: the rightmost `c` is cut out, if any. */
  function DeleteLast(s: string, c: char): string
  {
    var k := LastIndex(s, c);
    if k < 0 then s else s[..k] + s[k + 1..]
  }

  /** `n` rounds of `DeleteLast`. */
  function DeleteLastN(s: string, c: char, n: nat): string
  {
    if n == 0 then s else DeleteLastN(DeleteLast(s, c), c, n - 1)
  }

  /** The bar cleaner's wrapper stripping, as a function of the raw text. */
  function CleanerStrip(s: string): string
  {
    var prefixesGone := DeleteAll(DeleteAll(s, Float64Prefix), Int64Prefix);
    DeleteLastN(prefixesGone, ')', Count(s, Float64Prefix) + Count(s, Int64Prefix))
  }

  /** The bar cleaner's loop: delete the prefixes, then the rightmost `)` once
      per prefix found in the raw text. */
  method StripNumpyWrappers(priceStatsStr: string) returns (cleanStr: string)
    ensures cleanStr == CleanerStrip(priceStatsStr)
  {
    cleanStr := DeleteAll(DeleteAll(priceStatsStr, Float64Prefix), Int64Prefix);
    var openCount := Count(priceStatsStr, Float64Prefix) + Count(priceStatsStr, Int64Prefix);
    for round := 0 to openCount
      invariant DeleteLastN(cleanStr, ')', openCount - round) == CleanerStrip(priceStatsStr)
    {
      cleanStr := DeleteLast(cleanStr, ')');
    }
  }

  /** The trapped-orders script's stripping: prefixes, then every `)`. */
  function TrappedStrip(s: string): (r: string)
    ensures ')' !in r
  {
    DeleteChar(DeleteAll(DeleteAll(s, Float64Prefix), Int64Prefix), ')')
  }

  /** Length of the longest prefix of `s` without a `)`. */
  function RunWithoutClose(s: string): (n: nat)
    ensures n <= |s|
    ensures ')' !in s[..n]
    ensures n < |s| ==> s[n] == ')'
  {
    if s == [] || s[0] == ')' then 0
    else
      var n := 1 + RunWithoutClose(s[1..]);
      assert s[..n] == [s[0]] + s[1..][..n - 1];
      n
  }

  /** Where `s` starts with `np.float64(` or `np.int64(` followed by at least
      one character other than `)` and then a `)`, the length of the prefix
      and of the argument; the regular expression's match at this position. */
  function MatchAt(s: string): Option<(nat, nat)>
  {
    var p := if IsPrefix(Float64Prefix, s) then |Float64Prefix|
             else if IsPrefix(Int64Prefix, s) then |Int64Prefix| else 0;
    if p == 0 then None
    else
      var n := RunWithoutClose(s[p..]);
      if n > 0 && p + n < |s| then Some((p, n)) else None
  }

  /** The window scanner's `re.sub(r'np\.(float64|int64)\(([^)]+)\)', r'\2', s)`. */
  function RegexStrip(s: string): string
    decreases |s|
  {
    if s == [] then []
    else
      match MatchAt(s)
      case Some((p, n)) => s[p..p + n] + RegexStrip(s[p + n + 1..])
      case None => [s[0]] + RegexStrip(s[1..])
  }

  // ---------------------------------------------------------------------
  // Texts made of plain characters and wrapped numbers

  /** One piece of a price-level text: a plain character, or a number
      wrapped as `np.float64(arg)` (`isFloat`) or `np.int64(arg)`. */
  datatype Piece = Plain(c: char) | Wrapped(isFloat: bool, arg: string)

  /** The pieces the dictionaries are made of: a plain character is neither
      `n` (none of the keys `volume`, `delta`, `bid_volume`, `ask_volume`
      has one) nor `)`, and a wrapped argument is a non-empty number text
      with neither. */
  predicate GoodPiece(p: Piece)
  {
    match p
    case Plain(c) => c != 'n' && c != ')'
    case Wrapped(_, arg) => arg != [] && 'n' !in arg && ')' !in arg
  }

  predicate GoodPieces(ps: seq<Piece>)
  {
    forall i :: 0 <= i < |ps| ==> GoodPiece(ps[i])
  }

  function Prefix(isFloat: bool): string
  {
    if isFloat then Float64Prefix else Int64Prefix
  }

  /** A piece as text, with the wrapper prefix written only for the kinds in
      `keep` (the closing `)` is always written). */
  function PieceText(p: Piece, keep: set<bool>): string
  {
    match p
    case Plain(c) => [c]
    case Wrapped(f, arg) => (if f in keep then Prefix(f) else []) + arg + ")"
  }

  function TextKeeping(ps: seq<Piece>, keep: set<bool>): string
  {
    if ps == [] then [] else PieceText(ps[0], keep) + TextKeeping(ps[1..], keep)
  }

  /** The text the scripts read: every wrapper written out in full. */
  function Render(ps: seq<Piece>): string
  {
    TextKeeping(ps, {true, false})
  }

  /** The text every strip is meant to produce: each wrapper replaced by its
      argument. */
  function Unwrap(ps: seq<Piece>): string
  {
    if ps == [] then [] else PieceUnwrap(ps[0]) + Unwrap(ps[1..])
  }

  function PieceUnwrap(p: Piece): string
  {
    match p
    case Plain(c) => [c]
    case Wrapped(_, arg) => arg
  }

  function KindCount(ps: seq<Piece>, kind: bool): nat
  {
    if ps == [] then 0
    else (if ps[0].Wrapped? && ps[0].isFloat == kind then 1 else 0) + KindCount(ps[1..], kind)
  }

  /** Text in which `pat` cannot start anywhere is passed over by `Count`
      and kept by `DeleteAll`. */
  lemma {:induction false} SkipPlain(u: string, rest: string, pat: string)
    requires pat != [] && pat[0] !in u
    ensures Count(u + rest, pat) == Count(rest, pat)
    ensures DeleteAll(u + rest, pat) == u + DeleteAll(rest, pat)
    decreases |u|
  {
    var s := u + rest;
    if u == [] {
      assert s == rest;
    } else if |s| < |pat| {
      assert Count(rest, pat) == 0;
    } else {
      assert s[..|pat|][0] == u[0] != pat[0];
      assert !IsPrefix(pat, s);
      assert s[1..] == u[1..] + rest;
      SkipPlain(u[1..], rest, pat);
      calc {
        DeleteAll(s, pat);
        [u[0]] + DeleteAll(u[1..] + rest, pat);
        [u[0]] + (u[1..] + DeleteAll(rest, pat));
        { assert u == [u[0]] + u[1..]; }
        u + DeleteAll(rest, pat);
      }
    }
  }

  /** A text whose character `m` differs from `pat`'s holds no match at
      its start: `Count` and `DeleteAll` step over its first character. */
  lemma StepOver(s: string, pat: string, m: nat)
    requires s != [] && m < |pat| && (m < |s| ==> s[m] != pat[m])
    ensures Count(s, pat) == Count(s[1..], pat)
    ensures DeleteAll(s, pat) == [s[0]] + DeleteAll(s[1..], pat)
  {
    if |s| >= |pat| {
      assert s[..|pat|][m] == s[m];
    } else {
      assert s == [s[0]] + s[1..];
    }
  }

  /** A text `v` that differs from `pat` at some position `m` and holds
      `pat`'s first character nowhere after its start holds no match. */
  lemma SkipMismatch(v: string, rest: string, pat: string, m: nat)
    requires v != [] && m < |pat| && m < |v| && v[m] != pat[m] && pat[0] !in v[1..]
    ensures Count(v + rest, pat) == Count(rest, pat)
    ensures DeleteAll(v + rest, pat) == v + DeleteAll(rest, pat)
  {
    var s := v + rest;
    assert s[m] == v[m];
    StepOver(s, pat, m);
    assert s[1..] == v[1..] + rest;
    SkipPlain(v[1..], rest, pat);
    assert [v[0]] + v[1..] == v;
  }

  /** `np.float64(` holds no match of `np.int64(`. */
  lemma FloatPrefixSkip(tail: string, rest: string)
    requires 'n' !in tail
    ensures Count(Float64Prefix + tail + rest, Int64Prefix) == Count(rest, Int64Prefix)
    ensures DeleteAll(Float64Prefix + tail + rest, Int64Prefix)
         == Float64Prefix + tail + DeleteAll(rest, Int64Prefix)
  {
    var v := Float64Prefix + tail;
    assert v[1..] == "p.float64(" + tail;
    SkipMismatch(v, rest, Int64Prefix, 3);
  }

  /** `np.int64(` holds no match of `np.float64(`: neither at its first `n`
      nor at its second. */
  lemma IntPrefixSkip(tail: string, rest: string)
    requires 'n' !in tail
    ensures Count(Int64Prefix + tail + rest, Float64Prefix) == Count(rest, Float64Prefix)
    ensures DeleteAll(Int64Prefix + tail + rest, Float64Prefix)
         == Int64Prefix + tail + DeleteAll(rest, Float64Prefix)
  {
    var v1 := "np.i";
    var v2 := "nt64(" + tail;
    assert v2[1..] == "t64(" + tail;
    SkipMismatch(v2, rest, Float64Prefix, 1);
    SkipMismatch(v1, v2 + rest, Float64Prefix, 3);
    assert Int64Prefix == v1 + "nt64(";
    Assoc(v1, "nt64(", tail);
    Assoc(v1, v2, rest);
    Assoc(v1, v2, DeleteAll(rest, Float64Prefix));
  }

  lemma Assoc(a: string, b: string, c: string)
    ensures a + (b + c) == (a + b) + c
  {
  }

  /** Deleting one kind of wrapper prefix from one piece. */
  lemma PieceDelete(p: Piece, kind: bool, keep: set<bool>, rest: string)
    requires GoodPiece(p) && kind in keep
    ensures Count(PieceText(p, keep) + rest, Prefix(kind))
         == (if p.Wrapped? && p.isFloat == kind then 1 else 0) + Count(rest, Prefix(kind))
    ensures DeleteAll(PieceText(p, keep) + rest, Prefix(kind))
         == PieceText(p, keep - {kind}) + DeleteAll(rest, Prefix(kind))
  {
    var pat := Prefix(kind);
    assert pat[0] == 'n';
    match p
    case Plain(c) =>
      SkipPlain([c], rest, pat);
    case Wrapped(f, arg) =>
      var tail := arg + ")";
      assert 'n' !in tail;
      if f == kind {
        var s := PieceText(p, keep) + rest;
        assert s == pat + (tail + rest);
        assert s[..|pat|] == pat;
        assert s[|pat|..] == tail + rest;
        SkipPlain(tail, rest, pat);
        assert PieceText(p, keep - {kind}) == tail;
      } else if f in keep {
        if f { FloatPrefixSkip(tail, rest); } else { IntPrefixSkip(tail, rest); }
        assert PieceText(p, keep) == Prefix(f) + tail;
        assert PieceText(p, keep - {kind}) == Prefix(f) + tail;
      } else {
        SkipPlain(tail, rest, pat);
        assert PieceText(p, keep) == tail;
        assert PieceText(p, keep - {kind}) == tail;
      }
  }

  /** Deleting one kind of wrapper prefix from a whole text: it removes
      exactly the prefixes of that kind, and counts one per such wrapper. */
  lemma {:induction false} TextDelete(ps: seq<Piece>, kind: bool, keep: set<bool>)
    requires GoodPieces(ps) && kind in keep
    ensures Count(TextKeeping(ps, keep), Prefix(kind)) == KindCount(ps, kind)
    ensures DeleteAll(TextKeeping(ps, keep), Prefix(kind)) == TextKeeping(ps, keep - {kind})
  {
    if ps == [] {
      assert |Prefix(kind)| > 0;
    } else {
      TextDelete(ps[1..], kind, keep);
      PieceDelete(ps[0], kind, keep, TextKeeping(ps[1..], keep));
    }
  }

  lemma {:induction false} DeleteCharAppend(a: string, b: string, c: char)
    ensures DeleteChar(a + b, c) == DeleteChar(a, c) + DeleteChar(b, c)
  {
    if a != [] {
      assert (a + b)[0] == a[0];
      assert (a + b)[1..] == a[1..] + b;
      DeleteCharAppend(a[1..], b, c);
      var h := if a[0] == c then [] else [a[0]];
      assert DeleteChar(a + b, c) == h + DeleteChar(a[1..] + b, c);
      assert DeleteChar(a, c) == h + DeleteChar(a[1..], c);
      Assoc(h, DeleteChar(a[1..], c), DeleteChar(b, c));
    } else {
      assert a + b == b;
    }
  }

  lemma {:induction false} DeleteCharAbsent(s: string, c: char)
    requires c !in s
    ensures DeleteChar(s, c) == s
  {
    if s != [] {
      DeleteCharAbsent(s[1..], c);
    }
  }

  /** Cutting out the rightmost `c` leaves one `c` fewer and the same text
      once every `c` is gone. */
  lemma DeleteLastStep(s: string, c: char)
    requires c in s
    ensures multiset(DeleteLast(s, c))[c] == multiset(s)[c] - 1
    ensures DeleteChar(DeleteLast(s, c), c) == DeleteChar(s, c)
  {
    var k := LastIndex(s, c);
    var a, b := s[..k], s[k + 1..];
    assert DeleteLast(s, c) == a + b;
    assert s == a + [c] + b;
    assert multiset(s) == multiset(a) + multiset{c} + multiset(b);
    DeleteCharAppend(a + [c], b, c);
    DeleteCharAppend(a, [c], c);
    assert DeleteChar([c], c) == [] by {
      assert [c][1..] == [];
    }
    DeleteCharAppend(a, b, c);
    assert DeleteChar(a, c) + [] == DeleteChar(a, c);
  }

  /** Cutting out the rightmost `c` as many times as `s` holds a `c` is
      cutting out every `c`. */
  lemma {:induction false} DeleteLastNAll(s: string, c: char, n: nat)
    requires multiset(s)[c] == n
    ensures DeleteLastN(s, c, n) == DeleteChar(s, c)
    decreases n
  {
    if n == 0 {
      DeleteCharAbsent(s, c);
    } else {
      assert c in multiset(s);
      DeleteLastStep(s, c);
      DeleteLastNAll(DeleteLast(s, c), c, n - 1);
    }
  }

  lemma PieceClosed(p: Piece)
    requires GoodPiece(p)
    ensures multiset(PieceText(p, {}))[')'] == if p.Wrapped? then 1 else 0
    ensures DeleteChar(PieceText(p, {}), ')') == PieceUnwrap(p)
  {
    match p
    case Plain(c) =>
      assert [c][1..] == [];
    case Wrapped(f, arg) =>
      assert PieceText(p, {}) == arg + [')'];
      DeleteCharAppend(arg, [')'], ')');
      DeleteCharAbsent(arg, ')');
      assert DeleteChar([')'], ')') == [] by {
        assert [')'][1..] == [];
      }
      assert arg + [] == arg;
  }

  /** With every prefix gone, the text has one `)` per wrapper, and without
      them it is the unwrapped text. */
  lemma {:induction false} ClosedText(ps: seq<Piece>)
    requires GoodPieces(ps)
    ensures multiset(TextKeeping(ps, {}))[')'] == KindCount(ps, true) + KindCount(ps, false)
    ensures DeleteChar(TextKeeping(ps, {}), ')') == Unwrap(ps)
  {
    if ps != [] {
      ClosedText(ps[1..]);
      PieceClosed(ps[0]);
      DeleteCharAppend(PieceText(ps[0], {}), TextKeeping(ps[1..], {}), ')');
    }
  }

  lemma RunToClose(arg: string, rest: string)
    requires ')' !in arg
    ensures RunWithoutClose(arg + [')'] + rest) == |arg|
  {
    var u := arg + [')'] + rest;
    assert u[|arg|] == ')';
    assert u[..|arg|] == arg;
  }

  /** Where a wrapper starts, the regular expression matches it whole. */
  lemma WrappedMatch(f: bool, arg: string, rest: string)
    requires arg != [] && ')' !in arg
    ensures MatchAt(Prefix(f) + arg + [')'] + rest) == Some((|Prefix(f)|, |arg|))
  {
    var pre := Prefix(f);
    var after := arg + [')'] + rest;
    var s := Prefix(f) + arg + [')'] + rest;
    assert s == pre + after;
    assert s[..|pre|] == pre;
    if !f {
      assert s[3] == 'i' != Float64Prefix[3];
      assert !IsPrefix(Float64Prefix, s) by {
        if |Float64Prefix| <= |s| {
          assert s[..|Float64Prefix|][3] == s[3];
        }
      }
    }
    assert s[|pre|..] == after;
    RunToClose(arg, rest);
  }

  /** The regular expression rewrites one piece and carries on after it. */
  lemma PieceRegex(p: Piece, rest: string)
    requires GoodPiece(p)
    ensures RegexStrip(PieceText(p, {true, false}) + rest) == PieceUnwrap(p) + RegexStrip(rest)
  {
    var s := PieceText(p, {true, false}) + rest;
    match p
    case Plain(c) =>
      assert s[0] == c;
      assert !IsPrefix(Float64Prefix, s) && !IsPrefix(Int64Prefix, s) by {
        assert Float64Prefix[0] == 'n' && Int64Prefix[0] == 'n';
        if |Int64Prefix| <= |s| {
          assert s[..|Int64Prefix|][0] == c;
        }
        if |Float64Prefix| <= |s| {
          assert s[..|Float64Prefix|][0] == c;
        }
      }
      assert s[1..] == rest;
    case Wrapped(f, arg) =>
      var pre := Prefix(f);
      assert s == pre + arg + [')'] + rest;
      WrappedMatch(f, arg, rest);
      assert s[|pre|..|pre| + |arg|] == arg;
      assert s[|pre| + |arg| + 1..] == rest;
  }

  lemma {:induction false} TextRegex(ps: seq<Piece>)
    requires GoodPieces(ps)
    ensures RegexStrip(Render(ps)) == Unwrap(ps)
  {
    if ps != [] {
      TextRegex(ps[1..]);
      PieceRegex(ps[0], Render(ps[1..]));
    }
  }

  /** Deleting both kinds of prefix leaves the text with bare arguments
      and their `)`, and the prefixes counted are one per wrapper. */
  lemma PrefixesGone(ps: seq<Piece>)
    requires GoodPieces(ps)
    ensures DeleteAll(DeleteAll(Render(ps), Float64Prefix), Int64Prefix) == TextKeeping(ps, {})
    ensures Count(Render(ps), Float64Prefix) + Count(Render(ps), Int64Prefix)
         == KindCount(ps, true) + KindCount(ps, false)
  {
    var all: set<bool> := {true, false};
    var ints: set<bool> := {false};
    TextDelete(ps, true, all);
    assert all - {true} == ints;
    TextDelete(ps, false, ints);
    assert ints - {false} == {};
    TextDelete(ps, false, all);
  }

  /** The bar cleaner removes one `)` per prefix found, and on these texts
      that is every `)`. */
  lemma CleanerStripText(ps: seq<Piece>)
    requires GoodPieces(ps)
    ensures CleanerStrip(Render(ps)) == Unwrap(ps)
  {
    var s := Render(ps);
    var closed := DeleteAll(DeleteAll(s, Float64Prefix), Int64Prefix);
    var n := Count(s, Float64Prefix) + Count(s, Int64Prefix);
    assert CleanerStrip(s) == DeleteLastN(closed, ')', n);
    PrefixesGone(ps);
    ClosedText(ps);
    DeleteLastNAll(closed, ')', n);
  }

  lemma TrappedStripText(ps: seq<Piece>)
    requires GoodPieces(ps)
    ensures TrappedStrip(Render(ps)) == Unwrap(ps)
  {
    PrefixesGone(ps);
    ClosedText(ps);
  }

  /** On a text of plain characters and wrapped numbers the three scripts'
      strips agree, and each gives back the text with every wrapper replaced
      by its argument. */
  lemma StripsAgree(ps: seq<Piece>)
    requires GoodPieces(ps)
    ensures CleanerStrip(Render(ps)) == Unwrap(ps)
    ensures TrappedStrip(Render(ps)) == Unwrap(ps)
    ensures RegexStrip(Render(ps)) == Unwrap(ps)
  {
    CleanerStripText(ps);
    TrappedStripText(ps);
    TextRegex(ps);
  }
}

=== FILE: range_bar_properties.dfy ===
/** What every output of the range-bar construction satisfies: each bar is
    internally consistent, every bar but the last spans exactly one range,
    the running delta carries over from bar to bar, gap bars continue the
    previous bar, and no traded size is lost or invented. */
module RangeBarProperties {
  import opened RangeBars

  // ---------------------------------------------------------------------
  // Properties of one bar

  /** The bar under construction: its extremes stay strictly inside one
      range of the open (otherwise it would have closed), and its volume
      and delta are exactly what its price levels hold. */
  predicate ValidBuilding(b: Building)
  {
    && b.open - RangeSize < b.low <= b.open <= b.high < b.open + RangeSize
    && b.deltaLow <= b.deltaOpen <= b.deltaHigh
    && b.deltaLow <= b.cum <= b.deltaHigh
    && LevelsConsistent(b.levels)
    && b.volume == SumVolume(b.levels)
    && b.cum - b.deltaOpen == SumDelta(b.levels)
  }

  /** An emitted bar: open and close inside [low, high], which never reaches
      beyond one range from the open, and on the side opposite to the bar's
      direction stays strictly inside it (every tick before the closing one
      was strictly inside the band); delta extremes bracket delta open and
      close; the direction is the sign of close minus open; and volume and
      delta change are the sums over the bar's price levels. */
  predicate WellFormedBar(r: RangeBar)
  {
    && r.low <= r.open <= r.high
    && r.low <= r.close <= r.high
    && r.open - RangeSize <= r.low && r.high <= r.open + RangeSize
    && (r.direction >= 0 ==> r.open - RangeSize < r.low)
    && (r.direction <= 0 ==> r.high < r.open + RangeSize)
    && r.deltaLow <= r.deltaOpen <= r.deltaHigh
    && r.deltaLow <= r.deltaClose <= r.deltaHigh
    && r.direction == Direction(r.open, r.close)
    && LevelsConsistent(r.priceStats)
    && r.volume == SumVolume(r.priceStats)
    && r.deltaClose - r.deltaOpen == SumDelta(r.priceStats)
  }

  /** A bar that closed by reaching its range: up or down, exactly one range
      from its open. */
  predicate FullRange(r: RangeBar)
  {
    && (r.direction == 1 || r.direction == -1)
    && r.close == r.open + r.direction as real * RangeSize
  }

  /** A gap bar: emitted with no price levels and no volume. */
  predicate IsGap(r: RangeBar)
  {
    r.priceStats == []
  }

  // ---------------------------------------------------------------------
  // Properties of a sequence of bars

  predicate AllWellFormed(bars: seq<RangeBar>)
  {
    forall k :: 0 <= k < |bars| ==> WellFormedBar(bars[k])
  }

  predicate AllFullButLast(bars: seq<RangeBar>)
  {
    forall k :: 0 <= k < |bars| - 1 ==> FullRange(bars[k])
  }

  /** Each bar's delta opens where the previous one closed. */
  predicate DeltaChained(bars: seq<RangeBar>)
  {
    forall k :: 0 < k < |bars| ==> bars[k].deltaOpen == bars[k - 1].deltaClose
  }

  /** A gap bar is never first; it opens at the previous bar's close, at the
      previous bar's close time, with no volume, no delta change, and the
      previous bar's direction. */
  predicate GapsFollow(bars: seq<RangeBar>)
  {
    forall k :: 0 <= k < |bars| && IsGap(bars[k]) ==>
      && 0 < k
      && bars[k].open == bars[k - 1].close
      && bars[k].openTime == bars[k].closeTime == bars[k - 1].closeTime
      && bars[k].volume == 0
      && bars[k].deltaOpen == bars[k].deltaClose
      && bars[k].direction == bars[k - 1].direction
  }

  function BarVolume(bars: seq<RangeBar>): int
  {
    if bars == [] then 0 else bars[0].volume + BarVolume(bars[1..])
  }

  /** Total size of ticks `lo` up to, not including, `hi`. */
  function TickVolume(ticks: seq<Tick>, lo: nat, hi: nat): int
    requires lo <= hi <= |ticks|
    decreases hi - lo
  {
    if lo == hi then 0 else ticks[lo].volume + TickVolume(ticks, lo + 1, hi)
  }

  /** Total signed size (delta) of ticks `lo` up to, not including, `hi`. */
  function TickDelta(ticks: seq<Tick>, lo: nat, hi: nat): int
    requires lo <= hi <= |ticks|
    decreases hi - lo
  {
    if lo == hi then 0 else SignedVolume(ticks[lo]) + TickDelta(ticks, lo + 1, hi)
  }

  function Last(bars: seq<RangeBar>): RangeBar
    requires bars != []
  {
    bars[|bars| - 1]
  }

  // ---------------------------------------------------------------------
  // One tick, one close

  /** Absorbing a tick keeps the bar's books: levels consistent, volume and
      delta equal to the level sums, the delta extremes bracketing open and
      running delta, and at least one level. */
  lemma AbsorbBooks(b: Building, t: Tick)
    requires ValidBuilding(b)
    ensures var b' := Absorb(b, t);
            && b'.levels != []
            && LevelsConsistent(b'.levels)
            && b'.volume == SumVolume(b'.levels)
            && b'.cum - b'.deltaOpen == SumDelta(b'.levels)
            && b'.deltaLow <= b'.deltaOpen <= b'.deltaHigh
            && b'.deltaLow <= b'.cum <= b'.deltaHigh
            && b'.cum == b.cum + SignedVolume(t)
            && b'.volume == b.volume + t.volume
            && b'.low <= t.last <= b'.high
  {
    RecordTickConsistent(b.levels, t);
    RecordTickSums(b.levels, t);
  }

  /** A tick strictly inside the range leaves a valid bar under construction. */
  lemma AbsorbInside(b: Building, t: Tick)
    requires ValidBuilding(b)
    requires b.open - RangeSize < t.last < b.open + RangeSize
    ensures ValidBuilding(Absorb(b, t))
  {
    AbsorbBooks(b, t);
  }

  /** The bar emitted on an up close is well formed and spans one range up. */
  lemma UpBarWellFormed(b: Building, t: Tick, closeTime: int)
    requires ValidBuilding(b)
    requires t.last >= b.open + RangeSize
    ensures var r := UpBar(Absorb(b, t), closeTime);
            WellFormedBar(r) && FullRange(r) && r.direction == 1 && !IsGap(r)
            && r.open - RangeSize < r.low
  {
    AbsorbBooks(b, t);
  }

  /** The bar emitted on a down close is well formed and spans one range down. */
  lemma DownBarWellFormed(b: Building, t: Tick, closeTime: int)
    requires ValidBuilding(b)
    requires t.last <= b.open - RangeSize
    ensures var r := DownBar(Absorb(b, t), closeTime);
            WellFormedBar(r) && FullRange(r) && r.direction == -1 && !IsGap(r)
            && r.high < r.open + RangeSize
  {
    AbsorbBooks(b, t);
  }

  /** The bar flushed at the end of the data is well formed once it has
      absorbed the last tick, and both its extremes stay strictly inside
      one range of its open. */
  lemma FinalBarWellFormed(b: Building, last: Tick)
    requires ValidBuilding(b)
    requires b.levels != [] && b.low <= last.last <= b.high
    ensures WellFormedBar(FinalBar(b, last)) && !IsGap(FinalBar(b, last))
    ensures var r := FinalBar(b, last);
            r.open - RangeSize < r.low && r.high < r.open + RangeSize
  {
  }

  // ---------------------------------------------------------------------
  // Gap bars

  /** `g` is a run of gap bars of direction `dir` at time `time` and running
      delta `delta`, the first opening at `start` and each next one at the
      previous close. */
  predicate GapRun(g: seq<RangeBar>, start: real, dir: int, time: int, delta: int)
  {
    && (forall k :: 0 <= k < |g| ==> GapBar(g[k], dir, time, delta))
    && (|g| > 0 ==> g[0].open == start)
    && (forall k :: 0 < k < |g| ==> g[k].open == g[k - 1].close)
  }

  /** One gap bar of direction `dir` at time `time`, every delta field equal
      to the running delta `delta`. */
  predicate GapBar(b: RangeBar, dir: int, time: int, delta: int)
  {
    && WellFormedBar(b) && FullRange(b) && IsGap(b)
    && b.direction == dir
    && b.openTime == b.closeTime == time
    && b.volume == 0
    && b.deltaOpen == b.deltaClose == delta
    && b.deltaHigh == b.deltaLow == delta
  }

  /** The facts `GapRun` holds about its bar `i`. */
  lemma GapRunAt(g: seq<RangeBar>, start: real, dir: int, time: int, delta: int, i: nat)
    requires GapRun(g, start, dir, time, delta) && i < |g|
    ensures WellFormedBar(g[i]) && FullRange(g[i]) && IsGap(g[i])
    ensures g[i].direction == dir && g[i].openTime == g[i].closeTime == time
    ensures g[i].volume == 0 && g[i].deltaOpen == g[i].deltaClose == delta
    ensures g[i].open == if i == 0 then start else g[i - 1].close
  {
  }

  /** Where a run of gap bars leaves the price: its last close, or `start`
      for an empty run. */
  function RunEnd(g: seq<RangeBar>, start: real): real
  {
    if g == [] then start else Last(g).close
  }

  /** Up gap bars: a run of direction 1 that stops at the first close
      within one range below the tick's price. */
  lemma {:induction false} UpGapBarsRun(close: real, price: real, time: int, delta: int)
    requires close <= price
    ensures var g := UpGapBars(close, price, time, delta);
            && GapRun(g, close, 1, time, delta)
            && RunEnd(g, close) <= price < RunEnd(g, close) + RangeSize
    decreases (price - close).Floor
  {
    var g := UpGapBars(close, price, time, delta);
    if price >= close + RangeSize {
      var next := close + RangeSize;
      UpGapBarsRun(next, price, time, delta);
      var rest := UpGapBars(next, price, time, delta);
      assert g == [g[0]] + rest;
      forall k | 0 < k < |g|
        ensures g[k].open == g[k - 1].close
      {
        if k == 1 {
        } else {
          assert g[k] == rest[k - 1] && g[k - 1] == rest[k - 2];
        }
      }
      if rest != [] {
        assert Last(g) == Last(rest);
      }
    }
  }

  /** Down gap bars: a run of direction -1 that stops at the first close
      within one range above the tick's price. */
  lemma {:induction false} DownGapBarsRun(close: real, price: real, time: int, delta: int)
    requires price <= close
    ensures var g := DownGapBars(close, price, time, delta);
            && GapRun(g, close, -1, time, delta)
            && RunEnd(g, close) - RangeSize < price <= RunEnd(g, close)
    decreases (close - price).Floor
  {
    var g := DownGapBars(close, price, time, delta);
    if price <= close - RangeSize {
      var next := close - RangeSize;
      DownGapBarsRun(next, price, time, delta);
      var rest := DownGapBars(next, price, time, delta);
      assert g == [g[0]] + rest;
      forall k | 0 < k < |g|
        ensures g[k].open == g[k - 1].close
      {
        if k == 1 {
        } else {
          assert g[k] == rest[k - 1] && g[k - 1] == rest[k - 2];
        }
      }
      if rest != [] {
        assert Last(g) == Last(rest);
      }
    }
  }

  // ---------------------------------------------------------------------
  // Sums and concatenation

  lemma {:induction false} BarVolumeAppend(a: seq<RangeBar>, b: seq<RangeBar>)
    ensures BarVolume(a + b) == BarVolume(a) + BarVolume(b)
  {
    if a == [] {
      assert a + b == b;
    } else {
      assert (a + b)[0] == a[0];
      assert (a + b)[1..] == a[1..] + b;
      BarVolumeAppend(a[1..], b);
    }
  }

  lemma {:induction false} GapRunVolume(g: seq<RangeBar>, start: real, dir: int, time: int, delta: int)
    requires GapRun(g, start, dir, time, delta)
    ensures BarVolume(g) == 0
  {
    if g != [] {
      assert GapRun(g[1..], g[0].close, dir, time, delta);
      GapRunVolume(g[1..], g[0].close, dir, time, delta);
    }
  }

  lemma {:induction false} TickVolumeSplit(ticks: seq<Tick>, lo: nat, mid: nat, hi: nat)
    requires lo <= mid <= hi <= |ticks|
    ensures TickVolume(ticks, lo, hi) == TickVolume(ticks, lo, mid) + TickVolume(ticks, mid, hi)
    decreases mid - lo
  {
    if lo < mid {
      TickVolumeSplit(ticks, lo + 1, mid, hi);
    }
  }

  lemma {:induction false} TickDeltaSplit(ticks: seq<Tick>, lo: nat, mid: nat, hi: nat)
    requires lo <= mid <= hi <= |ticks|
    ensures TickDelta(ticks, lo, hi) == TickDelta(ticks, lo, mid) + TickDelta(ticks, mid, hi)
    decreases mid - lo
  {
    if lo < mid {
      TickDeltaSplit(ticks, lo + 1, mid, hi);
    }
  }

  // ---------------------------------------------------------------------
  // One scan

  /** What a close emits: a non-gap full-range bar, then gap bars, all well
      formed, full range, chained in delta, each gap continuing its
      predecessor. */
  predicate ClosedRun(bars: seq<RangeBar>)
  {
    && bars != []
    && !IsGap(bars[0])
    && AllWellFormed(bars)
    && (forall k :: 0 <= k < |bars| ==> FullRange(bars[k]))
    && DeltaChained(bars)
    && GapsFollow(bars)
  }

  lemma CloseThenGaps(bar: RangeBar, g: seq<RangeBar>)
    requires WellFormedBar(bar) && FullRange(bar) && !IsGap(bar)
    requires GapRun(g, bar.close, bar.direction, bar.closeTime, bar.deltaClose)
    ensures ClosedRun([bar] + g)
    ensures Last([bar] + g).deltaClose == bar.deltaClose
    ensures Last([bar] + g).closeTime == bar.closeTime
  {
    var bars := [bar] + g;
    forall k | 0 <= k < |bars|
      ensures WellFormedBar(bars[k]) && FullRange(bars[k])
      ensures bars[k].deltaClose == bar.deltaClose && bars[k].closeTime == bar.closeTime
      ensures 0 < k ==> bars[k].deltaOpen == bars[k - 1].deltaClose
      ensures IsGap(bars[k]) ==> 0 < k && bars[k].open == bars[k - 1].close
                                 && bars[k].openTime == bars[k].closeTime == bars[k - 1].closeTime
                                 && bars[k].volume == 0 && bars[k].deltaOpen == bars[k].deltaClose
                                 && bars[k].direction == bars[k - 1].direction
    {
      if 0 < k {
        assert bars[k] == g[k - 1];
        GapRunAt(g, bar.close, bar.direction, bar.closeTime, bar.deltaClose, k - 1);
        if 1 < k {
          assert bars[k - 1] == g[k - 2];
        } else {
          assert bars[k - 1] == bar;
        }
      }
    }
  }

  /** What `ScanShape` promises about the outcome `o` of a scan that
      started with the bar `b`. */
  predicate ShapedOutcome(ticks: seq<Tick>, b: Building, o: Outcome)
  {
    && (o.Closed? ==>
          && o.at < |ticks|
          && ClosedRun(o.bars)
          && o.bars[0].openTime == b.openTime
          && o.bars[0].open == b.open
          && o.bars[0].deltaOpen == b.deltaOpen
          && Last(o.bars).deltaClose == o.cum
          && Last(o.bars).closeTime == ticks[o.at].time)
    && (o.Flushed? ==>
          && 0 < |ticks|
          && WellFormedBar(o.bar) && !IsGap(o.bar)
          && o.bar.openTime == b.openTime
          && o.bar.open == b.open
          && o.bar.deltaOpen == b.deltaOpen
          && o.bar.closeTime == ticks[|ticks| - 1].time
          && o.bar.close == ticks[|ticks| - 1].last)
  }

  /** Every outcome of a scan from a valid bar under construction: a close
      emits a `ClosedRun` whose first bar is the bar opened in `b` and whose
      last bar closes at the closing tick's time and delta; a flush emits
      one well-formed bar closing at the last tick's time and price. */
  lemma {:induction false} ScanShape(ticks: seq<Tick>, j: nat, b: Building)
    requires 0 < |ticks| && j <= |ticks|
    requires ValidBuilding(b)
    requires j == |ticks| ==> b.levels != [] && b.low <= ticks[j - 1].last <= b.high
    ensures ShapedOutcome(ticks, b, Scan(ticks, j, b))
    decreases |ticks| - j
  {
    if j == |ticks| {
      FinalBarWellFormed(b, ticks[j - 1]);
    } else {
      var t := ticks[j];
      var b' := Absorb(b, t);
      AbsorbBooks(b, t);
      if t.last >= b.open + RangeSize {
        ScanUp(ticks, j, b);
        var bar := UpBar(b', t.time);
        UpBarWellFormed(b, t, t.time);
        UpGapBarsRun(bar.close, t.last, t.time, b'.cum);
        CloseThenGaps(bar, UpGapBars(bar.close, t.last, t.time, b'.cum));
      } else if t.last <= b.open - RangeSize {
        ScanDown(ticks, j, b);
        var bar := DownBar(b', t.time);
        DownBarWellFormed(b, t, t.time);
        DownGapBarsRun(bar.close, t.last, t.time, b'.cum);
        CloseThenGaps(bar, DownGapBars(bar.close, t.last, t.time, b'.cum));
      } else {
        ScanInside(ticks, j, b);
        AbsorbInside(b, t);
        ScanShape(ticks, j + 1, b');
      }
    }
  }

  /** What `ScanTotals` promises about the outcome `o` of a scan from tick
      `j` that started with the bar `b`. */
  predicate TotaledOutcome(ticks: seq<Tick>, j: nat, b: Building, o: Outcome)
    requires j <= |ticks|
  {
    && (o.Closed? ==>
          && j <= o.at < |ticks|
          && o.cum == b.cum + TickDelta(ticks, j, o.at + 1)
          && BarVolume(o.bars) == b.volume + TickVolume(ticks, j, o.at + 1))
    && (o.Flushed? ==>
          && o.bar.deltaClose == b.cum + TickDelta(ticks, j, |ticks|)
          && o.bar.volume == b.volume + TickVolume(ticks, j, |ticks|))
  }

  /** A scan accounts for every tick it consumes: the volume of what it
      emits and the running delta it ends with are those of `b` plus the
      ticks from `j` through the closing tick (or through the end). */
  lemma {:induction false} ScanTotals(ticks: seq<Tick>, j: nat, b: Building)
    requires 0 < |ticks| && j <= |ticks|
    ensures TotaledOutcome(ticks, j, b, Scan(ticks, j, b))
    decreases |ticks| - j
  {
    if j < |ticks| {
      var t := ticks[j];
      var b' := Absorb(b, t);
      if t.last >= b.open + RangeSize {
        ScanUp(ticks, j, b);
        var bar := UpBar(b', t.time);
        var g := UpGapBars(bar.close, t.last, t.time, b'.cum);
        UpGapBarsRun(bar.close, t.last, t.time, b'.cum);
        GapRunVolume(g, bar.close, 1, t.time, b'.cum);
        BarVolumeAppend([bar], g);
      } else if t.last <= b.open - RangeSize {
        ScanDown(ticks, j, b);
        var bar := DownBar(b', t.time);
        var g := DownGapBars(bar.close, t.last, t.time, b'.cum);
        DownGapBarsRun(bar.close, t.last, t.time, b'.cum);
        GapRunVolume(g, bar.close, -1, t.time, b'.cum);
        BarVolumeAppend([bar], g);
      } else {
        ScanInside(ticks, j, b);
        ScanTotals(ticks, j + 1, b');
      }
    }
  }

  // ---------------------------------------------------------------------
  // The whole stream

  /** The bars a close emits followed by a well-behaved tail whose delta
      opens where the close left it form a well-behaved sequence. */
  lemma JoinRuns(a: seq<RangeBar>, b: seq<RangeBar>)
    requires ClosedRun(a)
    requires AllWellFormed(b) && AllFullButLast(b) && DeltaChained(b) && GapsFollow(b)
    requires b != [] ==> b[0].deltaOpen == Last(a).deltaClose
    ensures AllWellFormed(a + b) && AllFullButLast(a + b) && DeltaChained(a + b) && GapsFollow(a + b)
    ensures (a + b)[0] == a[0]
    ensures Last(a + b) == if b == [] then Last(a) else Last(b)
  {
    var ab := a + b;
    forall k | 0 <= k < |ab|
      ensures WellFormedBar(ab[k])
      ensures k < |ab| - 1 ==> FullRange(ab[k])
      ensures 0 < k ==> ab[k].deltaOpen == ab[k - 1].deltaClose
      ensures IsGap(ab[k]) ==> 0 < k && ab[k].open == ab[k - 1].close
                               && ab[k].openTime == ab[k].closeTime == ab[k - 1].closeTime
                               && ab[k].volume == 0 && ab[k].deltaOpen == ab[k].deltaClose
                               && ab[k].direction == ab[k - 1].direction
    {
      if k < |a| {
        assert ab[k] == a[k];
        if 0 < k {
          assert ab[k - 1] == a[k - 1];
        }
      } else {
        assert ab[k] == b[k - |a|];
        if k == |a| {
          assert ab[k - 1] == Last(a);
        } else {
          assert ab[k - 1] == b[k - 1 - |a|];
        }
      }
    }
  }

  /** A bar opened at a tick, before absorbing anything, is a valid bar
      under construction. */
  lemma OpenValid(t: Tick, cum: int)
    ensures ValidBuilding(Open(t, cum))
  {
  }

  /** Everything `BarsFromShape` promises about `bars`, the bars built from
      tick `i` on with running delta `cum`. */
  predicate WellShaped(ticks: seq<Tick>, i: nat, cum: int, bars: seq<RangeBar>)
    requires i <= |ticks|
  {
    && (bars == [] <==> i == |ticks|)
    && AllWellFormed(bars) && AllFullButLast(bars) && DeltaChained(bars) && GapsFollow(bars)
    && (bars != [] ==>
          && bars[0].openTime == ticks[i].time
          && bars[0].open == ticks[i].last
          && bars[0].deltaOpen == cum
          && Last(bars).closeTime == ticks[|ticks| - 1].time
          && (!FullRange(Last(bars)) ==> Last(bars).close == ticks[|ticks| - 1].last))
  }

  /** The inductive step of `BarsFromShape`, on the scan's outcome `o` and
      the bars `rest` built after a close, stated without the functions
      that compute them. */
  lemma ShapeStep(ticks: seq<Tick>, i: nat, cum: int, o: Outcome, rest: seq<RangeBar>, bars: seq<RangeBar>)
    requires i < |ticks|
    requires ShapedOutcome(ticks, Open(ticks[i], cum), o)
    requires o.Closed? ==> WellShaped(ticks, o.at + 1, o.cum, rest)
    requires bars == if o.Closed? then o.bars + rest else [o.bar]
    ensures WellShaped(ticks, i, cum, bars)
  {
    if o.Closed? {
      JoinRuns(o.bars, rest);
    }
  }

  /** The shape of all bars built from tick `i` on: empty exactly when no
      tick is left; every bar well formed; every bar but the last a full
      range; delta chained from bar to bar; every gap bar continuing its
      predecessor; the first bar opening at tick `i`'s time, price and
      running delta; the last bar closing at the last tick's time, and at
      its price unless that bar spans a full range. */
  lemma {:induction false} BarsFromShape(ticks: seq<Tick>, i: nat, cum: int)
    requires i <= |ticks|
    ensures WellShaped(ticks, i, cum, BarsFrom(ticks, i, cum))
    decreases |ticks| - i
  {
    if i < |ticks| {
      var b := Open(ticks[i], cum);
      var o := Scan(ticks, i, b);
      BarsFromStep(ticks, i, cum);
      OpenValid(ticks[i], cum);
      ScanShape(ticks, i, b);
      if o.Closed? {
        BarsFromShape(ticks, o.at + 1, o.cum);
        ShapeStep(ticks, i, cum, o, BarsFrom(ticks, o.at + 1, o.cum), BarsFrom(ticks, i, cum));
      } else {
        ShapeStep(ticks, i, cum, o, [], BarsFrom(ticks, i, cum));
      }
    }
  }

  /** The totals `BarsFromTotals` promises about `bars`. */
  predicate Accounted(ticks: seq<Tick>, i: nat, cum: int, bars: seq<RangeBar>)
    requires i <= |ticks|
  {
    && (bars == [] <==> i == |ticks|)
    && BarVolume(bars) == TickVolume(ticks, i, |ticks|)
    && (bars != [] ==> Last(bars).deltaClose == cum + TickDelta(ticks, i, |ticks|))
  }

  /** The inductive step of `BarsFromTotals`, stated without the functions
      that compute `o` and `rest`. */
  lemma TotalsStep(ticks: seq<Tick>, i: nat, cum: int, o: Outcome, rest: seq<RangeBar>, bars: seq<RangeBar>)
    requires i < |ticks|
    requires ShapedOutcome(ticks, Open(ticks[i], cum), o)
    requires TotaledOutcome(ticks, i, Open(ticks[i], cum), o)
    requires o.Closed? ==> Accounted(ticks, o.at + 1, o.cum, rest)
    requires bars == if o.Closed? then o.bars + rest else [o.bar]
    ensures Accounted(ticks, i, cum, bars)
  {
    if o.Closed? {
      BarVolumeAppend(o.bars, rest);
      TickVolumeSplit(ticks, i, o.at + 1, |ticks|);
      TickDeltaSplit(ticks, i, o.at + 1, |ticks|);
      if rest != [] {
        assert Last(o.bars + rest) == Last(rest);
      } else {
        assert o.bars + rest == o.bars;
      }
    } else {
      assert BarVolume([o.bar]) == o.bar.volume + BarVolume([]);
    }
  }

  /** No size is lost or invented: the bars built from tick `i` on carry
      exactly the volume of those ticks, and the last bar's closing delta is
      the running delta plus the delta of those ticks. */
  lemma {:induction false} BarsFromTotals(ticks: seq<Tick>, i: nat, cum: int)
    requires i <= |ticks|
    ensures Accounted(ticks, i, cum, BarsFrom(ticks, i, cum))
    decreases |ticks| - i
  {
    if i < |ticks| {
      var b := Open(ticks[i], cum);
      var o := Scan(ticks, i, b);
      BarsFromStep(ticks, i, cum);
      OpenValid(ticks[i], cum);
      ScanShape(ticks, i, b);
      ScanTotals(ticks, i, b);
      if o.Closed? {
        BarsFromTotals(ticks, o.at + 1, o.cum);
        TotalsStep(ticks, i, cum, o, BarsFrom(ticks, o.at + 1, o.cum), BarsFrom(ticks, i, cum));
      } else {
        TotalsStep(ticks, i, cum, o, [], BarsFrom(ticks, i, cum));
      }
    }
  }

  /** The script's output: for a non-empty stream, at least one bar, the
      first opening at the first tick with delta 0, the last closing at the
      last tick's time with the stream's total delta (and at the last
      tick's price unless it spans a full range), and the bars' volumes
      adding up to the stream's volume; with all the shape properties of
      `BarsFromShape`. */
  lemma RangeBarsOfStream(ticks: seq<Tick>)
    ensures var bars := BarsFrom(ticks, 0, 0);
            && (bars == [] <==> ticks == [])
            && AllWellFormed(bars) && AllFullButLast(bars) && DeltaChained(bars) && GapsFollow(bars)
            && BarVolume(bars) == TickVolume(ticks, 0, |ticks|)
            && (bars != [] ==>
                  && bars[0].openTime == ticks[0].time
                  && bars[0].open == ticks[0].last
                  && bars[0].deltaOpen == 0
                  && Last(bars).closeTime == ticks[|ticks| - 1].time
                  && (!FullRange(Last(bars)) ==> Last(bars).close == ticks[|ticks| - 1].last)
                  && Last(bars).deltaClose == TickDelta(ticks, 0, |ticks|))
  {
    BarsFromShape(ticks, 0, 0);
    BarsFromTotals(ticks, 0, 0);
  }

  // ---------------------------------------------------------------------
  // Two small streams, worked through

  /** Prices 10, 12, 14, all bought at the ask.  The second tick closes an
      up bar 10 to 12; the next bar opens at the third tick's own price 14
      (not at the previous close) and is flushed flat at the end of the
      data, with direction 0. */
  lemma ThreeTickStream()
    ensures var ticks := [Tick(1, 10.0, 9.75, 10.0, 1), Tick(2, 12.0, 11.75, 12.0, 2),
                          Tick(3, 14.0, 13.75, 14.0, 3)];
            var bars := BarsFrom(ticks, 0, 0);
            && |bars| == 2
            && bars[0].open == 10.0 && bars[0].close == 12.0 && bars[0].direction == 1
            && bars[0].volume == 3 && bars[0].deltaClose == 3
            && bars[1].open == 14.0 && bars[1].close == 14.0 && bars[1].direction == 0
            && bars[1].volume == 3 && bars[1].deltaOpen == 3 && bars[1].deltaClose == 6
  {
    var ticks := [Tick(1, 10.0, 9.75, 10.0, 1), Tick(2, 12.0, 11.75, 12.0, 2),
                  Tick(3, 14.0, 13.75, 14.0, 3)];
    var b0 := Open(ticks[0], 0);
    var b1 := Absorb(b0, ticks[0]);
    ScanInside(ticks, 0, b0);
    ScanUp(ticks, 1, b1);
    assert UpGapBars(12.0, 12.0, 2, 3) == [];
    var up := UpBar(Absorb(b1, ticks[1]), 2);
    assert Scan(ticks, 0, b0) == Closed([up], 1, 3);
    BarsFromStep(ticks, 0, 0);
    var c0 := Open(ticks[2], 3);
    var c1 := Absorb(c0, ticks[2]);
    ScanInside(ticks, 2, c0);
    assert Scan(ticks, 2, c0) == Flushed(FinalBar(c1, ticks[2]));
    BarsFromStep(ticks, 2, 3);
    assert BarsFrom(ticks, 0, 0) == [up] + [FinalBar(c1, ticks[2])];
  }

  /** Prices 10 then 15, both bought at the ask.  The second tick closes an
      up bar 10 to 12 and one gap bar 12 to 14 follows; the data then ends,
      so the last bar is a gap bar and the move from 14 to 15 appears in no
      bar. */
  lemma GapStream()
    ensures var ticks := [Tick(1, 10.0, 9.75, 10.0, 1), Tick(2, 15.0, 14.75, 15.0, 2)];
            var bars := BarsFrom(ticks, 0, 0);
            && |bars| == 2
            && bars[0].open == 10.0 && bars[0].close == 12.0 && bars[0].volume == 3
            && bars[1].open == 12.0 && bars[1].close == 14.0 && bars[1].volume == 0
            && bars[1].priceStats == [] && bars[1].deltaOpen == bars[1].deltaClose == 3
  {
    var ticks := [Tick(1, 10.0, 9.75, 10.0, 1), Tick(2, 15.0, 14.75, 15.0, 2)];
    var b0 := Open(ticks[0], 0);
    var b1 := Absorb(b0, ticks[0]);
    ScanInside(ticks, 0, b0);
    ScanUp(ticks, 1, b1);
    var gap := RangeBar(2, 2, 12.0, 14.0, 12.0, 14.0, 0, 3, 3, 3, 3, 1, []);
    assert UpGapBars(14.0, 15.0, 2, 3) == [];
    assert UpGapBars(12.0, 15.0, 2, 3) == [gap];
    var up := UpBar(Absorb(b1, ticks[1]), 2);
    assert Scan(ticks, 0, b0) == Closed([up, gap], 1, 3);
    BarsFromStep(ticks, 0, 0);
    assert BarsFrom(ticks, 0, 0) == [up, gap];
  }
}

=== FILE: range_bars.dfy ===
/** Tick-to-range-bar aggregation (scripts/estrai_rangebar.py).

    A stream of trade prints is cut into bars that close the moment price
    has moved a fixed range away from the bar's open.  Each bar carries
    per-price-level volume split into buyer- and seller-initiated size and
    the running cumulative delta, which spans the whole stream.

    `BuildRangeBars` is the script's loop; `BarsFrom` is the same
    construction stated as functions, and the lemmas below state what
    every output of the construction satisfies. */
module RangeBars {

  /** One trade print: time, last traded price, best bid and ask, size. */
  datatype Tick = Tick(time: int, last: real, bid: real, ask: real, volume: nat)

  /** The script's `range_size`: 8 ticks of 0.25, two full points of the ES future. */
  const RangeSize: real := 2.0

  /** Size traded at one price inside one bar. */
  datatype Level = Level(price: real, volume: nat, delta: int, bidVolume: nat, askVolume: nat)

  datatype RangeBar = RangeBar(
    openTime: int, closeTime: int,
    open: real, high: real, low: real, close: real,
    volume: nat,
    deltaOpen: int, deltaHigh: int, deltaLow: int, deltaClose: int,
    direction: int,
    priceStats: seq<Level>)

  /** The bar under construction: everything the script keeps in local
      variables between two ticks (the running delta is `cum`, which the
      script also copies into `delta_close` after every tick). */
  datatype Building = Building(
    openTime: int, open: real, high: real, low: real, volume: nat,
    deltaOpen: int, deltaHigh: int, deltaLow: int, cum: int,
    levels: seq<Level>)

  /** Result of scanning ticks for one bar: either a close, with the bars it
      emits (the bar itself and any gap bars), the index of the closing tick
      and the running delta after it, or the end of the data. */
  datatype Outcome = Closed(bars: seq<RangeBar>, at: nat, cum: int) | Flushed(bar: RangeBar)

  function MaxReal(a: real, b: real): real { if a >= b then a else b }
  function MinReal(a: real, b: real): real { if a <= b then a else b }
  function MaxInt(a: int, b: int): int { if a >= b then a else b }
  function MinInt(a: int, b: int): int { if a <= b then a else b }

  // ---------------------------------------------------------------------
  // Tick classification and per-level bookkeeping

  /** A print at or above the ask is buyer-initiated; otherwise one at or
      below the bid is seller-initiated; anything in between is neither. */
  predicate IsBuy(t: Tick) { t.last >= t.ask }
  predicate IsSell(t: Tick) { !IsBuy(t) && t.last <= t.bid }

  /** The tick's contribution to delta. */
  function SignedVolume(t: Tick): (d: int)
    ensures d == (if IsBuy(t) then t.volume else 0) - (if IsSell(t) then t.volume else 0)
    ensures -(t.volume as int) <= d <= t.volume
  {
    if t.last >= t.ask then t.volume
    else if t.last <= t.bid then -(t.volume as int)
    else 0
  }

  /** Delta is buyer size minus seller size, and the two sides never cover
      more than the traded size. */
  predicate LevelConsistent(l: Level)
  {
    l.delta == l.askVolume - l.bidVolume && l.volume >= l.askVolume + l.bidVolume
  }

  /** No two levels share a price, as in a dictionary keyed by price. */
  predicate DistinctPrices(ls: seq<Level>)
  {
    ls == [] || (ls[0].price !in Prices(ls[1..]) && DistinctPrices(ls[1..]))
  }

  predicate LevelsConsistent(ls: seq<Level>)
  {
    (forall k :: 0 <= k < |ls| ==> LevelConsistent(ls[k])) && DistinctPrices(ls)
  }

  function SumVolume(ls: seq<Level>): int
  {
    if ls == [] then 0 else ls[0].volume + SumVolume(ls[1..])
  }

  function SumDelta(ls: seq<Level>): int
  {
    if ls == [] then 0 else ls[0].delta + SumDelta(ls[1..])
  }

  function Prices(ls: seq<Level>): set<real>
  {
    if ls == [] then {} else {ls[0].price} + Prices(ls[1..])
  }

  /** Adds one tick to the level at its price. */
  function Bump(l: Level, t: Tick): Level
  {
    Level(l.price, l.volume + t.volume, l.delta + SignedVolume(t),
          l.bidVolume + (if IsSell(t) then t.volume else 0),
          l.askVolume + (if IsBuy(t) then t.volume else 0))
  }

  /** The script's `price_stats[price]` update: creates the level at the
      tick's price on first visit (keeping insertion order), then adds the
      tick's size, delta and side. */
  function RecordTick(ls: seq<Level>, t: Tick): (r: seq<Level>)
    ensures r != []
  {
    if ls == [] then
      var r := [Bump(Level(t.last, 0, 0, 0, 0), t)];
      assert r[1..] == [];
      r
    else if ls[0].price == t.last then
      var r := [Bump(ls[0], t)] + ls[1..];
      assert r[1..] == ls[1..];
      r
    else
      var rest := RecordTick(ls[1..], t);
      var r := [ls[0]] + rest;
      assert r[1..] == rest;
      r
  }

  /** The level the dictionary holds for price `p`, or the all-zero level
      the script creates on a price's first visit. */
  function LevelAt(ls: seq<Level>, p: real): (l: Level)
    ensures l.price == p
    ensures p !in Prices(ls) ==> l == Level(p, 0, 0, 0, 0)
  {
    if ls == [] then Level(p, 0, 0, 0, 0)
    else if ls[0].price == p then ls[0]
    else LevelAt(ls[1..], p)
  }

  /** Recording a tick is a dictionary update at the tick's price and
      nowhere else. */
  lemma {:induction false} RecordTickLevels(ls: seq<Level>, t: Tick, p: real)
    ensures LevelAt(RecordTick(ls, t), p)
            == if p == t.last then Bump(LevelAt(ls, p), t) else LevelAt(ls, p)
  {
    if ls != [] && ls[0].price != t.last {
      RecordTickLevels(ls[1..], t, p);
    }
  }

  /** The keys after recording are the keys before plus the tick's price. */
  lemma {:induction false} RecordTickPrices(ls: seq<Level>, t: Tick)
    ensures Prices(RecordTick(ls, t)) == Prices(ls) + {t.last}
  {
    if ls != [] && ls[0].price != t.last {
      RecordTickPrices(ls[1..], t);
    }
  }

  /** Recording adds exactly the tick's size and signed size to the totals. */
  lemma {:induction false} RecordTickSums(ls: seq<Level>, t: Tick)
    ensures SumVolume(RecordTick(ls, t)) == SumVolume(ls) + t.volume
    ensures SumDelta(RecordTick(ls, t)) == SumDelta(ls) + SignedVolume(t)
  {
    if ls != [] && ls[0].price != t.last {
      RecordTickSums(ls[1..], t);
    }
  }

  /** Recording keeps every level consistent and the prices distinct. */
  lemma {:induction false} RecordTickConsistent(ls: seq<Level>, t: Tick)
    requires LevelsConsistent(ls)
    ensures LevelsConsistent(RecordTick(ls, t))
  {
    if ls != [] && ls[0].price != t.last {
      RecordTickConsistent(ls[1..], t);
      RecordTickPrices(ls[1..], t);
    }
  }

  // ---------------------------------------------------------------------
  // One bar: opening, absorbing a tick, closing

  /** A bar opens at a tick's own price, with the running delta as it stands
      before that tick. */
  function Open(t: Tick, cum: int): Building
  {
    Building(t.time, t.last, t.last, t.last, 0, cum, cum, cum, cum, [])
  }

  /** One pass of the inner loop body, before the close test. */
  function Absorb(b: Building, t: Tick): Building
  {
    var c := b.cum + SignedVolume(t);
    Building(b.openTime, b.open, MaxReal(b.high, t.last), MinReal(b.low, t.last),
             b.volume + t.volume, b.deltaOpen, MaxInt(b.deltaHigh, c), MinInt(b.deltaLow, c), c,
             RecordTick(b.levels, t))
  }

  /** Closing on the upside: close and high are exactly one range above the open. */
  function UpBar(b: Building, closeTime: int): RangeBar
  {
    var close := b.open + RangeSize;
    RangeBar(b.openTime, closeTime, b.open, close, b.low, close, b.volume,
             b.deltaOpen, b.deltaHigh, b.deltaLow, b.cum, 1, b.levels)
  }

  /** Closing on the downside: close and low are exactly one range below the open. */
  function DownBar(b: Building, closeTime: int): RangeBar
  {
    var close := b.open - RangeSize;
    RangeBar(b.openTime, closeTime, b.open, b.high, close, close, b.volume,
             b.deltaOpen, b.deltaHigh, b.deltaLow, b.cum, -1, b.levels)
  }

  function Direction(open: real, close: real): int
  {
    if close > open then 1 else if close < open then -1 else 0
  }

  /** End of data: the open bar is emitted as it stands, closing at the last
      tick's price and time. */
  function FinalBar(b: Building, last: Tick): RangeBar
  {
    RangeBar(b.openTime, last.time, b.open, b.high, b.low, last.last, b.volume,
             b.deltaOpen, b.deltaHigh, b.deltaLow, b.cum, Direction(b.open, last.last), b.levels)
  }

  /** Zero-volume gap bars stacked above `close` while the closing tick's
      price is still a full range beyond the last close. */
  function UpGapBars(close: real, price: real, time: int, delta: int): seq<RangeBar>
    decreases (price - close).Floor
  {
    if price >= close + RangeSize then
      [RangeBar(time, time, close, close + RangeSize, close, close + RangeSize, 0,
                delta, delta, delta, delta, 1, [])]
      + UpGapBars(close + RangeSize, price, time, delta)
    else []
  }

  function DownGapBars(close: real, price: real, time: int, delta: int): seq<RangeBar>
    decreases (close - price).Floor
  {
    if price <= close - RangeSize then
      [RangeBar(time, time, close, close, close - RangeSize, close - RangeSize, 0,
                delta, delta, delta, delta, -1, [])]
      + DownGapBars(close - RangeSize, price, time, delta)
    else []
  }

  /** The inner loop of the script from tick `j` on, with `b` the bar so far. */
  function Scan(ticks: seq<Tick>, j: nat, b: Building): (r: Outcome)
    requires 0 < |ticks| && j <= |ticks|
    ensures r.Closed? ==> j <= r.at < |ticks|
    decreases |ticks| - j
  {
    if j == |ticks| then Flushed(FinalBar(b, ticks[j - 1]))
    else
      var t := ticks[j];
      var b' := Absorb(b, t);
      if t.last >= b.open + RangeSize then
        var bar := UpBar(b', t.time);
        Closed([bar] + UpGapBars(bar.close, t.last, t.time, b'.cum), j, b'.cum)
      else if t.last <= b.open - RangeSize then
        var bar := DownBar(b', t.time);
        Closed([bar] + DownGapBars(bar.close, t.last, t.time, b'.cum), j, b'.cum)
      else Scan(ticks, j + 1, b')
  }

  /** All bars built from tick `i` on, with running delta `cum` before tick
      `i`.  After a close at tick `at` the next bar opens at tick `at + 1`. */
  function BarsFrom(ticks: seq<Tick>, i: nat, cum: int): seq<RangeBar>
    requires i <= |ticks|
    decreases |ticks| - i
  {
    if i == |ticks| then []
    else
      match Scan(ticks, i, Open(ticks[i], cum))
      case Closed(bars, at, c) => bars + BarsFrom(ticks, at + 1, c)
      case Flushed(bar) => [bar]
  }

  lemma ConcatAssoc(a: seq<RangeBar>, b: seq<RangeBar>, c: seq<RangeBar>)
    ensures a + (b + c) == (a + b) + c
  {
  }

  /** `Scan` at a tick that reaches one range above the open: an up close. */
  lemma ScanUp(ticks: seq<Tick>, j: nat, b: Building)
    requires j < |ticks| && ticks[j].last >= b.open + RangeSize
    ensures var t := ticks[j];
            var b' := Absorb(b, t);
            Scan(ticks, j, b)
            == Closed([UpBar(b', t.time)] + UpGapBars(b.open + RangeSize, t.last, t.time, b'.cum), j, b'.cum)
  {
  }

  /** `Scan` at a tick that reaches one range below the open: a down close. */
  lemma ScanDown(ticks: seq<Tick>, j: nat, b: Building)
    requires j < |ticks| && ticks[j].last <= b.open - RangeSize
    ensures var t := ticks[j];
            var b' := Absorb(b, t);
            Scan(ticks, j, b)
            == Closed([DownBar(b', t.time)] + DownGapBars(b.open - RangeSize, t.last, t.time, b'.cum), j, b'.cum)
  {
  }

  /** `Scan` at a tick that stays inside the range: the scan goes on. */
  lemma ScanInside(ticks: seq<Tick>, j: nat, b: Building)
    requires j < |ticks| && b.open - RangeSize < ticks[j].last < b.open + RangeSize
    ensures Scan(ticks, j, b) == Scan(ticks, j + 1, Absorb(b, ticks[j]))
  {
  }

  /** One step of `BarsFrom`, spelled out on the outcome of `Scan`. */
  lemma BarsFromStep(ticks: seq<Tick>, i: nat, cum: int)
    requires i < |ticks|
    ensures var o := Scan(ticks, i, Open(ticks[i], cum));
            && (o.Closed? ==> BarsFrom(ticks, i, cum) == o.bars + BarsFrom(ticks, o.at + 1, o.cum))
            && (o.Flushed? ==> BarsFrom(ticks, i, cum) == [o.bar])
  {
  }

  // ---------------------------------------------------------------------
  // The script's loop

  /** The gap loop after an up close: while the closing tick's price is a
      full range beyond the last close, append a zero-volume bar one range
      higher, opening and closing at the closing tick's time. */
  method AppendUpGapBars(bars: seq<RangeBar>, lastClose: real, price: real, closeTime: int, deltaClose: int)
    returns (out: seq<RangeBar>)
    ensures out == bars + UpGapBars(lastClose, price, closeTime, deltaClose)
  {
    out := bars;
    var close := lastClose;
    while price >= close + RangeSize
      invariant out + UpGapBars(close, price, closeTime, deltaClose)
             == bars + UpGapBars(lastClose, price, closeTime, deltaClose)
      decreases (price - close).Floor
    {
      ghost var previous := out;
      var openPrice := close;
      close := openPrice + RangeSize;
      var gapBar := RangeBar(closeTime, closeTime, openPrice, close, openPrice, close, 0,
                             deltaClose, deltaClose, deltaClose, deltaClose, 1, []);
      assert UpGapBars(openPrice, price, closeTime, deltaClose)
          == [gapBar] + UpGapBars(close, price, closeTime, deltaClose);
      out := out + [gapBar];
      assert out + UpGapBars(close, price, closeTime, deltaClose)
          == previous + UpGapBars(openPrice, price, closeTime, deltaClose);
    }
  }

  /** The gap loop after a down close, one range lower each time. */
  method AppendDownGapBars(bars: seq<RangeBar>, lastClose: real, price: real, closeTime: int, deltaClose: int)
    returns (out: seq<RangeBar>)
    ensures out == bars + DownGapBars(lastClose, price, closeTime, deltaClose)
  {
    out := bars;
    var close := lastClose;
    while price <= close - RangeSize
      invariant out + DownGapBars(close, price, closeTime, deltaClose)
             == bars + DownGapBars(lastClose, price, closeTime, deltaClose)
      decreases (close - price).Floor
    {
      ghost var previous := out;
      var openPrice := close;
      close := openPrice - RangeSize;
      var gapBar := RangeBar(closeTime, closeTime, openPrice, openPrice, close, close, 0,
                             deltaClose, deltaClose, deltaClose, deltaClose, -1, []);
      assert DownGapBars(openPrice, price, closeTime, deltaClose)
          == [gapBar] + DownGapBars(close, price, closeTime, deltaClose);
      out := out + [gapBar];
      assert out + DownGapBars(close, price, closeTime, deltaClose)
          == previous + DownGapBars(openPrice, price, closeTime, deltaClose);
    }
  }

  /** One pass of the script's inner loop: the bar that opens at tick `i`
      with running delta `cum`, fed tick by tick until it closes (`closed`,
      at tick `j`, followed by its gap bars) or the data runs out (the
      unfinished bar alone).  Where the script leaves the loop with `break`
      on a close, this method returns; falling out of the loop is the
      script's `else` branch, the end-of-data flush. */
  method ScanBar(ticks: seq<Tick>, i: nat, cum: int)
    returns (bars: seq<RangeBar>, j: nat, cumulativeDelta: int, closed: bool)
    requires i < |ticks|
    ensures closed == Scan(ticks, i, Open(ticks[i], cum)).Closed?
    ensures closed ==> Scan(ticks, i, Open(ticks[i], cum)) == Closed(bars, j, cumulativeDelta)
    ensures !closed ==> |bars| == 1 && Scan(ticks, i, Open(ticks[i], cum)) == Flushed(bars[0])
  {
    var openPrice := ticks[i].last;
    var openTime := ticks[i].time;
    var high, low := openPrice, openPrice;
    var volume: nat := 0;
    cumulativeDelta := cum;
    var deltaOpen, deltaHigh, deltaLow, deltaClose := cum, cum, cum, cum;
    var priceStats: seq<Level> := [];
    j := i;
    var price := openPrice;
    ghost var target := Scan(ticks, i, Open(ticks[i], cum));
    while j < |ticks|
      invariant i <= j <= |ticks|
      invariant deltaClose == cumulativeDelta
      invariant j > i ==> price == ticks[j - 1].last
      invariant Scan(ticks, j, Building(openTime, openPrice, high, low, volume, deltaOpen,
                                        deltaHigh, deltaLow, cumulativeDelta, priceStats)) == target
    {
      ghost var b := Building(openTime, openPrice, high, low, volume, deltaOpen,
                              deltaHigh, deltaLow, cumulativeDelta, priceStats);
      price := ticks[j].last;
      var thisVol := ticks[j].volume;

      // tick classification against the quote
      var deltaTick := 0;
      if ticks[j].last >= ticks[j].ask {
        deltaTick := thisVol;
      } else if ticks[j].last <= ticks[j].bid {
        deltaTick := -(thisVol as int);
      }
      cumulativeDelta := cumulativeDelta + deltaTick;
      volume := volume + thisVol;
      priceStats := RecordTick(priceStats, ticks[j]);
      deltaHigh := MaxInt(deltaHigh, cumulativeDelta);
      deltaLow := MinInt(deltaLow, cumulativeDelta);
      deltaClose := cumulativeDelta;
      high := MaxReal(high, price);
      low := MinReal(low, price);
      ghost var absorbed := Absorb(b, ticks[j]);
      assert absorbed == Building(openTime, openPrice, high, low, volume, deltaOpen,
                                  deltaHigh, deltaLow, cumulativeDelta, priceStats);

      if price >= openPrice + RangeSize {
        var close := openPrice + RangeSize;
        var closeTime := ticks[j].time;
        var bar := RangeBar(openTime, closeTime, openPrice, close, low, close, volume,
                            deltaOpen, deltaHigh, deltaLow, deltaClose, 1, priceStats);
        assert bar == UpBar(absorbed, closeTime);
        ScanUp(ticks, j, b);
        bars := AppendUpGapBars([bar], close, price, closeTime, deltaClose);
        closed := true;
        return;
      } else if price <= openPrice - RangeSize {
        var close := openPrice - RangeSize;
        var closeTime := ticks[j].time;
        var bar := RangeBar(openTime, closeTime, openPrice, high, close, close, volume,
                            deltaOpen, deltaHigh, deltaLow, deltaClose, -1, priceStats);
        assert bar == DownBar(absorbed, closeTime);
        ScanDown(ticks, j, b);
        bars := AppendDownGapBars([bar], close, price, closeTime, deltaClose);
        closed := true;
        return;
      }
      ScanInside(ticks, j, b);
      j := j + 1;
    }
    // end of data: flush the unfinished bar
    var close := price;
    var closeTime := ticks[j - 1].time;
    var direction := if close > openPrice then 1 else if close < openPrice then -1 else 0;
    bars := [RangeBar(openTime, closeTime, openPrice, high, low, close, volume,
                      deltaOpen, deltaHigh, deltaLow, deltaClose, direction, priceStats)];
    closed := false;
  }

  /** The range-bar construction loop of the script, over the whole tick
      stream, with the running delta starting at 0. */
  method BuildRangeBars(ticks: seq<Tick>) returns (rangeBars: seq<RangeBar>)
    ensures rangeBars == BarsFrom(ticks, 0, 0)
  {
    rangeBars := [];
    var i := 0;
    var cumulativeDelta := 0;
    while i < |ticks|
      invariant i <= |ticks|
      invariant rangeBars + BarsFrom(ticks, i, cumulativeDelta) == BarsFrom(ticks, 0, 0)
      decreases |ticks| - i
    {
      var bars, j, cumAfter, closed := ScanBar(ticks, i, cumulativeDelta);
      BarsFromStep(ticks, i, cumulativeDelta);
      if !closed {
        rangeBars := rangeBars + bars;
        break;
      }
      ConcatAssoc(rangeBars, bars, BarsFrom(ticks, j + 1, cumAfter));
      rangeBars := rangeBars + bars;
      i, cumulativeDelta := j + 1, cumAfter;
    }
  }
}

=== FILE: sorting.dfy ===
/** Stable insertion sort by a comparator, used wherever the scripts call
    Python's `sorted` or a pandas `sort_values`.  Under a total preorder a
    stable sort's output is determined by the comparator alone, so there it
    stands for Python's `sorted` (a stable timsort) exactly.  pandas'
    single-key `sort_values` is an unstable quicksort; where the model uses
    this sort for it, only what both sorts promise is stated (see
    `GridSearch.SaveDetailedResults`). */
module Sorting {

  /** `le` is a total preorder: any two elements compare, and comparisons chain. */
  ghost predicate TotalPreorder<T(!new)>(le: (T, T) -> bool)
  {
    && (forall a, b :: le(a, b) || le(b, a))
    && (forall a, b, c :: le(a, b) && le(b, c) ==> le(a, c))
  }

  predicate SortedBy<T>(s: seq<T>, le: (T, T) -> bool)
  {
    forall i, j :: 0 <= i < j < |s| ==> le(s[i], s[j])
  }

  /** Puts `x` before the first element it is `le` to; so an element that
      ties with `x` and is already in `s` stays after `x`. */
  function Insert<T>(x: T, s: seq<T>, le: (T, T) -> bool): (r: seq<T>)
    ensures |r| == |s| + 1
    ensures multiset(r) == multiset(s) + multiset{x}
  {
    if s == [] || le(x, s[0]) then [x] + s
    else
      assert s == [s[0]] + s[1..];
      [s[0]] + Insert(x, s[1..], le)
  }

  function SortBy<T>(s: seq<T>, le: (T, T) -> bool): (r: seq<T>)
    ensures |r| == |s|
    ensures multiset(r) == multiset(s)
  {
    if s == [] then []
    else
      assert s == [s[0]] + s[1..];
      Insert(s[0], SortBy(s[1..], le), le)
  }

  lemma {:induction false} InsertSorted<T(!new)>(x: T, s: seq<T>, le: (T, T) -> bool)
    requires TotalPreorder(le)
    requires SortedBy(s, le)
    ensures SortedBy(Insert(x, s, le), le)
  {
    if s == [] || le(x, s[0]) {
    } else {
      InsertSorted(x, s[1..], le);
      var r := Insert(x, s, le);
      var t := Insert(x, s[1..], le);
      assert r == [s[0]] + t;
      forall j | 0 < j < |r| ensures le(s[0], r[j]) {
        assert r[j] in multiset(t);
        assert r[j] in multiset(s[1..]) + multiset{x};
        if r[j] == x {
        } else {
          assert r[j] in s[1..];
          var m :| 0 <= m < |s[1..]| && s[1..][m] == r[j];
          assert s[1 + m] == r[j];
        }
      }
    }
  }

  /** The result is ordered by `le` whenever `le` is a total preorder. */
  lemma {:induction false} SortBySorted<T(!new)>(s: seq<T>, le: (T, T) -> bool)
    requires TotalPreorder(le)
    ensures SortedBy(SortBy(s, le), le)
  {
    if s != [] {
      SortBySorted(s[1..], le);
      InsertSorted(s[0], SortBy(s[1..], le), le);
    }
  }

  /** Input that is already in order comes back unchanged: for ties the
      earlier element stays first, which is what stability promises. */
  lemma {:induction false} SortByOfSorted<T>(s: seq<T>, le: (T, T) -> bool)
    requires SortedBy(s, le)
    ensures SortBy(s, le) == s
  {
    if s != [] {
      assert SortedBy(s[1..], le);
      SortByOfSorted(s[1..], le);
      assert s == [s[0]] + s[1..];
    }
  }
}

=== FILE: trapped_order_search.dfy ===
/** The search loop of the trapped-orders script and the deduplication of
    its findings (the `__main__` block of
    scripts/ricerca_parametri_trapped_orders.py).  Reading the bar file,
    asking for the thresholds and writing the result file are left out: the
    bars, the decoder and the two thresholds are parameters. */
module TrappedOrderSearch {
  import opened Wrappers
  import opened Sorting
  import opened TrappedOrders

  /** One result row. */
  datatype Detection = Detection(index: nat, window: int, time: int, close: real, volume: int,
                                 dirBefore: Direction, dirAfter: Direction, isDivergent: bool,
                                 reaction: Reaction, imbalances: Imbalances,
                                 maxExcursion: real, nBarsExcursion: nat)

  /** The windows tried, in order. */
  const Windows: seq<int> := [5, 10, 20]

  /** The bar's window of `win` bars on each side moves in opposite,
      non-neutral directions. */
  predicate Reverses(df: seq<Bar>, idx: nat, win: int)
    requires idx < |df|
  {
    var dirBefore := GetDirection(df, Max(0, idx - win), idx);
    var dirAfter := GetDirection(df, idx + 1, Min(|df|, idx + 1 + win));
    dirBefore != Neutral && dirAfter != Neutral && dirBefore != dirAfter
  }

  /** When the window reverses, both halves of the reaction exist. */
  lemma ReversalHasReaction(df: seq<Bar>, idx: nat, win: int)
    requires idx < |df| && win > 0
    requires Reverses(df, idx, win)
    ensures AnalyzePriceReaction(df, idx, win).maxBefore.Some?
    ensures AnalyzePriceReaction(df, idx, win).maxAfter.Some?
  {
    DirectionNeedsBars(df, Max(0, idx - win), idx);
    DirectionNeedsBars(df, idx + 1, Min(|df|, idx + 1 + win));
  }

  /** The extreme the bar printed was broken inside the window: a higher high
      after an up-move, a lower low after a down-move. */
  predicate ExtremeBroken(dirBefore: Direction, reaction: Reaction)
    requires reaction.maxBefore.Some? && reaction.minBefore.Some?
    requires reaction.maxAfter.Some? && reaction.minAfter.Some?
  {
    if dirBefore == Up then reaction.maxAfter.value > reaction.maxBefore.value
    else if dirBefore == Down then reaction.minAfter.value < reaction.minBefore.value
    else false
  }

  /** The script keeps the window: it reverses and the extreme holds. */
  predicate Kept(df: seq<Bar>, idx: nat, win: int)
    requires idx < |df| && win > 0
  {
    && Reverses(df, idx, win)
    && (ReversalHasReaction(df, idx, win);
        !ExtremeBroken(GetDirection(df, Max(0, idx - win), idx), AnalyzePriceReaction(df, idx, win)))
  }

  /** The row the script appends for bar `idx` and window `win`, if any. */
  function WindowDetection(df: seq<Bar>, idx: nat, win: int, deltaPerLevel: seq<LevelValue>,
                           imbalances: Imbalances, excursion: (real, nat)): Option<Detection>
    requires idx < |df| && win > 0
  {
    if Kept(df, idx, win) then
      Some(Row(df, idx, win, GetDirection(df, Max(0, idx - win), idx),
               GetDirection(df, idx + 1, Min(|df|, idx + 1 + win)),
               AnalyzePriceReaction(df, idx, win), deltaPerLevel,
               imbalances, excursion.0, excursion.1))
    else None
  }

  /** A kept window yields the row built from the reaction, the imbalances
      and the excursion of the bar. */
  lemma WindowDetectionKept(df: seq<Bar>, idx: nat, win: int, deltaPerLevel: seq<LevelValue>,
                            imbalances: Imbalances, excursion: (real, nat))
    requires idx < |df| && win > 0
    requires Kept(df, idx, win)
    ensures WindowDetection(df, idx, win, deltaPerLevel, imbalances, excursion) ==
              Some(Row(df, idx, win, GetDirection(df, Max(0, idx - win), idx),
                       GetDirection(df, idx + 1, Min(|df|, idx + 1 + win)),
                       AnalyzePriceReaction(df, idx, win), deltaPerLevel,
                       imbalances, excursion.0, excursion.1))
  {
  }

  /** The fields of a result row, from the bar and what was computed for it. */
  function Row(df: seq<Bar>, idx: nat, win: int, dirBefore: Direction, dirAfter: Direction,
               reaction: Reaction, deltaPerLevel: seq<LevelValue>, imbalances: Imbalances,
               maxExc: real, nBars: nat): Detection
    requires idx < |df|
  {
    Detection(idx, win, df[idx].openTime, df[idx].close, df[idx].volume, dirBefore, dirAfter,
              IsDivergent(df[idx], deltaPerLevel), reaction, imbalances, maxExc, nBars)
  }

  function OptionSeq<T>(o: Option<T>): seq<T>
  {
    if o.Some? then [o.value] else []
  }

  /** The rows for the first `k` windows of bar `idx`. */
  function WindowDetections(df: seq<Bar>, idx: nat, deltaPerLevel: seq<LevelValue>,
                            imbalances: Imbalances, excursion: (real, nat), k: nat): seq<Detection>
    requires idx < |df| && k <= |Windows|
  {
    if k == 0 then []
    else WindowDetections(df, idx, deltaPerLevel, imbalances, excursion, k - 1)
         + OptionSeq(WindowDetection(df, idx, Windows[k - 1], deltaPerLevel, imbalances, excursion))
  }

  /** Every bar's text decodes to entries that carry a volume and a delta;
      the script stops with a `KeyError` otherwise. */
  predicate RowsDecodable(df: seq<Bar>, decode: string -> Option<seq<StatsEntry>>)
  {
    forall i :: 0 <= i < |df| ==> HasVolumeDelta(ParsePriceStats(df[i].priceStats, decode))
  }

  /** The rows for bar `idx`: none unless an extreme level is excessive. */
  function DetectionsAt(df: seq<Bar>, idx: nat, decode: string -> Option<seq<StatsEntry>>,
                        volThreshold: real, deltaThreshold: real): seq<Detection>
    requires idx < |df| && RowsDecodable(df, decode)
  {
    var priceStats := ParsePriceStats(df[idx].priceStats, decode);
    var levels := ExtractVolumeDeltaPerLevel(priceStats);
    if ExtremeExcess(levels.0, levels.1, 3, volThreshold, deltaThreshold)
    then WindowDetections(df, idx, levels.1, ImbalancesWith(priceStats, 3, ByPrice),
                          ExcursionUntilReturn(df, idx), |Windows|)
    else []
  }

  /** The rows for the first `k` bars. */
  function Detections(df: seq<Bar>, decode: string -> Option<seq<StatsEntry>>,
                      volThreshold: real, deltaThreshold: real, k: nat): seq<Detection>
    requires k <= |df| && RowsDecodable(df, decode)
  {
    if k == 0 then []
    else Detections(df, decode, volThreshold, deltaThreshold, k - 1)
         + DetectionsAt(df, k - 1, decode, volThreshold, deltaThreshold)
  }

  /** The body of the window loop: the row for bar `idx` and window `win`,
      or none when the window does not reverse or the extreme is broken. */
  method CheckWindow(df: seq<Bar>, idx: nat, win: int, priceStats: seq<StatsEntry>,
                     deltaPerLevel: seq<LevelValue>) returns (row: Option<Detection>)
    requires idx < |df| && win > 0
    ensures row == WindowDetection(df, idx, win, deltaPerLevel, ImbalancesWith(priceStats, 3, ByPrice),
                                   ExcursionUntilReturn(df, idx))
  {
    var dirBefore := GetDirection(df, Max(0, idx - win), idx);
    var dirAfter := GetDirection(df, idx + 1, Min(|df|, idx + 1 + win));
    if dirBefore != Neutral && dirAfter != Neutral && dirBefore != dirAfter {
      ReversalHasReaction(df, idx, win);
      var reaction := AnalyzePriceReaction(df, idx, win);
      if ExtremeBroken(dirBefore, reaction) {
        return None;
      }
      assert Kept(df, idx, win);
      WindowDetectionKept(df, idx, win, deltaPerLevel, ImbalancesWith(priceStats, 3, ByPrice),
                          ExcursionUntilReturn(df, idx));
      var imbalances := DetectImbalances(priceStats, 3);
      var maxExc, nBars := MaxExcursionUntilReturn(df, idx);
      return Some(Row(df, idx, win, dirBefore, dirAfter, reaction, deltaPerLevel, imbalances, maxExc, nBars));
    }
    return None;
  }

  /** The window loop of one bar. */
  method ScanWindows(df: seq<Bar>, idx: nat, priceStats: seq<StatsEntry>,
                     deltaPerLevel: seq<LevelValue>) returns (rows: seq<Detection>)
    requires idx < |df|
    ensures rows == WindowDetections(df, idx, deltaPerLevel, ImbalancesWith(priceStats, 3, ByPrice),
                                     ExcursionUntilReturn(df, idx), |Windows|)
  {
    rows := [];
    for w := 0 to |Windows|
      invariant rows == WindowDetections(df, idx, deltaPerLevel, ImbalancesWith(priceStats, 3, ByPrice),
                                         ExcursionUntilReturn(df, idx), w)
    {
      var row := CheckWindow(df, idx, Windows[w], priceStats, deltaPerLevel);
      if row.Some? {
        rows := rows + [row.value];
      }
    }
  }

  /** One pass of the main loop: the rows for bar `idx`. */
  method ScanBar(df: seq<Bar>, idx: nat, decode: string -> Option<seq<StatsEntry>>,
                 volThreshold: real, deltaThreshold: real) returns (rows: seq<Detection>)
    requires idx < |df| && RowsDecodable(df, decode)
    ensures rows == DetectionsAt(df, idx, decode, volThreshold, deltaThreshold)
  {
    var priceStats := ParsePriceStats(df[idx].priceStats, decode);
    var levels := ExtractVolumeDeltaPerLevel(priceStats);
    var volumePerLevel, deltaPerLevel := levels.0, levels.1;
    var excess := IsExtremeExcess(volumePerLevel, deltaPerLevel, 3, volThreshold, deltaThreshold);
    if excess {
      rows := ScanWindows(df, idx, priceStats, deltaPerLevel);
    } else {
      rows := [];
    }
  }

  /** The loop of the main block, before deduplication. */
  method FindTrappedOrders(df: seq<Bar>, decode: string -> Option<seq<StatsEntry>>,
                           volThreshold: real, deltaThreshold: real) returns (results: seq<Detection>)
    requires RowsDecodable(df, decode)
    ensures results == Detections(df, decode, volThreshold, deltaThreshold, |df|)
  {
    results := [];
    for idx := 0 to |df|
      invariant results == Detections(df, decode, volThreshold, deltaThreshold, idx)
    {
      var rows := ScanBar(df, idx, decode, volThreshold, deltaThreshold);
      results := results + rows;
    }
  }

  // ---------------------------------------------------------------------
  // What the rows promise

  /** A row names a bar whose extreme level is excessive, one of the three
      windows, and a window that reverses without breaking the extreme. */
  predicate Justified(df: seq<Bar>, decode: string -> Option<seq<StatsEntry>>,
                      volThreshold: real, deltaThreshold: real, d: Detection)
    requires RowsDecodable(df, decode)
  {
    && d.index < |df|
    && d.window in Windows
    && (var levels := ExtractVolumeDeltaPerLevel(ParsePriceStats(df[d.index].priceStats, decode));
        ExtremeExcess(levels.0, levels.1, 3, volThreshold, deltaThreshold))
    && BarRow(df, d.index, d)
  }

  /** Rows come in bar order, and for one bar in window order. */
  predicate RowBefore(a: Detection, b: Detection)
  {
    a.index < b.index || (a.index == b.index && a.window < b.window)
  }

  /** A row for window `win` of bar `idx` carries that bar and window, and
      the window reverses without breaking the extreme. */
  lemma WindowDetectionFacts(df: seq<Bar>, idx: nat, win: int, deltaPerLevel: seq<LevelValue>,
                             imbalances: Imbalances, excursion: (real, nat))
    requires idx < |df| && win > 0
    ensures var row := WindowDetection(df, idx, win, deltaPerLevel, imbalances, excursion);
            row.Some? ==> row.value.index == idx && row.value.window == win && BarRow(df, idx, row.value)
  {
    if Kept(df, idx, win) {
      WindowDetectionKept(df, idx, win, deltaPerLevel, imbalances, excursion);
    }
  }

  /** A row for window `win` of bar `idx` carries that bar and window. */
  lemma WindowDetectionLabels(df: seq<Bar>, idx: nat, win: int, deltaPerLevel: seq<LevelValue>,
                              imbalances: Imbalances, excursion: (real, nat))
    requires idx < |df| && win > 0
    ensures var row := WindowDetection(df, idx, win, deltaPerLevel, imbalances, excursion);
            row.Some? ==> row.value.index == idx && row.value.window == win
  {
  }

  /** What every row of one bar satisfies: the window reverses without
      breaking the extreme. */
  predicate BarRow(df: seq<Bar>, idx: nat, d: Detection)
    requires idx < |df|
  {
    && d.window > 0 && Kept(df, idx, d.window)
    && d.dirBefore != Neutral && d.dirAfter != Neutral && d.dirBefore != d.dirAfter
  }

  /** The rows of bar `idx` carry that bar and windows tried so far. */
  lemma {:induction false} WindowRowsAt(df: seq<Bar>, idx: nat, deltaPerLevel: seq<LevelValue>,
                                        imbalances: Imbalances, excursion: (real, nat), k: nat)
    requires idx < |df| && k <= |Windows|
    ensures forall d :: d in WindowDetections(df, idx, deltaPerLevel, imbalances, excursion, k) ==>
              d.index == idx && d.window in Windows[..k]
  {
    if k > 0 {
      WindowRowsAt(df, idx, deltaPerLevel, imbalances, excursion, k - 1);
      WindowDetectionLabels(df, idx, Windows[k - 1], deltaPerLevel, imbalances, excursion);
      assert forall w :: w in Windows[..k - 1] ==> w in Windows[..k];
    }
  }

  /** Every row of bar `idx` comes from a window that reverses without
      breaking the extreme. */
  lemma {:induction false} WindowRowsKept(df: seq<Bar>, idx: nat, deltaPerLevel: seq<LevelValue>,
                                          imbalances: Imbalances, excursion: (real, nat), k: nat)
    requires idx < |df| && k <= |Windows|
    ensures forall d :: d in WindowDetections(df, idx, deltaPerLevel, imbalances, excursion, k) ==>
              BarRow(df, idx, d)
  {
    if k > 0 {
      WindowRowsKept(df, idx, deltaPerLevel, imbalances, excursion, k - 1);
      WindowDetectionFacts(df, idx, Windows[k - 1], deltaPerLevel, imbalances, excursion);
    }
  }

  /** The windows of one bar's rows strictly increase. */
  predicate WindowsIncrease(rows: seq<Detection>)
  {
    forall a, b :: 0 <= a < b < |rows| ==> rows[a].window < rows[b].window
  }

  lemma {:induction false} WindowRowsIncrease(df: seq<Bar>, idx: nat, deltaPerLevel: seq<LevelValue>,
                                              imbalances: Imbalances, excursion: (real, nat), k: nat)
    requires idx < |df| && k <= |Windows|
    ensures WindowsIncrease(WindowDetections(df, idx, deltaPerLevel, imbalances, excursion, k))
  {
    if k > 0 {
      WindowRowsIncrease(df, idx, deltaPerLevel, imbalances, excursion, k - 1);
      var win := Windows[k - 1];
      var prev := WindowDetections(df, idx, deltaPerLevel, imbalances, excursion, k - 1);
      var o := WindowDetection(df, idx, win, deltaPerLevel, imbalances, excursion);
      if o.Some? {
        WindowDetectionLabels(df, idx, win, deltaPerLevel, imbalances, excursion);
        WindowRowsAt(df, idx, deltaPerLevel, imbalances, excursion, k - 1);
        var rows := prev + [o.value];
        forall a, b | 0 <= a < b < |rows| ensures rows[a].window < rows[b].window {
          assert rows[a] == prev[a];
          if b == |prev| {
            assert prev[a] in prev;
            var j :| 0 <= j < k - 1 && Windows[j] == prev[a].window;
            assert Windows[j] < Windows[k - 1];
          } else {
            assert rows[b] == prev[b];
          }
        }
      }
    }
  }

  /** Every row the loop produces names one of the first `k` bars and is
      justified. */
  lemma {:induction false} DetectionsJustified(df: seq<Bar>, decode: string -> Option<seq<StatsEntry>>,
                                               volThreshold: real, deltaThreshold: real, k: nat)
    requires k <= |df| && RowsDecodable(df, decode)
    ensures forall d :: d in Detections(df, decode, volThreshold, deltaThreshold, k) ==>
              d.index < k && Justified(df, decode, volThreshold, deltaThreshold, d)
  {
    if k > 0 {
      DetectionsJustified(df, decode, volThreshold, deltaThreshold, k - 1);
      var idx := k - 1;
      var priceStats := ParsePriceStats(df[idx].priceStats, decode);
      var levels := ExtractVolumeDeltaPerLevel(priceStats);
      var imbalances, excursion := ImbalancesWith(priceStats, 3, ByPrice), ExcursionUntilReturn(df, idx);
      WindowRowsAt(df, idx, levels.1, imbalances, excursion, |Windows|);
      WindowRowsKept(df, idx, levels.1, imbalances, excursion, |Windows|);
      assert Windows[..|Windows|] == Windows;
    }
  }

  /** The rows come in bar order, and within a bar in window order, so no
      bar appears twice with the same window. */
  predicate InRowOrder(rows: seq<Detection>)
  {
    forall a, b :: 0 <= a < b < |rows| ==> RowBefore(rows[a], rows[b])
  }

  lemma {:induction false} DetectionsOrdered(df: seq<Bar>, decode: string -> Option<seq<StatsEntry>>,
                                             volThreshold: real, deltaThreshold: real, k: nat)
    requires k <= |df| && RowsDecodable(df, decode)
    ensures InRowOrder(Detections(df, decode, volThreshold, deltaThreshold, k))
  {
    if k > 0 {
      DetectionsOrdered(df, decode, volThreshold, deltaThreshold, k - 1);
      DetectionsJustified(df, decode, volThreshold, deltaThreshold, k - 1);
      var idx := k - 1;
      var prev := Detections(df, decode, volThreshold, deltaThreshold, k - 1);
      var here := DetectionsAt(df, idx, decode, volThreshold, deltaThreshold);
      var priceStats := ParsePriceStats(df[idx].priceStats, decode);
      var levels := ExtractVolumeDeltaPerLevel(priceStats);
      var imbalances, excursion := ImbalancesWith(priceStats, 3, ByPrice), ExcursionUntilReturn(df, idx);
      WindowRowsAt(df, idx, levels.1, imbalances, excursion, |Windows|);
      WindowRowsIncrease(df, idx, levels.1, imbalances, excursion, |Windows|);
      assert forall d :: d in here ==> d.index == idx;
      assert WindowsIncrease(here);
      var rows := prev + here;
      forall a, b | 0 <= a < b < |rows| ensures RowBefore(rows[a], rows[b]) {
        if b >= |prev| {
          assert rows[b] == here[b - |prev|];
          assert rows[b] in here;
          if a < |prev| {
            assert rows[a] in prev;
          } else {
            assert rows[a] == here[a - |prev|];
          }
        }
      }
    }
  }

  // ---------------------------------------------------------------------
  // Deduplication: sort by index ascending and window descending, then
  // keep the first row of each index

  predicate IndexThenWiderFirst(a: Detection, b: Detection)
  {
    a.index < b.index || (a.index == b.index && a.window >= b.window)
  }

  /** The row at `i` repeats an index seen earlier. */
  predicate IndexSeen(s: seq<Detection>, i: nat)
    requires i < |s|
  {
    exists j :: 0 <= j < i && s[j].index == s[i].index
  }

  /** `drop_duplicates(subset=['index'], keep='first')` on `s[i..]`, with the
      rows before `i` counted as seen. */
  function DropFrom(s: seq<Detection>, i: nat): seq<Detection>
    decreases |s| - i
  {
    if i >= |s| then []
    else (if IndexSeen(s, i) then [] else [s[i]]) + DropFrom(s, i + 1)
  }

  /** The sort and `drop_duplicates` of the script's last step, on rows. */
  function KeepLargestWindow(results: seq<Detection>): seq<Detection>
  {
    DropFrom(SortBy(results, IndexThenWiderFirst), 0)
  }

  /** The script's last step: with no rows, `pd.DataFrame(results)` has no
      `index` column and `sort_values` stops the script with a `KeyError`
      (`None` here); otherwise the deduplicated rows. */
  function DeduplicateResults(results: seq<Detection>): (r: Option<seq<Detection>>)
    ensures r.None? <==> results == []
  {
    if results == [] then None else Some(KeepLargestWindow(results))
  }

  /** The script fails exactly when nothing was detected; otherwise it
      saves at least one row, and only rows it was given. */
  lemma DeduplicateResultsSpec(results: seq<Detection>)
    ensures DeduplicateResults(results).None? <==> results == []
    ensures results != [] ==>
              && DeduplicateResults(results).value != []
              && forall d :: d in DeduplicateResults(results).value ==> d in results
  {
    if results != [] {
      KeepLargestWindowCovers(results);
      KeepLargestWindowOrdered(results);
      assert results[0] in results;
    }
  }

  lemma {:induction false} DropFromMembers(s: seq<Detection>, i: nat)
    ensures forall d :: d in DropFrom(s, i) ==> exists k :: i <= k < |s| && s[k] == d && !IndexSeen(s, k)
    decreases |s| - i
  {
    if i < |s| {
      DropFromMembers(s, i + 1);
    }
  }

  lemma {:induction false} DropFromCovers(s: seq<Detection>, i: nat, k: nat)
    requires i <= k < |s| && !IndexSeen(s, k)
    ensures s[k] in DropFrom(s, i)
    decreases k - i
  {
    if i < k {
      DropFromCovers(s, i + 1, k);
    }
  }

  /** Sorted by index ascending, window descending. */
  predicate SortedRows(s: seq<Detection>)
  {
    forall i, j :: 0 <= i < j < |s| ==> IndexThenWiderFirst(s[i], s[j])
  }

  /** Strictly increasing bar indices: no bar twice. */
  predicate IndicesIncrease(out: seq<Detection>)
  {
    forall a, b :: 0 <= a < b < |out| ==> out[a].index < out[b].index
  }

  lemma {:induction false} DropFromIncreasing(s: seq<Detection>, i: nat)
    requires SortedRows(s)
    ensures IndicesIncrease(DropFrom(s, i))
    decreases |s| - i
  {
    if i < |s| {
      DropFromIncreasing(s, i + 1);
      var rest := DropFrom(s, i + 1);
      if !IndexSeen(s, i) {
        DropFromMembers(s, i + 1);
        forall d | d in rest ensures s[i].index < d.index {
          var k :| i + 1 <= k < |s| && s[k] == d && !IndexSeen(s, k);
          assert IndexThenWiderFirst(s[i], s[k]);
          assert s[i].index != s[k].index;
        }
        var out := [s[i]] + rest;
        forall a, b | 0 <= a < b < |out| ensures out[a].index < out[b].index {
          assert out[b] == rest[b - 1];
          if a == 0 {
            assert rest[b - 1] in rest;
          } else {
            assert out[a] == rest[a - 1];
          }
        }
        assert IndicesIncrease(out);
      }
    }
  }

  /** The first row with the same index as row `j`. */
  lemma {:induction false} FirstOfIndex(s: seq<Detection>, j: nat) returns (k: nat)
    requires j < |s|
    ensures k <= j && s[k].index == s[j].index && !IndexSeen(s, k)
  {
    if IndexSeen(s, j) {
      var j' :| 0 <= j' < j && s[j'].index == s[j].index;
      k := FirstOfIndex(s, j');
    } else {
      k := j;
    }
  }

  lemma TotalIndexThenWiderFirst()
    ensures TotalPreorder(IndexThenWiderFirst)
  {
  }

  /** Sorting by index, then by window with the wider first, leaves the rows
      in that order. */
  lemma SortedByIndex(results: seq<Detection>)
    ensures SortedRows(SortBy(results, IndexThenWiderFirst))
  {
    TotalIndexThenWiderFirst();
    SortBySorted(results, IndexThenWiderFirst);
  }

  /** Deduplication keeps only rows it was given, in strictly increasing
      bar order. */
  lemma KeepLargestWindowOrdered(results: seq<Detection>)
    ensures forall d :: d in KeepLargestWindow(results) ==> d in results
    ensures IndicesIncrease(KeepLargestWindow(results))
  {
    var s := SortBy(results, IndexThenWiderFirst);
    SortedByIndex(results);
    DropFromMembers(s, 0);
    DropFromIncreasing(s, 0);
    forall d | d in DropFrom(s, 0) ensures d in results {
      var k :| 0 <= k < |s| && s[k] == d && !IndexSeen(s, k);
      assert d in multiset(s);
    }
  }

  /** The row kept for a bar has the longest window of that bar's rows. */
  lemma KeepLargestWindowLongest(results: seq<Detection>)
    ensures forall d, r :: d in KeepLargestWindow(results) && r in results && r.index == d.index ==> r.window <= d.window
  {
    var s := SortBy(results, IndexThenWiderFirst);
    SortedByIndex(results);
    DropFromMembers(s, 0);
    forall d, r | d in DropFrom(s, 0) && r in results && r.index == d.index ensures r.window <= d.window {
      var k :| 0 <= k < |s| && s[k] == d && !IndexSeen(s, k);
      assert r in multiset(s);
      var j :| 0 <= j < |s| && s[j] == r;
      assert s[j].index == s[k].index;
      assert j >= k;
      if j > k {
        assert IndexThenWiderFirst(s[k], s[j]);
      }
    }
  }

  /** Every bar that has a row keeps one. */
  lemma KeepLargestWindowCovers(results: seq<Detection>)
    ensures forall r :: r in results ==> exists d :: d in KeepLargestWindow(results) && d.index == r.index
  {
    var s := SortBy(results, IndexThenWiderFirst);
    forall r | r in results ensures exists d :: d in DropFrom(s, 0) && d.index == r.index {
      assert r in multiset(s);
      var j :| 0 <= j < |s| && s[j] == r;
      var k := FirstOfIndex(s, j);
      DropFromCovers(s, 0, k);
    }
  }
}

=== FILE: trapped_orders.dfy ===
/** The trapped-orders search (scripts/ricerca_parametri_trapped_orders.py).
    A bar is a candidate when one of its extreme price levels holds a large
    share of the bar's volume or of its absolute delta; a candidate is kept
    for a window of 5, 10 or 20 bars when the bars before and after it move
    in opposite directions and the extreme it printed is not broken.  For a
    kept bar the script records the reaction around it, the divergence
    between price and delta, the diagonal imbalances at its extremes and
    the excursion until price returns to its close.

    Decoding (`ast.literal_eval` on the stripped text) is a parameter, as in
    the bar cleaner: it yields the dictionary's entries in order, or `None`
    when the script's `try` block would fail.  The bar extractor writes the
    dictionary with numeric keys, so a decoded key is a number. */
module TrappedOrders {
  import opened Wrappers
  import opened Sorting
  import PriceStatsText
  import CandleCleaner

  /** One row of the bar file, with the columns the search reads. */
  datatype Bar = Bar(openTime: int, open: real, high: real, low: real, close: real,
                     volume: int, priceStats: string)

  /** One entry of the decoded price-level dictionary: the key and the four
      counters, each present or absent. */
  datatype StatsEntry = StatsEntry(price: real, volume: Option<int>, delta: Option<int>,
                                   bidVolume: Option<int>, askVolume: Option<int>)

  /** One entry of a `{price: value}` dictionary. */
  datatype LevelValue = LevelValue(price: real, value: int)

  // ---------------------------------------------------------------------
  // Python slicing

  /** Where a slice bound lands in a sequence of length `len`: a negative
      bound counts from the end, and either kind is clamped to the sequence. */
  function SliceBound(len: nat, x: int): (k: nat)
    ensures k <= len
    ensures 0 <= x ==> k == if x < len then x else len
    ensures x < 0 ==> k == if len + x < 0 then 0 else len + x
  {
    if x < 0 then (if len + x < 0 then 0 else len + x)
    else if x < len then x else len
  }

  /** `s[a:b]` (and `df.iloc[a:b]`) for integer bounds. */
  function PySlice<T>(s: seq<T>, a: int, b: int): seq<T>
  {
    var lo := SliceBound(|s|, a);
    var hi := SliceBound(|s|, b);
    if hi <= lo then [] else s[lo..hi]
  }

  /** For bounds inside the sequence, a Python slice is Dafny's slice, or
      empty when the bounds are out of order. */
  lemma PySliceInside<T>(s: seq<T>, a: int, b: int)
    requires 0 <= a < b <= |s|
    ensures PySlice(s, a, b) == s[a..b]
  {
  }

  // ---------------------------------------------------------------------
  // parse_price_stats and extract_volume_delta_per_level

  /** `parse_price_stats`: every wrapper prefix and every `)` deleted, then
      decoded; a failure gives the empty dictionary. */
  function ParsePriceStats(priceStatsStr: string, decode: string -> Option<seq<StatsEntry>>): (r: seq<StatsEntry>)
    ensures decode(PriceStatsText.TrappedStrip(priceStatsStr)).None? ==> r == []
    ensures decode(PriceStatsText.TrappedStrip(priceStatsStr)).Some? ==>
              r == decode(PriceStatsText.TrappedStrip(priceStatsStr)).value
  {
    match decode(PriceStatsText.TrappedStrip(priceStatsStr))
    case None => []
    case Some(entries) => entries
  }

  /** Every entry carries the two counters the extraction indexes without a
      default (`stats['volume']`, `stats['delta']`). */
  predicate HasVolumeDelta(priceStats: seq<StatsEntry>)
  {
    forall i :: 0 <= i < |priceStats| ==> priceStats[i].volume.Some? && priceStats[i].delta.Some?
  }

  /** `extract_volume_delta_per_level`: the `{price: volume}` and
      `{price: delta}` dictionaries, keys in the same order as the input. */
  function ExtractVolumeDeltaPerLevel(priceStats: seq<StatsEntry>): (r: (seq<LevelValue>, seq<LevelValue>))
    requires HasVolumeDelta(priceStats)
    ensures |r.0| == |r.1| == |priceStats|
    ensures forall i :: 0 <= i < |priceStats| ==>
              r.0[i] == LevelValue(priceStats[i].price, priceStats[i].volume.value) &&
              r.1[i] == LevelValue(priceStats[i].price, priceStats[i].delta.value)
  {
    if priceStats == [] then ([], [])
    else
      var rest := ExtractVolumeDeltaPerLevel(priceStats[1..]);
      var e := priceStats[0];
      ([LevelValue(e.price, e.volume.value)] + rest.0, [LevelValue(e.price, e.delta.value)] + rest.1)
  }

  // ---------------------------------------------------------------------
  // is_extreme_excess

  function Keys(d: seq<LevelValue>): (r: seq<real>)
    ensures |r| == |d|
    ensures forall i :: 0 <= i < |d| ==> r[i] == d[i].price
  {
    if d == [] then [] else [d[0].price] + Keys(d[1..])
  }

  /** `d.get(p, 0)`. */
  function Get(d: seq<LevelValue>, p: real): int
  {
    if d == [] then 0
    else if d[0].price == p then d[0].value
    else Get(d[1..], p)
  }

  /** `sum(d.values())`. */
  function SumValues(d: seq<LevelValue>): int
  {
    if d == [] then 0 else d[0].value + SumValues(d[1..])
  }

  function Abs(x: int): nat
  {
    if x < 0 then -x else x
  }

  /** `sum(abs(v) for v in d.values())`. */
  function SumAbs(d: seq<LevelValue>): nat
  {
    if d == [] then 0 else Abs(d[0].value) + SumAbs(d[1..])
  }

  predicate RealLe(a: real, b: real)
  {
    a <= b
  }

  /** `sorted(volume_per_level.keys())`. */
  function SortedPrices(d: seq<LevelValue>): seq<real>
  {
    SortBy(Keys(d), RealLe)
  }

  /** The prices scanned: `prices[-n:] + prices[:n]`. */
  function Candidates(d: seq<LevelValue>, nExtremes: int): seq<real>
  {
    var prices := SortedPrices(d);
    PySlice(prices, -nExtremes, |prices|) + PySlice(prices, 0, nExtremes)
  }

  /** The two share tests for one price; a zero total never divides. */
  predicate Excessive(volumePerLevel: seq<LevelValue>, deltaPerLevel: seq<LevelValue>, p: real,
                      volThreshold: real, deltaThreshold: real)
  {
    var totalVol := SumValues(volumePerLevel);
    var totalDelta := SumAbs(deltaPerLevel);
    (totalVol > 0 && (Get(volumePerLevel, p) as real) / (totalVol as real) >= volThreshold)
    || (totalDelta > 0 && (Abs(Get(deltaPerLevel, p)) as real) / (totalDelta as real) >= deltaThreshold)
  }

  /** What `is_extreme_excess` decides: some scanned extreme passes a test. */
  predicate ExtremeExcess(volumePerLevel: seq<LevelValue>, deltaPerLevel: seq<LevelValue>, nExtremes: int,
                          volThreshold: real, deltaThreshold: real)
  {
    var candidates := Candidates(volumePerLevel, nExtremes);
    && volumePerLevel != []
    && exists k :: 0 <= k < |candidates|
         && Excessive(volumePerLevel, deltaPerLevel, candidates[k], volThreshold, deltaThreshold)
  }

  method IsExtremeExcess(volumePerLevel: seq<LevelValue>, deltaPerLevel: seq<LevelValue>, nExtremes: int,
                         volThreshold: real, deltaThreshold: real) returns (excess: bool)
    ensures excess == ExtremeExcess(volumePerLevel, deltaPerLevel, nExtremes, volThreshold, deltaThreshold)
  {
    if volumePerLevel == [] {
      return false;
    }
    var prices := SortedPrices(volumePerLevel);
    var totalVol := SumValues(volumePerLevel);
    var totalDelta := SumAbs(deltaPerLevel);
    var highExtremes := PySlice(prices, -nExtremes, |prices|);
    var lowExtremes := PySlice(prices, 0, nExtremes);
    var candidates := highExtremes + lowExtremes;
    assert candidates == Candidates(volumePerLevel, nExtremes);
    for k := 0 to |candidates|
      invariant forall j :: 0 <= j < k ==>
                  !Excessive(volumePerLevel, deltaPerLevel, candidates[j], volThreshold, deltaThreshold)
    {
      var p := candidates[k];
      var vol := Get(volumePerLevel, p);
      var delt := Abs(Get(deltaPerLevel, p));
      if totalVol > 0 && (vol as real) / (totalVol as real) >= volThreshold {
        assert Excessive(volumePerLevel, deltaPerLevel, candidates[k], volThreshold, deltaThreshold);
        return true;
      }
      if totalDelta > 0 && (delt as real) / (totalDelta as real) >= deltaThreshold {
        assert Excessive(volumePerLevel, deltaPerLevel, candidates[k], volThreshold, deltaThreshold);
        return true;
      }
    }
    return false;
  }

  /** Raising either threshold can only turn a candidate bar into a
      non-candidate. */
  lemma ExtremeExcessMonotone(volumePerLevel: seq<LevelValue>, deltaPerLevel: seq<LevelValue>, nExtremes: int,
                              volLow: real, volHigh: real, deltaLow: real, deltaHigh: real)
    requires volLow <= volHigh && deltaLow <= deltaHigh
    requires ExtremeExcess(volumePerLevel, deltaPerLevel, nExtremes, volHigh, deltaHigh)
    ensures ExtremeExcess(volumePerLevel, deltaPerLevel, nExtremes, volLow, deltaLow)
  {
    var candidates := Candidates(volumePerLevel, nExtremes);
    var k :| 0 <= k < |candidates|
             && Excessive(volumePerLevel, deltaPerLevel, candidates[k], volHigh, deltaHigh);
    assert Excessive(volumePerLevel, deltaPerLevel, candidates[k], volLow, deltaLow);
  }

  /** Only prices of the bar are scanned, so a verdict of excess names a
      level of the bar. */
  lemma ExcessAtSomeLevel(volumePerLevel: seq<LevelValue>, deltaPerLevel: seq<LevelValue>, nExtremes: int,
                          volThreshold: real, deltaThreshold: real)
    requires ExtremeExcess(volumePerLevel, deltaPerLevel, nExtremes, volThreshold, deltaThreshold)
    ensures exists i :: 0 <= i < |volumePerLevel|
              && Excessive(volumePerLevel, deltaPerLevel, volumePerLevel[i].price, volThreshold, deltaThreshold)
  {
    var prices := SortedPrices(volumePerLevel);
    var candidates := Candidates(volumePerLevel, nExtremes);
    var k :| 0 <= k < |candidates|
             && Excessive(volumePerLevel, deltaPerLevel, candidates[k], volThreshold, deltaThreshold);
    var p := candidates[k];
    assert p in prices by {
      var high := PySlice(prices, -nExtremes, |prices|);
      var low := PySlice(prices, 0, nExtremes);
      assert candidates == high + low;
      if k < |high| {
        assert p in high;
      } else {
        assert p == low[k - |high|];
        assert p in low;
      }
    }
    assert p in multiset(Keys(volumePerLevel));
    var i :| 0 <= i < |Keys(volumePerLevel)| && Keys(volumePerLevel)[i] == p;
    assert volumePerLevel[i].price == p;
  }

  /** When the bar has at most `nExtremes` levels every level is scanned, so
      any level that passes a test makes the bar a candidate. */
  lemma FewLevelsAllScanned(volumePerLevel: seq<LevelValue>, deltaPerLevel: seq<LevelValue>, nExtremes: int,
                            volThreshold: real, deltaThreshold: real, i: int)
    requires |volumePerLevel| <= nExtremes
    requires 0 <= i < |volumePerLevel|
    requires Excessive(volumePerLevel, deltaPerLevel, volumePerLevel[i].price, volThreshold, deltaThreshold)
    ensures ExtremeExcess(volumePerLevel, deltaPerLevel, nExtremes, volThreshold, deltaThreshold)
  {
    var prices := SortedPrices(volumePerLevel);
    var p := volumePerLevel[i].price;
    assert Keys(volumePerLevel)[i] == p;
    assert p in multiset(prices);
    var k :| 0 <= k < |prices| && prices[k] == p;
    var candidates := Candidates(volumePerLevel, nExtremes);
    assert PySlice(prices, -nExtremes, |prices|) == prices;
    assert candidates[k] == p;
  }

  /** `prices[-0:]` is the whole list, so with `n_extremes == 0` every level
      is scanned as a high extreme and none as a low one. */
  lemma ZeroExtremesScanAll(volumePerLevel: seq<LevelValue>)
    ensures Candidates(volumePerLevel, 0) == SortedPrices(volumePerLevel)
  {
    var prices := SortedPrices(volumePerLevel);
    assert PySlice(prices, 0, |prices|) == prices;
    assert PySlice(prices, 0, 0) == [];
  }

  // ---------------------------------------------------------------------
  // analyze_price_reaction

  /** `series.max()` of the highs of a non-empty run of bars. */
  function MaxHigh(bars: seq<Bar>): real
    requires bars != []
  {
    if |bars| == 1 then bars[0].high
    else
      var rest := MaxHigh(bars[1..]);
      if bars[0].high >= rest then bars[0].high else rest
  }

  /** The maximum bounds every high and is one of them. */
  lemma {:induction false} MaxHighSpec(bars: seq<Bar>)
    requires bars != []
    ensures forall b :: b in bars ==> b.high <= MaxHigh(bars)
    ensures exists b :: b in bars && b.high == MaxHigh(bars)
  {
    if |bars| > 1 {
      MaxHighSpec(bars[1..]);
      assert forall b :: b in bars ==> b == bars[0] || b in bars[1..];
      if bars[0].high < MaxHigh(bars[1..]) {
        var w :| w in bars[1..] && w.high == MaxHigh(bars[1..]);
        assert w in bars;
      } else {
        assert bars[0] in bars;
      }
    } else {
      assert bars == [bars[0]];
    }
  }

  /** `series.min()` of the lows of a non-empty run of bars. */
  function MinLow(bars: seq<Bar>): real
    requires bars != []
  {
    if |bars| == 1 then bars[0].low
    else
      var rest := MinLow(bars[1..]);
      if bars[0].low <= rest then bars[0].low else rest
  }

  /** The minimum bounds every low and is one of them. */
  lemma {:induction false} MinLowSpec(bars: seq<Bar>)
    requires bars != []
    ensures forall b :: b in bars ==> MinLow(bars) <= b.low
    ensures exists b :: b in bars && b.low == MinLow(bars)
  {
    if |bars| > 1 {
      MinLowSpec(bars[1..]);
      assert forall b :: b in bars ==> b == bars[0] || b in bars[1..];
      if bars[0].low > MinLow(bars[1..]) {
        var w :| w in bars[1..] && w.low == MinLow(bars[1..]);
        assert w in bars;
      } else {
        assert bars[0] in bars;
      }
    } else {
      assert bars == [bars[0]];
    }
  }

  /** The reaction dictionary; `None` where the script stores `None`. */
  datatype Reaction = Reaction(maxBefore: Option<real>, minBefore: Option<real>,
                               maxAfter: Option<real>, minAfter: Option<real>,
                               diffMaxAfter: Option<real>, diffMinAfter: Option<real>,
                               diffMaxBefore: Option<real>, diffMinBefore: Option<real>)

  function Max(a: int, b: int): int { if a >= b then a else b }
  function Min(a: int, b: int): int { if a <= b then a else b }

  /** The bars before `idx` that the window covers. */
  function WindowBefore(df: seq<Bar>, idx: nat, window: int): seq<Bar>
    requires idx < |df|
  {
    PySlice(df, Max(0, idx - window), idx)
  }

  /** The bars after `idx` that the window covers. */
  function WindowAfter(df: seq<Bar>, idx: nat, window: int): seq<Bar>
    requires idx < |df|
  {
    PySlice(df, idx + 1, Min(|df|, idx + 1 + window))
  }

  function AnalyzePriceReaction(df: seq<Bar>, idx: nat, window: int): (r: Reaction)
    requires idx < |df|
    ensures r.maxBefore.Some? <==> 0 < idx && 0 < window
    ensures r.maxAfter.Some? <==> idx + 1 < |df| && 0 < window
    ensures r.minBefore.Some? == r.maxBefore.Some? && r.minAfter.Some? == r.maxAfter.Some?
    ensures r.diffMaxAfter.Some? == r.maxAfter.Some? && r.diffMinAfter.Some? == r.minAfter.Some?
    ensures r.diffMaxBefore.Some? == r.maxBefore.Some? && r.diffMinBefore.Some? == r.minBefore.Some?
  {
    var startBefore := Max(0, idx - window);
    var endBefore := idx;
    var startAfter := idx + 1;
    var endAfter := Min(|df|, idx + 1 + window);
    var maxBefore := if endBefore > startBefore then Some(MaxHigh(df[startBefore..endBefore])) else None;
    var minBefore := if endBefore > startBefore then Some(MinLow(df[startBefore..endBefore])) else None;
    var maxAfter := if endAfter > startAfter then Some(MaxHigh(df[startAfter..endAfter])) else None;
    var minAfter := if endAfter > startAfter then Some(MinLow(df[startAfter..endAfter])) else None;
    var close := df[idx].close;
    Reaction(maxBefore, minBefore, maxAfter, minAfter,
             if maxAfter.Some? then Some(maxAfter.value - close) else None,
             if minAfter.Some? then Some(minAfter.value - close) else None,
             if maxBefore.Some? then Some(maxBefore.value - close) else None,
             if minBefore.Some? then Some(minBefore.value - close) else None)
  }

  /** Before the bar, the reaction holds the highest high and the lowest low
      of the window's bars, and their distances from the bar's close. */
  lemma ReactionBefore(df: seq<Bar>, idx: nat, window: int)
    requires idx < |df|
    ensures var r := AnalyzePriceReaction(df, idx, window);
            r.maxBefore.Some? ==>
              && WindowBefore(df, idx, window) != []
              && (forall b :: b in WindowBefore(df, idx, window) ==> r.minBefore.value <= b.low && b.high <= r.maxBefore.value)
              && (exists b :: b in WindowBefore(df, idx, window) && b.high == r.maxBefore.value)
              && (exists b :: b in WindowBefore(df, idx, window) && b.low == r.minBefore.value)
              && r.diffMaxBefore.value == r.maxBefore.value - df[idx].close
              && r.diffMinBefore.value == r.minBefore.value - df[idx].close
  {
    var startBefore := Max(0, idx - window);
    if idx > startBefore {
      PySliceInside(df, startBefore, idx);
      MaxHighSpec(df[startBefore..idx]);
      MinLowSpec(df[startBefore..idx]);
    }
  }

  /** After the bar, likewise: the extremes of the window's bars and their
      distances from the bar's close. */
  lemma ReactionAfter(df: seq<Bar>, idx: nat, window: int)
    requires idx < |df|
    ensures var r := AnalyzePriceReaction(df, idx, window);
            r.maxAfter.Some? ==>
              && WindowAfter(df, idx, window) != []
              && (forall b :: b in WindowAfter(df, idx, window) ==> r.minAfter.value <= b.low && b.high <= r.maxAfter.value)
              && (exists b :: b in WindowAfter(df, idx, window) && b.high == r.maxAfter.value)
              && (exists b :: b in WindowAfter(df, idx, window) && b.low == r.minAfter.value)
              && r.diffMaxAfter.value == r.maxAfter.value - df[idx].close
              && r.diffMinAfter.value == r.minAfter.value - df[idx].close
  {
    var endAfter := Min(|df|, idx + 1 + window);
    if endAfter > idx + 1 {
      PySliceInside(df, idx + 1, endAfter);
      MaxHighSpec(df[idx + 1..endAfter]);
      MinLowSpec(df[idx + 1..endAfter]);
    }
  }

  // ---------------------------------------------------------------------
  // get_direction

  datatype Direction = Up | Down | Neutral

  /** `(closes > opens).sum()`. */
  function CountUp(bars: seq<Bar>): (n: nat)
    ensures n <= |bars|
  {
    if bars == [] then 0 else (if bars[0].close > bars[0].open then 1 else 0) + CountUp(bars[1..])
  }

  /** `(closes < opens).sum()`. */
  function CountDown(bars: seq<Bar>): (n: nat)
    ensures n <= |bars|
  {
    if bars == [] then 0 else (if bars[0].close < bars[0].open then 1 else 0) + CountDown(bars[1..])
  }

  /** The majority direction of the bars `df.iloc[start:end]`. */
  function GetDirection(df: seq<Bar>, start: int, end: int): Direction
  {
    var bars := PySlice(df, start, end);
    var up := CountUp(bars);
    var down := CountDown(bars);
    if up > down then Up else if down > up then Down else Neutral
  }

  /** A bar cannot both rise and fall, so the two counts together never
      exceed the number of bars. */
  lemma {:induction false} CountsBounded(bars: seq<Bar>)
    ensures CountUp(bars) + CountDown(bars) <= |bars|
  {
    if bars != [] {
      CountsBounded(bars[1..]);
    }
  }

  /** A direction other than neutral needs at least one bar in the range. */
  lemma DirectionNeedsBars(df: seq<Bar>, start: int, end: int)
    requires GetDirection(df, start, end) != Neutral
    ensures PySlice(df, start, end) != []
  {
  }

  /** The bar read backwards in time: open and close swapped. */
  function Reverse(b: Bar): Bar
  {
    b.(open := b.close, close := b.open)
  }

  function ReverseAll(bars: seq<Bar>): (r: seq<Bar>)
    ensures |r| == |bars|
    ensures forall i :: 0 <= i < |bars| ==> r[i] == Reverse(bars[i])
  {
    if bars == [] then [] else [Reverse(bars[0])] + ReverseAll(bars[1..])
  }

  lemma {:induction false} ReverseSwapsCounts(bars: seq<Bar>)
    ensures CountUp(ReverseAll(bars)) == CountDown(bars)
    ensures CountDown(ReverseAll(bars)) == CountUp(bars)
  {
    if bars != [] {
      ReverseSwapsCounts(bars[1..]);
      assert ReverseAll(bars)[1..] == ReverseAll(bars[1..]);
    }
  }

  /** Swapping every bar's open and close swaps up and down and leaves
      neutral alone: the direction test is symmetric. */
  lemma ReverseSwapsDirection(df: seq<Bar>, start: int, end: int)
    ensures GetDirection(ReverseAll(df), start, end) ==
              match GetDirection(df, start, end)
              case Up => Down
              case Down => Up
              case Neutral => Neutral
  {
    var bars := PySlice(df, start, end);
    assert PySlice(ReverseAll(df), start, end) == ReverseAll(bars);
    ReverseSwapsCounts(bars);
  }

  // ---------------------------------------------------------------------
  // detect_imbalances

  /** A dictionary key: the decoded dictionary's keys are numbers, while
      `str(price)` is text. */
  datatype Key = Num(real) | Text(string)

  /** `price_stats.get(key)`: the entry whose key is `key`, if any. */
  function Lookup(priceStats: seq<StatsEntry>, key: Key): (r: Option<StatsEntry>)
    ensures r.Some? ==> r.value in priceStats && key == Num(r.value.price)
    ensures r.None? ==> forall i :: 0 <= i < |priceStats| ==> key != Num(priceStats[i].price)
  {
    if priceStats == [] then None
    else if Num(priceStats[0].price) == key then Some(priceStats[0])
    else Lookup(priceStats[1..], key)
  }

  /** `.get('ask_volume', 0)` on the looked-up entry, `{}` when missing. */
  function AskOf(o: Option<StatsEntry>): int
  {
    if o.Some? then CandleCleaner.GetOr(o.value.askVolume) else 0
  }

  /** `.get('bid_volume', 0)` on the looked-up entry, `{}` when missing. */
  function BidOf(o: Option<StatsEntry>): int
  {
    if o.Some? then CandleCleaner.GetOr(o.value.bidVolume) else 0
  }

  function EntryPrices(priceStats: seq<StatsEntry>): (r: seq<real>)
    ensures |r| == |priceStats|
    ensures forall i :: 0 <= i < |priceStats| ==> r[i] == priceStats[i].price
  {
    if priceStats == [] then [] else [priceStats[0].price] + EntryPrices(priceStats[1..])
  }

  /** `sorted(float(p) for p in price_stats.keys())`. */
  function SortedLevels(priceStats: seq<StatsEntry>): seq<real>
  {
    SortBy(EntryPrices(priceStats), RealLe)
  }

  /** A pair counts for threshold `t` when its denominator is positive and
      the ratio reaches `t`. */
  predicate Reaches(num: int, den: int, t: int)
  {
    den > 0 && (num as real) / (den as real) >= t as real
  }

  /** The top pair at level `i`: the ask volume at `i` against the bid volume
      one level below; `rule` turns a price into the lookup key. */
  predicate TopPair(priceStats: seq<StatsEntry>, prices: seq<real>, rule: KeyRule, i: int, t: int)
    requires 0 < i < |prices|
  {
    Reaches(AskOf(Lookup(priceStats, KeyFor(rule, prices[i]))), BidOf(Lookup(priceStats, KeyFor(rule, prices[i - 1]))), t)
  }

  /** The bottom pair at level `i`: the bid volume at `i` against the ask
      volume one level above. */
  predicate BottomPair(priceStats: seq<StatsEntry>, prices: seq<real>, rule: KeyRule, i: int, t: int)
    requires 0 <= i && i + 1 < |prices|
  {
    Reaches(BidOf(Lookup(priceStats, KeyFor(rule, prices[i]))), AskOf(Lookup(priceStats, KeyFor(rule, prices[i + 1]))), t)
  }

  /** The top loop visits the levels `i` with `TopStop < i <= len - 1`. */
  function TopStop(len: nat, nExtremes: int): nat
  {
    if len - nExtremes < 0 then 0 else len - nExtremes
  }

  /** The bottom loop visits the levels `i` with `0 <= i < BottomStop`. */
  function BottomStop(len: nat, nExtremes: int): nat
  {
    if nExtremes <= 0 || len == 0 then 0 else Min(nExtremes, len - 1)
  }

  /** Top pairs counted for threshold `t` among the levels above `i`. */
  function TopCount(priceStats: seq<StatsEntry>, prices: seq<real>, rule: KeyRule, t: int, i: nat): nat
    decreases |prices| - i
  {
    if i + 1 >= |prices| then 0
    else (if TopPair(priceStats, prices, rule, i + 1, t) then 1 else 0) + TopCount(priceStats, prices, rule, t, i + 1)
  }

  /** Bottom pairs counted for threshold `t` among the levels below `i`. */
  function BottomCount(priceStats: seq<StatsEntry>, prices: seq<real>, rule: KeyRule, t: int, i: nat): nat
    requires i == 0 || i < |prices|
  {
    if i == 0 then 0
    else BottomCount(priceStats, prices, rule, t, i - 1) + (if BottomPair(priceStats, prices, rule, i - 1, t) then 1 else 0)
  }

  /** The counters for the thresholds 2, 3 and 4. */
  datatype Counts = Counts(x2: nat, x3: nat, x4: nat)

  datatype Imbalances = Imbalances(high: Counts, low: Counts)

  /** What `detect_imbalances` returns when prices are looked up by `rule`. */
  function ImbalancesWith(priceStats: seq<StatsEntry>, nExtremes: int, rule: KeyRule): Imbalances
  {
    var prices := SortedLevels(priceStats);
    var top := TopStop(|prices|, nExtremes);
    var bottom := BottomStop(|prices|, nExtremes);
    Imbalances(
      Counts(TopCount(priceStats, prices, rule, 2, top), TopCount(priceStats, prices, rule, 3, top),
             TopCount(priceStats, prices, rule, 4, top)),
      Counts(BottomCount(priceStats, prices, rule, 2, bottom), BottomCount(priceStats, prices, rule, 3, bottom),
             BottomCount(priceStats, prices, rule, 4, bottom)))
  }

  /** How a price becomes a lookup key: as written, the text `str(price)`,
      which `pyStr` stands for; as evidently intended, the price itself. */
  datatype KeyRule = ByStr(pyStr: real -> string) | ByPrice

  function KeyFor(rule: KeyRule, p: real): Key
  {
    match rule
    case ByStr(pyStr) => Text(pyStr(p))
    case ByPrice => Num(p)
  }

  /** `detect_imbalances` as written. */
  function DetectImbalancesAsWritten(priceStats: seq<StatsEntry>, nExtremes: int, pyStr: real -> string): Imbalances
  {
    ImbalancesWith(priceStats, nExtremes, ByStr(pyStr))
  }

  /** A text key never finds a numeric one. */
  lemma {:induction false} TextKeyMisses(priceStats: seq<StatsEntry>, text: string)
    ensures Lookup(priceStats, Text(text)) == None
  {
    if priceStats != [] {
      TextKeyMisses(priceStats[1..], text);
    }
  }

  lemma {:induction false} TextTopCountZero(priceStats: seq<StatsEntry>, prices: seq<real>, pyStr: real -> string, t: int, i: nat)
    ensures TopCount(priceStats, prices, ByStr(pyStr), t, i) == 0
    decreases |prices| - i
  {
    if i + 1 < |prices| {
      TextKeyMisses(priceStats, pyStr(prices[i]));
      TextTopCountZero(priceStats, prices, pyStr, t, i + 1);
    }
  }

  lemma {:induction false} TextBottomCountZero(priceStats: seq<StatsEntry>, prices: seq<real>, pyStr: real -> string, t: int, i: nat)
    requires i == 0 || i < |prices|
    ensures BottomCount(priceStats, prices, ByStr(pyStr), t, i) == 0
  {
    if i > 0 {
      TextKeyMisses(priceStats, pyStr(prices[i]));
      TextBottomCountZero(priceStats, prices, pyStr, t, i - 1);
    }
  }

  /** As written, every lookup misses, every denominator is 0, and every
      counter stays 0 whatever the bar holds. */
  lemma AsWrittenFindsNothing(priceStats: seq<StatsEntry>, nExtremes: int, pyStr: real -> string)
    ensures DetectImbalancesAsWritten(priceStats, nExtremes, pyStr) == Imbalances(Counts(0, 0, 0), Counts(0, 0, 0))
  {
    var prices := SortedLevels(priceStats);
    var top := TopStop(|prices|, nExtremes);
    var bottom := BottomStop(|prices|, nExtremes);
    TextTopCountZero(priceStats, prices, pyStr, 2, top);
    TextTopCountZero(priceStats, prices, pyStr, 3, top);
    TextTopCountZero(priceStats, prices, pyStr, 4, top);
    TextBottomCountZero(priceStats, prices, pyStr, 2, bottom);
    TextBottomCountZero(priceStats, prices, pyStr, 3, bottom);
    TextBottomCountZero(priceStats, prices, pyStr, 4, bottom);
  }

  /** A two-level bar whose upper level has ten times the bid volume below
      it as ask volume: one top imbalance at every threshold, which the code
      as written reports as none. */
  lemma AsWrittenMissesImbalance(pyStr: real -> string)
    ensures var priceStats := [StatsEntry(100.25, Some(11), Some(9), Some(1), Some(10)),
                               StatsEntry(100.0, Some(2), Some(0), Some(1), Some(1))];
            && DetectImbalancesAsWritten(priceStats, 3, pyStr).high == Counts(0, 0, 0)
            && ImbalancesWith(priceStats, 3, ByPrice).high == Counts(1, 1, 1)
  {
    var priceStats := [StatsEntry(100.25, Some(11), Some(9), Some(1), Some(10)),
                       StatsEntry(100.0, Some(2), Some(0), Some(1), Some(1))];
    AsWrittenFindsNothing(priceStats, 3, pyStr);
    var prices := SortedLevels(priceStats);
    assert EntryPrices(priceStats) == [100.25, 100.0];
    assert EntryPrices(priceStats)[1..] == [100.0];
    assert prices == [100.0, 100.25];
    assert Lookup(priceStats, Num(100.25)) == Some(priceStats[0]);
    assert Lookup(priceStats, Num(100.0)) == Some(priceStats[1]);
    assert TopPair(priceStats, prices, ByPrice, 1, 4);
  }

  /** The upper loop of `detect_imbalances`: the ask volume at each of the
      top levels against the bid volume one level below. */
  method TopImbalances(priceStats: seq<StatsEntry>, prices: seq<real>, nExtremes: int, rule: KeyRule)
    returns (c: Counts)
    ensures c == Counts(TopCount(priceStats, prices, rule, 2, TopStop(|prices|, nExtremes)),
                        TopCount(priceStats, prices, rule, 3, TopStop(|prices|, nExtremes)),
                        TopCount(priceStats, prices, rule, 4, TopStop(|prices|, nExtremes)))
  {
    var len := |prices|;
    var x2, x3, x4 := 0, 0, 0;
    var i := len - 1;
    while i > len - nExtremes
      invariant Min(len - 1, len - nExtremes) <= i <= len - 1
      invariant x2 == TopCount(priceStats, prices, rule, 2, Max(i, 0))
      invariant x3 == TopCount(priceStats, prices, rule, 3, Max(i, 0))
      invariant x4 == TopCount(priceStats, prices, rule, 4, Max(i, 0))
    {
      if i <= 0 {
        break;
      }
      var ask := AskOf(Lookup(priceStats, KeyFor(rule, prices[i])));
      var bidBelow := BidOf(Lookup(priceStats, KeyFor(rule, prices[i - 1])));
      if bidBelow > 0 {
        var ratio := (ask as real) / (bidBelow as real);
        if ratio >= 2.0 { x2 := x2 + 1; }
        if ratio >= 3.0 { x3 := x3 + 1; }
        if ratio >= 4.0 { x4 := x4 + 1; }
      }
      i := i - 1;
    }
    assert Max(i, 0) >= len - 1 || Max(i, 0) == TopStop(len, nExtremes);
    c := Counts(x2, x3, x4);
  }

  /** The lower loop of `detect_imbalances`: the bid volume at each of the
      bottom levels against the ask volume one level above. */
  method BottomImbalances(priceStats: seq<StatsEntry>, prices: seq<real>, nExtremes: int, rule: KeyRule)
    returns (c: Counts)
    ensures c == Counts(BottomCount(priceStats, prices, rule, 2, BottomStop(|prices|, nExtremes)),
                        BottomCount(priceStats, prices, rule, 3, BottomStop(|prices|, nExtremes)),
                        BottomCount(priceStats, prices, rule, 4, BottomStop(|prices|, nExtremes)))
  {
    var len := |prices|;
    var x2, x3, x4 := 0, 0, 0;
    var i := 0;
    while i < nExtremes
      invariant 0 <= i && (i == 0 || i < len)
      invariant i <= BottomStop(len, nExtremes)
      invariant x2 == BottomCount(priceStats, prices, rule, 2, i)
      invariant x3 == BottomCount(priceStats, prices, rule, 3, i)
      invariant x4 == BottomCount(priceStats, prices, rule, 4, i)
    {
      if i + 1 >= len {
        break;
      }
      var bid := BidOf(Lookup(priceStats, KeyFor(rule, prices[i])));
      var askAbove := AskOf(Lookup(priceStats, KeyFor(rule, prices[i + 1])));
      if askAbove > 0 {
        var ratio := (bid as real) / (askAbove as real);
        if ratio >= 2.0 { x2 := x2 + 1; }
        if ratio >= 3.0 { x3 := x3 + 1; }
        if ratio >= 4.0 { x4 := x4 + 1; }
      }
      i := i + 1;
    }
    assert i == BottomStop(len, nExtremes);
    c := Counts(x2, x3, x4);
  }

  /** `detect_imbalances` with the lookup by price, and `thresholds` the
      `(2, 3, 4)` every caller passes. */
  method DetectImbalances(priceStats: seq<StatsEntry>, nExtremes: int) returns (r: Imbalances)
    ensures r == ImbalancesWith(priceStats, nExtremes, ByPrice)
  {
    var prices := SortedLevels(priceStats);
    var high := TopImbalances(priceStats, prices, nExtremes, ByPrice);
    var low := BottomImbalances(priceStats, prices, nExtremes, ByPrice);
    r := Imbalances(high, low);
  }

  lemma {:induction false} TopCountBounds(priceStats: seq<StatsEntry>, prices: seq<real>, rule: KeyRule, i: nat)
    ensures TopCount(priceStats, prices, rule, 4, i) <= TopCount(priceStats, prices, rule, 3, i)
    ensures TopCount(priceStats, prices, rule, 3, i) <= TopCount(priceStats, prices, rule, 2, i)
    ensures TopCount(priceStats, prices, rule, 2, i) <= Max(0, |prices| - 1 - i)
    decreases |prices| - i
  {
    if i + 1 < |prices| {
      TopCountBounds(priceStats, prices, rule, i + 1);
    }
  }

  lemma {:induction false} BottomCountBounds(priceStats: seq<StatsEntry>, prices: seq<real>, rule: KeyRule, i: nat)
    requires i == 0 || i < |prices|
    ensures BottomCount(priceStats, prices, rule, 4, i) <= BottomCount(priceStats, prices, rule, 3, i)
    ensures BottomCount(priceStats, prices, rule, 3, i) <= BottomCount(priceStats, prices, rule, 2, i)
    ensures BottomCount(priceStats, prices, rule, 2, i) <= i
  {
    if i > 0 {
      BottomCountBounds(priceStats, prices, rule, i - 1);
    }
  }

  /** A pair that reaches 4 reaches 3 and 2, so the counters are nested; and
      only the pairs inside the `n_extremes` outermost levels are examined:
      at most `n_extremes - 1` at the top and `n_extremes` at the bottom. */
  lemma ImbalancesNested(priceStats: seq<StatsEntry>, nExtremes: int, rule: KeyRule)
    ensures var r := ImbalancesWith(priceStats, nExtremes, rule);
            && r.high.x4 <= r.high.x3 <= r.high.x2 <= Max(0, nExtremes - 1)
            && r.low.x4 <= r.low.x3 <= r.low.x2 <= Max(0, nExtremes)
  {
    var prices := SortedLevels(priceStats);
    TopCountBounds(priceStats, prices, rule, TopStop(|prices|, nExtremes));
    BottomCountBounds(priceStats, prices, rule, BottomStop(|prices|, nExtremes));
  }

  // ---------------------------------------------------------------------
  // max_excursion_until_return

  /** The bar at `idx` counts as rising only when it closes above its open;
      a flat bar is treated as falling. */
  predicate Rising(b: Bar)
  {
    b.close > b.open
  }

  /** How far bar `i` goes beyond the close of bar `idx`, in the bar's
      direction. */
  function Excursion(df: seq<Bar>, idx: nat, i: nat): real
    requires idx < |df| && i < |df|
  {
    if Rising(df[idx]) then df[i].high - df[idx].close else df[idx].close - df[i].low
  }

  /** Bar `i` trades back to the close of bar `idx`. */
  predicate ReturnsToClose(df: seq<Bar>, idx: nat, i: nat)
    requires idx < |df| && i < |df|
  {
    if Rising(df[idx]) then df[i].low <= df[idx].close else df[i].high >= df[idx].close
  }

  /** The number of bars scanned from `i` on: up to and including the first
      bar that returns to the close, or to the end of the data. */
  function ScanLength(df: seq<Bar>, idx: nat, i: nat): (n: nat)
    requires idx < |df|
    ensures i <= |df| ==> n <= |df| - i
    decreases |df| - i
  {
    if i >= |df| then 0
    else if ReturnsToClose(df, idx, i) then 1
    else 1 + ScanLength(df, idx, i + 1)
  }

  /** The largest excursion of the bars strictly between `idx` and `hi`, and
      0 when none goes beyond the close. */
  function MaxExcursion(df: seq<Bar>, idx: nat, hi: nat): real
    requires idx < |df| && hi <= |df|
  {
    if hi <= idx + 1 then 0.0
    else
      var m := MaxExcursion(df, idx, hi - 1);
      if Excursion(df, idx, hi - 1) > m then Excursion(df, idx, hi - 1) else m
  }

  /** What `max_excursion_until_return` returns: the largest excursion over
      the scanned bars, and their number. */
  function ExcursionUntilReturn(df: seq<Bar>, idx: nat): (real, nat)
    requires idx < |df|
  {
    var n := ScanLength(df, idx, idx + 1);
    (MaxExcursion(df, idx, idx + 1 + n), n)
  }

  method MaxExcursionUntilReturn(df: seq<Bar>, idx: nat) returns (maxExc: real, nBars: nat)
    requires idx < |df|
    ensures (maxExc, nBars) == ExcursionUntilReturn(df, idx)
  {
    maxExc := 0.0;
    nBars := 0;
    for i := idx + 1 to |df|
      invariant nBars == i - idx - 1
      invariant ScanLength(df, idx, idx + 1) == nBars + ScanLength(df, idx, i)
      invariant maxExc == MaxExcursion(df, idx, i)
    {
      nBars := nBars + 1;
      var exc := Excursion(df, idx, i);
      if exc > maxExc {
        maxExc := exc;
      }
      if ReturnsToClose(df, idx, i) {
        return;
      }
    }
  }

  /** The scan from `i` passes over bars that do not return and stops on
      one that does, or at the end of the data. */
  lemma {:induction false} ScanLengthSpec(df: seq<Bar>, idx: nat, i: nat)
    requires idx < |df| && i <= |df|
    ensures var n := ScanLength(df, idx, i);
            && (forall k :: i <= k < i + n - 1 ==> !ReturnsToClose(df, idx, k))
            && (n > 0 ==> i + n == |df| || ReturnsToClose(df, idx, i + n - 1))
            && (n == 0 <==> i == |df|)
    decreases |df| - i
  {
    if i < |df| && !ReturnsToClose(df, idx, i) {
      ScanLengthSpec(df, idx, i + 1);
    }
  }

  /** The maximum is at least 0, at least every excursion it ranges over,
      and either 0 or one of them. */
  lemma {:induction false} MaxExcursionSpec(df: seq<Bar>, idx: nat, hi: nat)
    requires idx < |df| && hi <= |df|
    ensures var m := MaxExcursion(df, idx, hi);
            && m >= 0.0
            && (forall k :: idx < k < hi ==> Excursion(df, idx, k) <= m)
            && (m == 0.0 || exists k :: idx < k < hi && Excursion(df, idx, k) == m)
  {
    if hi > idx + 1 {
      MaxExcursionSpec(df, idx, hi - 1);
    }
  }

  /** The scan looks only at bars after `idx`, stops at the first bar that
      returns to the close or at the end of the data, and its excursion is
      the largest over the bars it looked at, or 0. */
  lemma ExcursionSpec(df: seq<Bar>, idx: nat)
    requires idx < |df|
    ensures var (m, n) := ExcursionUntilReturn(df, idx);
            && n <= |df| - idx - 1
            && (forall k :: idx < k < idx + n ==> !ReturnsToClose(df, idx, k))
            && (idx + n == |df| - 1 || ReturnsToClose(df, idx, idx + n))
            && m >= 0.0
            && (forall k :: idx < k <= idx + n ==> Excursion(df, idx, k) <= m)
            && (m == 0.0 || exists k :: idx < k <= idx + n && Excursion(df, idx, k) == m)
  {
    ScanLengthSpec(df, idx, idx + 1);
    MaxExcursionSpec(df, idx, idx + 1 + ScanLength(df, idx, idx + 1));
  }

  // ---------------------------------------------------------------------
  // divergence (the main block)

  /** Price direction against delta direction: a bar that does not close
      above its open counts as down, and a delta that is not positive
      counts as negative. */
  function IsDivergent(bar: Bar, deltaPerLevel: seq<LevelValue>): bool
  {
    var priceDir := if bar.close > bar.open then 1 else -1;
    var deltaDir := if SumValues(deltaPerLevel) > 0 then 1 else -1;
    priceDir != deltaDir
  }

  /** Exactly the bars whose close direction disagrees with the sign of the
      delta are divergent; so a flat bar is divergent exactly when its delta
      is positive. */
  lemma DivergenceMeaning(bar: Bar, deltaPerLevel: seq<LevelValue>)
    ensures IsDivergent(bar, deltaPerLevel) <==> (Rising(bar) <==> SumValues(deltaPerLevel) <= 0)
    ensures bar.close == bar.open ==> (IsDivergent(bar, deltaPerLevel) <==> SumValues(deltaPerLevel) > 0)
  {
  }
}

=== FILE: wrappers.dfy ===
/** The optional value the models use where the scripts use `None`. */
module Wrappers {
  datatype Option<T> = None | Some(value: T)
}
